=== FILE: README.md ===
# ETW personal tasks, calendar, missions, chat and courses — a Dafny model

This project models the client-side core of the ETW dashboard. It covers five pieces:

- **The personal-task store** (`lib/personal-tasks.ts`). Tasks are kept as one JSON array in browser storage. The store has load and save, plus upsert, remove, toggle, schedule and partial update. Each of these loads the list, changes it, saves it and returns it. The model (`PersonalTasks`) treats the storage slot as a value. Each list operation is a pure function from the loaded list to the list that gets saved.
- **The calendar dashboard** (`components/etw/calendar-dashboard.tsx`). It picks the tasks for the selected day and hides completed ones after a cutoff. It also has the per-task colour hash, the side-by-side layout of overlapping tasks, and the add-task form. The layout lives in `DayLayout`:
  1. build the overlap graph;
  2. find its connected components;
  3. sort each component by time;
  4. assign first-fit columns;
  5. compute the geometry.

  The page logic lives in `CalendarDashboard`.
- **The missions page** (`app/missions/page.tsx`), modelled in `Missions`. It covers:
  - merging stored personal tasks into the card list;
  - the due-date labels ("Today • in 1h 5m (at …)", "Due in 3 days", …);
  - per-type statistics;
  - toggling a card;
  - adding a personal task.
- **The floating chat** (`components/etw/floating-chat.tsx`), modelled in `Chat`. It covers:
  - the state updates for sending a message, reacting to one, changing room and removing an attachment;
  - the fallback rules for the active room and sub-chat;
  - the display order of reactions.
- **The courses page** (`app/courses/page.tsx`), modelled in `Courses`. It covers:
  - completing a video, which auto-advances to the next one;
  - toggling a bookmark;
  - the course card's button label and its click.

`Common` holds the shared pieces:

- `Option`;
- a sequence `Filter`;
- JavaScript's `trim`;
- the clock model: instants are integer milliseconds, and a fixed zone offset turns an instant into a local day and a minute of the day.

## Model

| member | source | states |
|---|---|---|
| Common.TrimStart | components/etw/calendar-dashboard.tsx:151 | This is the leading half of the `trim()` that all the title guards use. The result is a suffix of the input that does not start with white space, and everything dropped was white space. |
| Common.Filter | app/missions/page.tsx:264 | `filter` keeps exactly the elements the predicate accepts and never lengthens the list. When the predicate accepts everything, the list comes back unchanged. |
| Common.FilterAppend | app/missions/page.tsx:202 | Filtering a concatenation gives the filtered parts in the same order. With the membership rule this fixes the result: the kept elements, in their original order. |
| Common.TrimEnd | components/etw/calendar-dashboard.tsx:151 | This is the trailing half of `trim()`. The result is a prefix of the input that does not end with white space, and everything dropped was white space. |
| Common.BlankIffAllSpace | app/missions/page.tsx:169 | A title fails the `title.trim()` guard exactly when every character of it is white space. |
| Common.MinuteOfDay | components/etw/calendar-dashboard.tsx:89 | `getHours()*60+getMinutes()` lies in [0, 1440). Counted from the local midnight of the instant's own day, it does not pass the instant. |
| Common.InDayIffLocalDay | components/etw/calendar-dashboard.tsx:55-56 | An instant lies between a day's midnight and the next midnight exactly when its local day is that day. |
| Common.MinuteOfDayPlusHour | components/etw/calendar-dashboard.tsx:92-93 | The default end, one hour after the start, reads 60 minutes later on the clock face, wrapping past midnight. |
| PersonalTasks.Load | lib/personal-tasks.ts:23-34 | The stored array comes back only when there is a window, the slot holds non-empty text, and that text parses to an array. Every other case (no window, unset or empty slot, parse error, non-array) yields the empty list. |
| PersonalTasks.Save | lib/personal-tasks.ts:36-39 | Without a window nothing is stored. In the browser the slot holds the serialised list. |
| PersonalTasks.LoadAfterSave | lib/personal-tasks.ts:23-39 | Saving a list and loading it again gives the same list back, provided serialisation round-trips through the parser. |
| PersonalTasks.FindIndex | lib/personal-tasks.ts:43 | `findIndex` returns the first position holding the id, and it returns none exactly when no task has that id. |
| PersonalTasks.Upsert | lib/personal-tasks.ts:41-48 | A task with a known id replaces the first task with that id and leaves every other position alone. A task with a new id is appended after an unchanged list. |
| PersonalTasks.UpsertFreshIsUnique | lib/personal-tasks.ts:44-45 | Upserting a task whose id is new leaves exactly one task with that id. |
| PersonalTasks.UpsertSameIdReplaces | lib/personal-tasks.ts:41-48 | Upserting two tasks with the same id one after the other is the same as upserting only the second. |
| PersonalTasks.Remove | lib/personal-tasks.ts:50-54 | The kept tasks are exactly the tasks whose id differs. The list is unchanged when the id is absent and strictly shorter when it is present. |
| PersonalTasks.RemoveAppend | lib/personal-tasks.ts:51 | Removing from a concatenation is the same as removing from each part. |
| PersonalTasks.Toggle | lib/personal-tasks.ts:56-64 | Every task with the id flips `isCompleted`. It carries a `completedAt` (the given instant) exactly when it is now completed, and no other field changes. Tasks with other ids are untouched. |
| PersonalTasks.ToggleTwice | lib/personal-tasks.ts:56-64 | Toggling twice restores every completion flag. It restores the whole list when the matching tasks were open and unstamped. |
| PersonalTasks.Schedule | lib/personal-tasks.ts:66-70 | Every task with the id gets the new start and end and keeps every other field. Tasks with other ids are untouched. |
| PersonalTasks.Apply | lib/personal-tasks.ts:73 | In the object spread, each of the fourteen fields takes the patch's value when the patch has that field and keeps the task's value otherwise. The empty patch changes nothing. |
| PersonalTasks.ApplyTwice | lib/personal-tasks.ts:73 | Spreading the same patch a second time changes nothing more. |
| PersonalTasks.Update | lib/personal-tasks.ts:72-76 | The patch is applied to every task with the id and to no other. The empty patch leaves the list as it was. |
| PersonalTasks.UpdateTwice | lib/personal-tasks.ts:72-76 | Two updates of the same id, where the first does not rename, equal one update with the merged patch. |
| PersonalTasks.ScheduleIsUpdate | lib/personal-tasks.ts:66-76 | Rescheduling equals the partial update that patches only the two schedule fields. |
| DayLayout.OverlapsShape | components/etw/calendar-dashboard.tsx:101 | Overlap is symmetric. Two tasks that only touch (one ends when the other starts) do not overlap. |
| DayLayout.NeighboursExact | components/etw/calendar-dashboard.tsx:97-105 | A vertex's adjacency list holds exactly the other items that overlap it, in increasing order. |
| DayLayout.BuildAdjacency | components/etw/calendar-dashboard.tsx:96-105 | After the double loop, each item's adjacency list is its full neighbour list. |
| DayLayout.Components | components/etw/calendar-dashboard.tsx:106-117 | The stack-based search returns components that are non-empty, repetition-free and disjoint. Together they cover every item, each is connected, and no overlap edge leaves a component. |
| DayLayout.SortByTime | components/etw/calendar-dashboard.tsx:121 | The result is ordered by start and then by end, and it is a permutation of the input. |
| DayLayout.AssignColumns | components/etw/calendar-dashboard.tsx:122-131 | First fit over a time-sorted list gives each item a column below `numCols`, and every column is used. Items sharing a column follow one another without overlap, so overlapping items get different columns. Each item's column is the first one free at its start. |
| DayLayout.FirstFitUnique | components/etw/calendar-dashboard.tsx:122-131 | The first-fit rules leave no freedom: two column assignments that both obey them over the same sorted list are equal, and so are their column counts. |
| DayLayout.SharedColumnExample | components/etw/calendar-dashboard.tsx:120-135 | For A = [0, 120), B = [0, 60) and C = [60, 120), the planned order is B, A, C. B and C share column 0 and A takes column 1, so there are two columns of 50 %. |
| DayLayout.Geometry | components/etw/calendar-dashboard.tsx:132-139 | The width is 100/numCols and the left edge is col·width, so the box stays inside [0, 100] %. The top is the start minute counted from 01:00 at one pixel per minute, and the height is the duration with a 30-pixel minimum. |
| DayLayout.DistinctColumnsSideBySide | components/etw/calendar-dashboard.tsx:134-135 | Boxes in different columns of the same group do not overlap horizontally. |
| DayLayout.LayoutGroup | components/etw/calendar-dashboard.tsx:120-139 | The group's plan is its members sorted by time with first-fit columns. With unique ids, every member's box is exactly the geometry of its planned column and the planned column count. The layout has a key for every member id and only in-bounds boxes. A non-empty group uses between 1 and its size columns, each box is one column wide, and a group of one item gets the whole row. With unique ids, each member's box fits its times and overlapping members sit side by side. |
| DayLayout.LoneBlock | components/etw/calendar-dashboard.tsx:122-139 | A one-item group gets one column, so its box starts at the left edge and is 100 % wide. |
| DayLayout.IsolatedAlone | components/etw/calendar-dashboard.tsx:106-117 | The connected component that holds an item overlapping no other item holds nothing else. |
| DayLayout.LayoutById | components/etw/calendar-dashboard.tsx:88-142 | The groups are the connected overlap components, and each has its first-fit plan. With unique ids, every box is the geometry of its item's planned column, each box fits its item, overlapping items are side by side, and an item that overlaps no other spans the whole row. Keys are exactly the items' ids, and every box is within bounds. |
| CalendarDashboard.TasksForDay | components/etw/calendar-dashboard.tsx:54-70 | This is the filter as written. It keeps exactly the tasks scheduled within the selected local day that are open, have no completion stamp, or were completed before 02:00 of the next day. |
| CalendarDashboard.AsWrittenKeepsCompletedTask | components/etw/calendar-dashboard.tsx:57-68 | For any task list and clock reading, a task of the selected day completed before the 02:00 cutoff stays in the as-written filter's result. The corrected filter drops it once the clock reaches the cutoff. |
| CalendarDashboard.AsWrittenExample | components/etw/calendar-dashboard.tsx:57-68 | The concrete case: a task completed at 10:00 on Jan 1 is still listed by the as-written filter at any later instant, and the corrected one hides it from 02:00 on Jan 2. |
| CalendarDashboard.TasksForDayAt | components/etw/calendar-dashboard.tsx:54-70 | The filter with the clock reading it was evidently meant to use keeps a task when it falls on the selected day and is open, unstamped, or the current time is still before 02:00 of the following day. |
| CalendarDashboard.HiddenStaysHidden | components/etw/calendar-dashboard.tsx:58-68 | As time passes, the corrected filter only hides tasks. Open tasks of the day are always shown. |
| CalendarDashboard.RetentionExample | components/etw/calendar-dashboard.tsx:58-60 | A task completed on Jan 1 is still shown at 01:59 on Jan 2 and hidden at 02:01. |
| CalendarDashboard.ItemOf | components/etw/calendar-dashboard.tsx:90-94 | A layout item keeps the task id. Its start is the clock minute of the scheduled start, or of now when there is none. Its end is the clock minute of the scheduled end, or one hour after the start (modulo a day) when there is none. |
| CalendarDashboard.LayoutTasks | components/etw/calendar-dashboard.tsx:88-142 | The shown tasks' blocks are keyed by task id and lie within bounds. The tasks are grouped into connected overlap components, each with its first-fit plan. With unique ids, each block is the geometry of its planned column and sits at its task's clock minutes. Overlapping tasks are side by side, and a task overlapping no other spans the row. |
| CalendarDashboard.Board | components/etw/calendar-dashboard.tsx:54-142 | The page as written lays out exactly the tasks the as-written day filter keeps, and every box is within bounds. |
| CalendarDashboard.BoardAt | components/etw/calendar-dashboard.tsx:54-142 | Under the intended retention rule, the board lays out exactly the tasks `TasksForDayAt` keeps at the given clock reading, within bounds. |
| CalendarDashboard.HornerIsBase31 | components/etw/calendar-dashboard.tsx:80-81 | Truncating to 32 bits at every step (`>>> 0`) gives the same value as reducing the whole base-31 number once. |
| CalendarDashboard.ColourIndex | components/etw/calendar-dashboard.tsx:73-84 | The hash is the sum of the UTF-16 code units weighted by powers of 31, modulo 2^32. The palette index is that hash modulo 4. |
| CalendarDashboard.NewTask | components/etw/calendar-dashboard.tsx:157-168 | A new task takes the draft's title, description, times and multi-day flag. It starts open and unstamped, with reward 50 SP / 10 coins and the "Self-paced" due label. |
| CalendarDashboard.AddTask | components/etw/calendar-dashboard.tsx:150-173 | A blank title changes nothing. Otherwise, when the id is new, the new task is appended after the unchanged list. When the id exists, the new task replaces the first task with that id and every other position is unchanged. |
| CalendarDashboard.AddTaskIgnoresBlankTitle | components/etw/calendar-dashboard.tsx:151 | A title made only of white space leaves the list unchanged. |
| CalendarDashboard.AddTaskFreshIsUnique | components/etw/calendar-dashboard.tsx:157-169 | Adding with a fresh id leaves exactly one task with that id. |
| Missions.RoundMinutes | app/missions/page.tsx:222 | `Math.round(diffMs / 60000)` gives the whole number of minutes nearest to the difference. |
| Missions.Classify | app/missions/page.tsx:207-238 | The due-label cases follow the branches of the code: no start, multi-day range, today and still ahead (hours and minutes rounded), today and past, 1 to 7 days ahead, 1 to 7 days ago, and otherwise the date. |
| Missions.ClassifyByDay | app/missions/page.tsx:215-237 | For a single-day task, the label bucket is decided by the local-day difference alone, in each direction. |
| Missions.NatToStringValue | app/missions/page.tsx:226 | The decimal text of a number reads back as that number. |
| Missions.PluralDays | app/missions/page.tsx:232-234 | "day" takes an "s" exactly when the count exceeds one. |
| Missions.HoursShownOnlyWhenPositive | app/missions/page.tsx:226 | The countdown omits the hours part exactly when there are zero hours. |
| Missions.FromStored | app/missions/page.tsx:240-248 | A stored task becomes a personal card with the same id, title, description, reward and completion, and the rendered due label. |
| Missions.NonPersonal | app/missions/page.tsx:202 | The kept cards are exactly the cards that are not personal. |
| Missions.Sync | app/missions/page.tsx:199-252 | The synced list is the non-personal cards, in order, followed by one card per stored task, in store order. |
| Missions.SyncIdempotent | app/missions/page.tsx:199-252 | Syncing again with the same store and clock changes nothing. |
| Missions.CountCompleted | app/missions/page.tsx:268 | The completed count is at most the total. It equals the total exactly when every card is completed, and it is 0 exactly when none is. |
| Missions.CountCompletedIsFilterLength | app/missions/page.tsx:268 | The count is the length of `filter(task => task.isCompleted)`. |
| Missions.CountCompletedAppend | app/missions/page.tsx:268 | The count of a concatenation is the sum of the parts' counts. |
| Missions.GetStats | app/missions/page.tsx:266-271 | The totals count the cards of the type. The percentage is the ratio rounded to the nearest whole percent under exact arithmetic (within half a point), and it is 0 when there are no cards. |
| Missions.StatsExtremes | app/missions/page.tsx:270 | All completed gives 100 %. None completed gives 0 %. |
| Missions.ToggleLocal | app/missions/page.tsx:158 | Cards with the id flip their completion, and other cards are untouched. |
| Missions.ToggleLocalTwice | app/missions/page.tsx:158 | Toggling a card twice restores the list. |
| Missions.ToggleStore | app/missions/page.tsx:160-165 | With no stored task of the id the store is untouched. Otherwise only tasks with the id change. |
| Missions.ToggleStoreIsToggle | app/missions/page.tsx:160-165 | With at most one stored task per id, the page's toggle equals the store's own toggle. |
| Missions.AddPersonal | app/missions/page.tsx:168-196 | A blank title changes nothing. Otherwise a personal card with the fixed defaults is appended. The store gets the new task (given title and description, 50 SP / 10 coins, open, "Self-paced", unscheduled, nothing else set): appended after the unchanged list when the id is new, or replacing the first task with that id and leaving the rest alone. |
| Chat.MapSubChats | components/etw/floating-chat.tsx:309-313 | Only the sub-chats with the id have their messages transformed. The ids and the length are kept. |
| Chat.MapRooms | components/etw/floating-chat.tsx:305-316 | Only the room with the active id is rewritten, and within it only the matching sub-chats. |
| Chat.AddReaction | components/etw/floating-chat.tsx:415-421 | A present emoji gains one count and the user "You". A new emoji is appended with count 1. Missing reactions count as none. |
| Chat.AddReactionCountsOnce | components/etw/floating-chat.tsx:415-421 | With one entry per emoji, a click keeps one entry per emoji and raises the total count by exactly one. |
| Chat.ReactToMessages | components/etw/floating-chat.tsx:411-424 | Only messages with the id change, and only in their reactions. |
| Chat.React | components/etw/floating-chat.tsx:401-432 | Outside the active room and sub-chat nothing changes. Inside, only the target message's reactions change. |
| Chat.Compose | components/etw/floating-chat.tsx:290-301 | The sent message carries the draft text and the reply flag and parent. Attachments are present only when some were selected, and the reactions and replies start empty. |
| Chat.Send | components/etw/floating-chat.tsx:288-323 | When the guard fails nothing changes. Otherwise the message is appended to every matching sub-chat and the input is reset. Room and sub-chat counts, ids, names and descriptions stay as they were, and only matching sub-chats gain a message. |
| Chat.SendCountsMessages | components/etw/floating-chat.tsx:304-316 | Sending adds exactly one message per sub-chat matching the active ids. |
| Chat.RemoveFile | components/etw/floating-chat.tsx:454-456 | A valid index removes exactly that attachment and keeps the order. Any other index changes nothing. |
| Chat.FindRoom | components/etw/floating-chat.tsx:226 | `find` succeeds exactly when a room has the id, and it returns the first such room. |
| Chat.FindSubChat | components/etw/floating-chat.tsx:227 | `find` succeeds exactly when a sub-chat has the id, and it returns the first such sub-chat. |
| Chat.ActiveChat | components/etw/floating-chat.tsx:226 | The active room falls back to the first room when the id is unknown, and it is absent only when there are no rooms. |
| Chat.ActiveSubChat | components/etw/floating-chat.tsx:227 | The active sub-chat falls back to the room's first one only when no sub-chat has the id. It is absent only when there is no room or the room has no sub-chats. |
| Chat.ChatChange | components/etw/floating-chat.tsx:325-332 | The room id always changes. The sub-chat moves to the new room's first sub-chat when the room exists and has one. Otherwise the sub-chat id stays as it was. |
| Chat.ChatChangeShowsFirstSubChat | components/etw/floating-chat.tsx:226-227 | After the change, the page shows the chosen room and its first sub-chat. |
| Chat.LexTrans | components/etw/floating-chat.tsx:717 | The string order used for ties is transitive. |
| Chat.InsertReaction | components/etw/floating-chat.tsx:717 | Inserting into a list in display order keeps display order and adds exactly the new reaction. |
| Chat.SortReactions | components/etw/floating-chat.tsx:716-717 | The shown order has higher counts first and ties by emoji, and it is a permutation of the reactions. |
| Chat.MostCountedFirst | components/etw/floating-chat.tsx:717 | The first reaction shown has the largest count. |
| Courses.FindVideo | app/courses/page.tsx:159 | The search returns the first position with the id, and it fails exactly when no video has that id. |
| Courses.CompleteVideo | app/courses/page.tsx:156-170 | With no course selected nothing happens. A course missing from the library fails with a type error. Otherwise the first matching video is marked completed and play moves to the next video, except after the last one. |
| Courses.CompleteCurrentAdvances | app/courses/page.tsx:156-170 | Completing the playing video marks it, leaves the others alone, and plays the next one, or stays on the last. |
| Courses.CompleteVideoIdempotent | app/courses/page.tsx:159-161 | Completing the same video again changes nothing more. |
| Courses.ToggleBookmark | app/courses/page.tsx:172-183 | Only the first matching video changes, and its flag flips. Its time is set to the given time exactly when it becomes bookmarked with a non-empty time, and is kept otherwise. |
| Courses.ToggleBookmarkTwice | app/courses/page.tsx:172-183 | Two toggles restore every bookmark flag. A video first bookmarked and then unbookmarked keeps the recorded time. |
| Courses.ButtonLabel | app/courses/page.tsx:428-432 | The label is "Locked" exactly for locked courses, "Continue" for unlocked courses with progress, and "Start Course" otherwise. |
| Courses.Start | app/courses/page.tsx:417-426 | A locked course's button does nothing. Otherwise the course is selected, and its first video plays when it has any. |
| Courses.LabelMatchesStart | app/courses/page.tsx:417-433 | The button changes the selection exactly when it does not read "Locked". |

## Intended retention rule

The day filter's own comments state the rule. At `components/etw/calendar-dashboard.tsx:60` the cutoff is "2am next day". At line 67 a completed task is to be kept "visible until 2am next day". The filter reads the clock (line 57) but never uses the reading. It compares the completion instant with the cutoff, so a task completed during its own day stays visible for good. `CalendarDashboard.TasksForDay` and `Board` model the code as written. `CalendarDashboard.TasksForDayAt` and `BoardAt` model the rule the comments describe (see Findings).

## Left out

- Rendering, DOM events, drag and resize, dialogs, hover timers, scrolling, previews and the `personal-tasks-updated` event are not modelled. They are presentation and I/O.
- Storage I/O: `localStorage` is a `Storage` value. `JSON.stringify` and `JSON.parse` are function parameters, and each store operation is modelled on the loaded list.
- Clocks: `new Date()` and `Date.now()` become parameters (`now`, `today`, `freshId`). Instants are integer milliseconds in one fixed zone offset.
- Daylight-saving changes are not modelled, because the offset is fixed.
- Locale formatting (`toLocaleDateString`, `toLocaleTimeString`) is not modelled. It is passed in as `formatDate` and `formatTime`.
- ISO string parsing is not modelled. Timestamps are already `Option<int>`, where `null`, absent and empty strings are `None`.
- The `type: 'personal'` tag of a stored task is not modelled. It is a constant.
- Mission cards keep the fields the handlers touch. The `icon` field and the mock mission data are not modelled.
- Layout geometry uses exact real arithmetic. Floating-point rounding is not modelled.
- Missions.GetStats: the percentage rounds the exact ratio, halves up. The source computes `(completed / total) * 100` in doubles, which can land just below an exact half and round down: 23 of 40 gives 57 in the source and 58 here. Away from exact halves the two agree.
- Chat.SortReactions: the contract does not state stability. The source's `sort` keeps reactions that compare equal (same count and emoji, different user lists) in their original order. The model proves order and permutation only.
- Chat.LexLeq: `localeCompare` is modelled as code-point order, because locale collation is not available.
- Chat attachments are opaque values. File contents and image previews are not modelled.
- Courses: the back button, the click that selects a video from the list, play/pause and the course progress figures are not modelled. The handlers never update the progress figures.
- The module-level `videos` table of the courses page is part of `Player` rather than a global.
- PersonalTasks.Toggle: the source reads the clock once per matching task. The model uses one `now` for all of them.
- Missions.Classify: the source reads the clock at the top of the sync and again per task. The model takes two readings (`today`, `now`) that are shared by all tasks.
- DayLayout.SortByTime: the contract does not state stability (`Array.prototype.sort` is stable), only order and permutation.
- DayLayout.LayoutById: with duplicate ids, later items overwrite earlier ones in the record. There the contract states only the key set and bounds.
- CalendarDashboard.Board: it states the key set and bounds of the board. The fit, side-by-side and full-width guarantees are stated by `CalendarDashboard.LayoutTasks`, which `Board` and `BoardAt` call.
- Missions.ToggleStore: with several stored tasks sharing an id, the contract states only the frame. The full behaviour is given by `ToggleStoreIsToggle` for unique ids.
- Courses.CompleteVideo: React's deferred state update is taken as immediate. `currentVideo` is a reference into the library instead of a stale copy.

## Findings

| source | as written | input that shows it | evidently intended | confidence | as-written member | corrected member |
|---|---|---|---|---|---|---|
| components/etw/calendar-dashboard.tsx:57-68 | `now` is read but unused. A completed task is kept when its completion instant is before 02:00 of the next day, whatever the time is now. | A task scheduled and completed at 10:00 on Jan 1. Viewing Jan 1 at any later time, even days after, still shows it. | Keep a completed task only while the current time is before 02:00 of the next day. | not executed | CalendarDashboard.AsWrittenKeepsCompletedTask | CalendarDashboard.TasksForDayAt |

=== FILE: calendar_dashboard.dfy ===
/** The day board of components/etw/calendar-dashboard.tsx: which stored
    tasks the selected day shows, how a task becomes a minute interval for
    the layout, the per-task colour, and the "add task" form. */
module CalendarDashboard {
  import opened Common
  import opened PersonalTasks
  import DayLayout

  // ---------------------------------------------------------------------
  // Which tasks the selected day shows
  // ---------------------------------------------------------------------

  /** A completed task stays on its day until 02:00 on the following day. */
  const CutoffHour: int := 2

  /** 02:00 local time on the day after `day`. */
  function Cutoff(day: int, zone: int): int {
    Midnight(day + 1, zone) + CutoffHour * MsPerHour
  }

  /** The scheduled start falls in `[midnight, next midnight)` of `day`. */
  predicate InDay(t: PersonalTask, day: int, zone: int) {
    t.scheduledStart.Some? && Midnight(day, zone) <= t.scheduledStart.value < Midnight(day + 1, zone)
  }

  lemma InDayIff(day: int, zone: int)
    ensures forall t: PersonalTask :: t.scheduledStart.Some? ==>
              (InDay(t, day, zone) <==> LocalDay(t.scheduledStart.value, zone) == day)
  {
    forall t: PersonalTask | t.scheduledStart.Some?
      ensures InDay(t, day, zone) <==> LocalDay(t.scheduledStart.value, zone) == day
    {
      InDayIffLocalDay(t.scheduledStart.value, day, zone);
    }
  }

  /** The filter as written: a completed task is kept when it was completed
      before the cutoff, whatever the time of viewing. */
  predicate ShownAsWritten(t: PersonalTask, day: int, zone: int) {
    InDay(t, day, zone)
    && (!t.isCompleted || t.completedAt.None? || t.completedAt.value < Cutoff(day, zone))
  }

  /** The filter as the retention rule describes it: a completed task is kept
      while the clock reads earlier than the cutoff. */
  predicate ShownAt(t: PersonalTask, day: int, zone: int, now: int) {
    InDay(t, day, zone)
    && (!t.isCompleted || t.completedAt.None? || now < Cutoff(day, zone))
  }

  /** `tasksForSelectedDay` as written. The clock reading `now` taken by the
      source is never consulted, so it is not a parameter. */
  function TasksForDay(tasks: seq<PersonalTask>, current: int, zone: int): (r: seq<PersonalTask>)
    ensures |r| <= |tasks|
    ensures forall t :: t in r <==>
              && t in tasks && t.scheduledStart.Some?
              && LocalDay(t.scheduledStart.value, zone) == LocalDay(current, zone)
              && (t.isCompleted && t.completedAt.Some? ==>
                    t.completedAt.value < Midnight(LocalDay(current, zone) + 1, zone) + 2 * MsPerHour)
  {
    var day := LocalDay(current, zone);
    InDayIff(day, zone);
    Filter(tasks, t => ShownAsWritten(t, day, zone))
  }

  /** The selected day's tasks with the retention rule applied at clock
      reading `now`. */
  function TasksForDayAt(tasks: seq<PersonalTask>, current: int, zone: int, now: int): (r: seq<PersonalTask>)
    ensures |r| <= |tasks|
    ensures forall t :: t in r <==>
              && t in tasks && t.scheduledStart.Some?
              && LocalDay(t.scheduledStart.value, zone) == LocalDay(current, zone)
              && (t.isCompleted && t.completedAt.Some? ==>
                    now < Midnight(LocalDay(current, zone) + 1, zone) + 2 * MsPerHour)
  {
    var day := LocalDay(current, zone);
    InDayIff(day, zone);
    Filter(tasks, t => ShownAt(t, day, zone, now))
  }

  /** Once a completed task has left the board it does not come back as the
      clock moves on; open tasks do not depend on the clock at all. */
  lemma HiddenStaysHidden(tasks: seq<PersonalTask>, current: int, zone: int, now1: int, now2: int)
    requires now1 <= now2
    ensures forall t :: t in TasksForDayAt(tasks, current, zone, now2) ==> t in TasksForDayAt(tasks, current, zone, now1)
    ensures forall t :: t in tasks && !t.isCompleted ==>
              (t in TasksForDayAt(tasks, current, zone, now1) <==> t in TasksForDayAt(tasks, current, zone, now2))
  {
  }

  /** 2024-01-01 is day 19723 of the epoch. */
  const Jan1: int := 19723

  /** A task scheduled for 2024-01-01 09:00 and completed at 10:00 (UTC). */
  const DoneOnJan1: PersonalTask := PersonalTask(
    "t1", "Report", "", Reward(50, 10), true, Some("Self-paced"), None, None,
    Some(Jan1 * MsPerDay + 9 * MsPerHour), Some(Jan1 * MsPerDay + 10 * MsPerHour),
    None, None, Some(false), Some(Jan1 * MsPerDay + 10 * MsPerHour))

  /** The retention example: viewing 2024-01-01's board at 01:59 the next day
      still shows the completed task, and at 02:01 no longer does. */
  lemma RetentionExample()
    ensures DoneOnJan1 in TasksForDayAt([DoneOnJan1], Jan1 * MsPerDay, 0, (Jan1 + 1) * MsPerDay + 119 * MsPerMinute)
    ensures DoneOnJan1 !in TasksForDayAt([DoneOnJan1], Jan1 * MsPerDay, 0, (Jan1 + 1) * MsPerDay + 121 * MsPerMinute)
  {
  }

  /** The filter as written never hides a task completed before the cutoff
      of its own day, however late the board is viewed, while the retention
      rule has hidden it once the clock passes the cutoff. */
  lemma AsWrittenKeepsCompletedTask(tasks: seq<PersonalTask>, t: PersonalTask, current: int, zone: int, now: int)
    requires t in tasks && t.scheduledStart.Some? && LocalDay(t.scheduledStart.value, zone) == LocalDay(current, zone)
    requires t.isCompleted && t.completedAt.Some? && t.completedAt.value < Cutoff(LocalDay(current, zone), zone)
    ensures t in TasksForDay(tasks, current, zone)
    ensures now >= Cutoff(LocalDay(current, zone), zone) ==> t !in TasksForDayAt(tasks, current, zone, now)
  {
  }

  /** The same on the example task: completed at 10:00, still listed by the
      filter as written at any later instant. */
  lemma AsWrittenExample(now: int)
    ensures DoneOnJan1 in TasksForDay([DoneOnJan1], Jan1 * MsPerDay, 0)
    ensures now >= (Jan1 + 1) * MsPerDay + 2 * MsPerHour ==>
              DoneOnJan1 !in TasksForDayAt([DoneOnJan1], Jan1 * MsPerDay, 0, now)
  {
    AsWrittenKeepsCompletedTask([DoneOnJan1], DoneOnJan1, Jan1 * MsPerDay, 0, now);
  }

  // ---------------------------------------------------------------------
  // From task to layout item
  // ---------------------------------------------------------------------

  /** `items` in `layoutById`: minutes since local midnight of the start (the
      clock reading when unscheduled) and of the end (one hour after the
      start when no end is stored). */
  function ItemOf(t: PersonalTask, zone: int, now: int): (it: DayLayout.Item)
    ensures it.id == t.id
    ensures 0 <= it.start < 1440 && 0 <= it.end < 1440
    ensures t.scheduledStart.Some? ==> it.start == MinuteOfDay(t.scheduledStart.value, zone)
    ensures t.scheduledStart.None? ==> it.start == MinuteOfDay(now, zone)
    ensures t.scheduledEnd.Some? ==> it.end == MinuteOfDay(t.scheduledEnd.value, zone)
    ensures t.scheduledEnd.None? ==> it.end == (it.start + 60) % 1440
  {
    var s := t.scheduledStart.GetOr(now);
    var e := t.scheduledEnd.GetOr(s + MsPerHour);
    MinuteOfDayPlusHour(s, zone);
    DayLayout.Item(t.id, MinuteOfDay(s, zone), MinuteOfDay(e, zone))
  }

  function Items(tasks: seq<PersonalTask>, zone: int, now: int): (r: seq<DayLayout.Item>)
    ensures |r| == |tasks| && forall i :: 0 <= i < |tasks| ==> r[i] == ItemOf(tasks[i], zone, now)
  {
    seq(|tasks|, i requires 0 <= i < |tasks| => ItemOf(tasks[i], zone, now))
  }

  function TaskIds(tasks: seq<PersonalTask>): set<string> {
    set t | t in tasks :: t.id
  }

  /** `layoutById` over a list of shown tasks: one block per task id, each
      inside the row; with distinct ids every block sits at its task's
      times and overlapping tasks are drawn side by side. */
  method LayoutTasks(shown: seq<PersonalTask>, zone: int, now: int)
    returns (layout: map<string, DayLayout.Layout>, groups: seq<seq<nat>>, plans: seq<DayLayout.ColumnPlan>)
    ensures layout.Keys == TaskIds(shown)
    ensures forall id :: id in layout ==> DayLayout.Bounded(layout[id])
    ensures DayLayout.UniqueIds(Items(shown, zone, now)) ==>
              forall i :: 0 <= i < |shown| ==> DayLayout.Fits(layout[shown[i].id], ItemOf(shown[i], zone, now))
    ensures DayLayout.UniqueIds(Items(shown, zone, now)) ==>
              forall i, j :: 0 <= i < |shown| && 0 <= j < |shown| && i != j
                             && DayLayout.Overlaps(ItemOf(shown[i], zone, now), ItemOf(shown[j], zone, now)) ==>
                DayLayout.SideBySide(layout[shown[i].id], layout[shown[j].id])
    ensures DayLayout.UniqueIds(Items(shown, zone, now)) ==>
              forall i :: 0 <= i < |shown| && DayLayout.Isolated(Items(shown, zone, now), i) ==>
                DayLayout.FullWidth(layout[shown[i].id])
    ensures DayLayout.Partitioned(Items(shown, zone, now), groups) && DayLayout.GroupsConnected(Items(shown, zone, now), groups)
    ensures |plans| == |groups|
    ensures forall g :: 0 <= g < |groups| ==> DayLayout.PlanOf(DayLayout.Members(Items(shown, zone, now), groups[g]), plans[g])
    ensures DayLayout.UniqueIds(Items(shown, zone, now)) ==> forall g :: 0 <= g < |groups| ==> DayLayout.Planned(plans[g], layout)
  {
    var items := Items(shown, zone, now);
    layout, groups, plans := DayLayout.LayoutById(items);
    ItemIds(shown, zone, now);
  }

  /** The blocks the page draws: the layout of the tasks the filter as
      written keeps. */
  method Board(tasks: seq<PersonalTask>, current: int, zone: int, now: int) returns (layout: map<string, DayLayout.Layout>)
    ensures layout.Keys == TaskIds(TasksForDay(tasks, current, zone))
    ensures forall id :: id in layout ==> DayLayout.Bounded(layout[id])
  {
    var groups, plans;
    layout, groups, plans := LayoutTasks(TasksForDay(tasks, current, zone), zone, now);
  }

  /** The blocks under the retention rule: the layout of the tasks
      `TasksForDayAt` keeps at clock reading `now`. */
  method BoardAt(tasks: seq<PersonalTask>, current: int, zone: int, now: int) returns (layout: map<string, DayLayout.Layout>)
    ensures layout.Keys == TaskIds(TasksForDayAt(tasks, current, zone, now))
    ensures forall id :: id in layout ==> DayLayout.Bounded(layout[id])
  {
    var groups, plans;
    layout, groups, plans := LayoutTasks(TasksForDayAt(tasks, current, zone, now), zone, now);
  }

  /** The items carry exactly the tasks' ids. */
  lemma ItemIds(tasks: seq<PersonalTask>, zone: int, now: int)
    ensures DayLayout.Ids(Items(tasks, zone, now)) == TaskIds(tasks)
  {
    var items := Items(tasks, zone, now);
    forall id | id in TaskIds(tasks) ensures id in DayLayout.Ids(items) {
      var t :| t in tasks && t.id == id;
      var i :| 0 <= i < |tasks| && tasks[i] == t;
      assert items[i].id == id;
    }
    forall id | id in DayLayout.Ids(items) ensures id in TaskIds(tasks) {
      var i :| 0 <= i < |items| && items[i].id == id;
      assert tasks[i] in tasks;
    }
  }

  // ---------------------------------------------------------------------
  // Task colour
  // ---------------------------------------------------------------------

  const TwoTo32: int := 0x1_0000_0000
  const PaletteSize: nat := 4

  /** The UTF-16 code units of a string, which `charCodeAt` reads. */
  function CodeUnits(s: string): (r: seq<int>)
    ensures forall k :: 0 <= k < |r| ==> 0 <= r[k] < 0x1_0000
    ensures |s| <= |r| <= 2 * |s|
  {
    if |s| == 0 then []
    else
      var c := s[0] as int;
      (if c < 0x1_0000 then [c] else [0xD800 + (c - 0x1_0000) / 0x400, 0xDC00 + (c - 0x1_0000) % 0x400])
      + CodeUnits(s[1..])
  }

  /** The reference hash: the code units read as digits in base 31,
      modulo 2^32. */
  function Horner(u: seq<int>): (h: int)
    ensures 0 <= h < TwoTo32
  {
    if |u| == 0 then 0 else (Horner(u[..|u| - 1]) * 31 + u[|u| - 1]) % TwoTo32
  }

  function Pow31(n: nat): (p: int)
    ensures p >= 1
  {
    if n == 0 then 1 else 31 * Pow31(n - 1)
  }

  /** `u[0]*31^(n-1) + ... + u[n-1]`. */
  function Base31(u: seq<int>): int {
    if |u| == 0 then 0 else Base31(u[..|u| - 1]) * 31 + u[|u| - 1]
  }

  /** The wrapped hash is the base-31 value reduced modulo 2^32 once. */
  lemma {:induction false} HornerIsBase31(u: seq<int>)
    ensures Horner(u) == Base31(u) % TwoTo32
  {
    if |u| > 0 {
      var init := u[..|u| - 1];
      HornerIsBase31(init);
      var b := Base31(init);
      var q := b / TwoTo32;
      assert b == q * TwoTo32 + Horner(init);
      assert Base31(u) == (q * 31) * TwoTo32 + (Horner(init) * 31 + u[|u| - 1]);
      ModShift(Horner(init) * 31 + u[|u| - 1], q * 31);
    }
  }

  lemma ModShift(x: int, k: int)
    ensures (k * TwoTo32 + x) % TwoTo32 == x % TwoTo32
  {
  }

  /** The base-31 value as a sum of powers. */
  function PowerSum(u: seq<int>): int {
    if |u| == 0 then 0 else u[0] * Pow31(|u| - 1) + PowerSum(u[1..])
  }

  lemma {:induction false} Base31IsPowerSum(u: seq<int>)
    ensures Base31(u) == PowerSum(u)
  {
    if |u| > 0 {
      var init := u[..|u| - 1];
      Base31IsPowerSum(init);
      PowerSumSnoc(init, u[|u| - 1]);
      assert init + [u[|u| - 1]] == u;
    }
  }

  lemma {:induction false} PowerSumSnoc(u: seq<int>, x: int)
    ensures PowerSum(u + [x]) == PowerSum(u) * 31 + x
  {
    if |u| == 0 {
      assert u + [x] == [x];
    } else {
      assert (u + [x])[1..] == u[1..] + [x];
      PowerSumSnoc(u[1..], x);
      assert u[0] * Pow31(|u|) == u[0] * Pow31(|u| - 1) * 31;
    }
  }

  /** `getTaskColors`: the loop `hash = (hash * 31 + code) >>> 0` over the
      id's code units, then the palette entry `hash % 4`. */
  method ColourIndex(id: string) returns (hash: int, index: nat)
    ensures hash == PowerSum(CodeUnits(id)) % TwoTo32
    ensures index < PaletteSize && index == hash % PaletteSize
  {
    var u := CodeUnits(id);
    hash := 0;
    for i := 0 to |u|
      invariant hash == Horner(u[..i])
    {
      assert u[..i + 1][..i] == u[..i];
      hash := (hash * 31 + u[i]) % TwoTo32;
    }
    assert u[..|u|] == u;
    HornerIsBase31(u);
    Base31IsPowerSum(u);
    index := hash % PaletteSize;
  }

  // ---------------------------------------------------------------------
  // Adding a task from the form
  // ---------------------------------------------------------------------

  /** The form's fields; the date and times are already resolved to the
      instants `start` and `end`. */
  datatype Draft = Draft(title: string, description: string, start: int, end: int, isMultiDay: bool)

  /** The task `addTask` builds. */
  function NewTask(d: Draft, id: string): (t: PersonalTask)
    ensures t.id == id && t.title == d.title && t.description == d.description
    ensures t.reward == Reward(50, 10) && !t.isCompleted && t.dueDate == Some("Self-paced")
    ensures t.scheduledStart == Some(d.start) && t.scheduledEnd == Some(d.end)
    ensures t.isMultiDay == Some(d.isMultiDay) && t.completedAt.None?
  {
    PersonalTask(id, d.title, d.description, Reward(50, 10), false, Some("Self-paced"), None, None,
                 Some(d.start), Some(d.end), None, None, Some(d.isMultiDay), None)
  }

  /** `addTask`: a title that trims to nothing leaves the list alone;
      otherwise the new task, keeping the title as typed, is upserted under
      the id `freshId` taken from the clock: appended after an unchanged list
      when the id is new, or in place of the first task with that id. */
  function AddTask(tasks: seq<PersonalTask>, d: Draft, freshId: string): (r: seq<PersonalTask>)
    ensures Blank(d.title) ==> r == tasks
    ensures !Blank(d.title) && !HasId(tasks, freshId) ==>
              |r| == |tasks| + 1 && r[..|tasks|] == tasks && r[|tasks|] == NewTask(d, freshId)
    ensures !Blank(d.title) && HasId(tasks, freshId) ==>
              |r| == |tasks|
              && var k := FindIndex(tasks, freshId).value;
                 r[k] == NewTask(d, freshId) && forall j :: 0 <= j < |tasks| && j != k ==> r[j] == tasks[j]
  {
    if Blank(d.title) then tasks else Upsert(tasks, NewTask(d, freshId))
  }

  /** A title made only of white space (and the empty title) adds nothing. */
  lemma AddTaskIgnoresBlankTitle(tasks: seq<PersonalTask>, d: Draft, freshId: string)
    requires forall i :: 0 <= i < |d.title| ==> IsJsSpace(d.title[i])
    ensures AddTask(tasks, d, freshId) == tasks
  {
    BlankIffAllSpace(d.title);
  }

  /** A task added with a fresh id is the only one with that id. */
  lemma AddTaskFreshIsUnique(tasks: seq<PersonalTask>, d: Draft, freshId: string)
    requires !Blank(d.title) && !HasId(tasks, freshId)
    ensures CountId(AddTask(tasks, d, freshId), freshId) == 1
  {
    UpsertFreshIsUnique(tasks, NewTask(d, freshId));
  }
}

=== FILE: chat.dfy ===
/** The floating chat's state updates (components/etw/floating-chat.tsx):
    rooms hold sub-chats, sub-chats hold messages, and every handler rebuilds
    the room list with one part replaced. */
module Chat {
  import opened Common

  datatype Reaction = Reaction(emoji: string, count: int, users: seq<string>)

  datatype MessageKind = Plain | System | Bookmark

  /** An attached file, known by name and MIME type. */
  datatype Attachment = Attachment(name: string, mime: string)

  datatype Message = Message(
    id: string,
    user: string,
    content: string,
    timestamp: int,
    kind: MessageKind,
    reactions: Option<seq<Reaction>>,
    replies: seq<Message>,
    isReply: Option<bool>,
    parentId: Option<string>,
    files: Option<seq<Attachment>>)

  datatype SubChat = SubChat(id: string, name: string, description: string, messages: seq<Message>)

  datatype Room = Room(id: string, name: string, description: string, subChats: seq<SubChat>)

  /** The component state the handlers below read and write. */
  datatype ChatState = ChatState(
    rooms: seq<Room>,
    activeChatId: string,
    activeSubChatId: string,
    newMessage: string,
    replyingTo: Option<Message>,
    selectedFiles: seq<Attachment>,
    showInputEmojiPicker: bool)

  // ---------------------------------------------------------------------
  // Rebuilding the room list
  // ---------------------------------------------------------------------

  /** Apply `f` to the message list of every sub-chat with id `subId`. */
  function MapSubChats(subs: seq<SubChat>, subId: string, f: seq<Message> -> seq<Message>): (r: seq<SubChat>)
    ensures |r| == |subs|
    ensures forall j :: 0 <= j < |subs| ==> r[j].id == subs[j].id
    ensures forall j :: 0 <= j < |subs| && subs[j].id != subId ==> r[j] == subs[j]
    ensures forall j :: 0 <= j < |subs| && subs[j].id == subId ==> r[j] == subs[j].(messages := f(subs[j].messages))
  {
    seq(|subs|, j requires 0 <= j < |subs| =>
      if subs[j].id == subId then subs[j].(messages := f(subs[j].messages)) else subs[j])
  }

  /** Apply `f` inside every room with id `chatId`. */
  function MapRooms(rooms: seq<Room>, chatId: string, subId: string, f: seq<Message> -> seq<Message>): (r: seq<Room>)
    ensures |r| == |rooms|
    ensures forall i :: 0 <= i < |rooms| ==> r[i].id == rooms[i].id
    ensures forall i :: 0 <= i < |rooms| && rooms[i].id != chatId ==> r[i] == rooms[i]
    ensures forall i :: 0 <= i < |rooms| && rooms[i].id == chatId ==>
              r[i] == rooms[i].(subChats := MapSubChats(rooms[i].subChats, subId, f))
  {
    seq(|rooms|, i requires 0 <= i < |rooms| =>
      if rooms[i].id == chatId then rooms[i].(subChats := MapSubChats(rooms[i].subChats, subId, f)) else rooms[i])
  }

  // ---------------------------------------------------------------------
  // Reactions
  // ---------------------------------------------------------------------

  predicate HasEmoji(rs: seq<Reaction>, emoji: string) {
    exists k :: 0 <= k < |rs| && rs[k].emoji == emoji
  }

  predicate UniqueEmojis(rs: seq<Reaction>) {
    forall a, b :: 0 <= a < b < |rs| ==> rs[a].emoji != rs[b].emoji
  }

  function TotalCount(rs: seq<Reaction>): int {
    if |rs| == 0 then 0 else rs[0].count + TotalCount(rs[1..])
  }

  /** One click on `emoji`: every reaction with that emoji gains a count and
      the user 'You'; with none, a new reaction is appended. Missing
      reactions count as none. */
  function AddReaction(reactions: Option<seq<Reaction>>, emoji: string): (r: seq<Reaction>)
    ensures var rs := reactions.GetOr([]);
            && (HasEmoji(rs, emoji) ==>
                  |r| == |rs|
                  && forall k :: 0 <= k < |rs| ==>
                       r[k] == (if rs[k].emoji == emoji
                                then rs[k].(count := rs[k].count + 1, users := rs[k].users + ["You"])
                                else rs[k]))
            && (!HasEmoji(rs, emoji) ==> r == rs + [Reaction(emoji, 1, ["You"])])
  {
    match reactions
    case Some(rs) =>
      if HasEmoji(rs, emoji) then
        seq(|rs|, k requires 0 <= k < |rs| =>
          if rs[k].emoji == emoji then rs[k].(count := rs[k].count + 1, users := rs[k].users + ["You"]) else rs[k])
      else rs + [Reaction(emoji, 1, ["You"])]
    case None => [Reaction(emoji, 1, ["You"])]
  }

  lemma {:induction false} TotalCountAppend(a: seq<Reaction>, b: seq<Reaction>)
    ensures TotalCount(a + b) == TotalCount(a) + TotalCount(b)
  {
    if |a| == 0 {
      assert a + b == b;
    } else {
      assert (a + b)[1..] == a[1..] + b;
      TotalCountAppend(a[1..], b);
    }
  }

  /** Bumping the reaction at position `k` of an otherwise equal list adds
      one to the total. */
  lemma {:induction false} TotalCountBump(rs: seq<Reaction>, r: seq<Reaction>, k: nat)
    requires |r| == |rs| && k < |rs| && r[k].count == rs[k].count + 1
    requires forall j :: 0 <= j < |rs| && j != k ==> r[j] == rs[j]
    ensures TotalCount(r) == TotalCount(rs) + 1
  {
    if k > 0 {
      TotalCountBump(rs[1..], r[1..], k - 1);
    } else {
      assert r[1..] == rs[1..];
    }
  }

  /** With one reaction per emoji, a click keeps one reaction per emoji and
      adds exactly one to the total count. */
  lemma AddReactionCountsOnce(reactions: Option<seq<Reaction>>, emoji: string)
    requires UniqueEmojis(reactions.GetOr([]))
    ensures var r := AddReaction(reactions, emoji);
            UniqueEmojis(r) && HasEmoji(r, emoji)
            && TotalCount(r) == TotalCount(reactions.GetOr([])) + 1
  {
    var rs := reactions.GetOr([]);
    var r := AddReaction(reactions, emoji);
    if HasEmoji(rs, emoji) {
      var k :| 0 <= k < |rs| && rs[k].emoji == emoji;
      TotalCountBump(rs, r, k);
      assert r[k].emoji == emoji;
    } else {
      TotalCountAppend(rs, [Reaction(emoji, 1, ["You"])]);
      assert r[|rs|].emoji == emoji;
    }
  }

  /** Apply the click to every message with id `messageId`. */
  function ReactToMessages(msgs: seq<Message>, messageId: string, emoji: string): (r: seq<Message>)
    ensures |r| == |msgs|
    ensures forall k :: 0 <= k < |msgs| && msgs[k].id != messageId ==> r[k] == msgs[k]
    ensures forall k :: 0 <= k < |msgs| && msgs[k].id == messageId ==>
              r[k] == msgs[k].(reactions := Some(AddReaction(msgs[k].reactions, emoji)))
  {
    seq(|msgs|, k requires 0 <= k < |msgs| =>
      if msgs[k].id == messageId then msgs[k].(reactions := Some(AddReaction(msgs[k].reactions, emoji))) else msgs[k])
  }

  /** `handleMessageReaction`: only the target message of the active room's
      active sub-chat changes, and only in its reactions. */
  function React(s: ChatState, messageId: string, emoji: string): (r: ChatState)
    ensures r == s.(rooms := r.rooms) && |r.rooms| == |s.rooms|
    ensures forall i :: 0 <= i < |s.rooms| ==>
              && r.rooms[i].id == s.rooms[i].id && |r.rooms[i].subChats| == |s.rooms[i].subChats|
              && (s.rooms[i].id != s.activeChatId ==> r.rooms[i] == s.rooms[i])
    ensures forall i, j :: 0 <= i < |s.rooms| && s.rooms[i].id == s.activeChatId && 0 <= j < |s.rooms[i].subChats| ==>
              var before, after := s.rooms[i].subChats[j], r.rooms[i].subChats[j];
              && (before.id != s.activeSubChatId ==> after == before)
              && (before.id == s.activeSubChatId ==>
                    && after == before.(messages := after.messages) && |after.messages| == |before.messages|
                    && forall k :: 0 <= k < |before.messages| ==>
                         after.messages[k] == before.messages[k].(reactions := after.messages[k].reactions)
                         && (before.messages[k].id != messageId ==> after.messages[k] == before.messages[k])
                         && (before.messages[k].id == messageId ==>
                               after.messages[k].reactions == Some(AddReaction(before.messages[k].reactions, emoji))))
  {
    s.(rooms := MapRooms(s.rooms, s.activeChatId, s.activeSubChatId,
                         msgs => ReactToMessages(msgs, messageId, emoji)))
  }

  // ---------------------------------------------------------------------
  // Sending
  // ---------------------------------------------------------------------

  /** The send button is live: text that is not blank or an attachment, and
      a room and sub-chat id set. */
  predicate CanSend(s: ChatState) {
    (!Blank(s.newMessage) || |s.selectedFiles| > 0) && s.activeChatId != "" && s.activeSubChatId != ""
  }

  /** The message `handleSendMessage` builds, with `freshId` and `now` taken
      from the clock. */
  function Compose(s: ChatState, freshId: string, now: int): (m: Message)
    ensures m.id == freshId && m.user == "You" && m.content == s.newMessage && m.kind == Plain
    ensures m.isReply == Some(s.replyingTo.Some?)
    ensures m.parentId == (if s.replyingTo.Some? then Some(s.replyingTo.value.id) else None)
    ensures m.files == (if |s.selectedFiles| > 0 then Some(s.selectedFiles) else None)
    ensures m.reactions == Some([]) && m.replies == []
  {
    Message(freshId, "You", s.newMessage, now, Plain, Some([]), [], Some(s.replyingTo.Some?),
            if s.replyingTo.Some? then Some(s.replyingTo.value.id) else None,
            if |s.selectedFiles| > 0 then Some(s.selectedFiles) else None)
  }

  /** `handleSendMessage`: when sending is allowed, the message goes to the
      end of every sub-chat matching the active ids and the input is reset;
      otherwise nothing changes. */
  function Send(s: ChatState, freshId: string, now: int): (r: ChatState)
    ensures !CanSend(s) ==> r == s
    ensures CanSend(s) ==>
              && r.activeChatId == s.activeChatId && r.activeSubChatId == s.activeSubChatId
              && r.newMessage == "" && r.replyingTo.None? && r.selectedFiles == [] && !r.showInputEmojiPicker
              && |r.rooms| == |s.rooms|
              && (forall i :: 0 <= i < |s.rooms| ==>
                    r.rooms[i] == s.rooms[i].(subChats := r.rooms[i].subChats)
                    && |r.rooms[i].subChats| == |s.rooms[i].subChats|)
              && forall i, j :: 0 <= i < |s.rooms| && 0 <= j < |s.rooms[i].subChats| ==>
                   r.rooms[i].subChats[j] == s.rooms[i].subChats[j].(messages := r.rooms[i].subChats[j].messages)
                   && r.rooms[i].subChats[j].messages ==
                        if s.rooms[i].id == s.activeChatId && s.rooms[i].subChats[j].id == s.activeSubChatId
                        then s.rooms[i].subChats[j].messages + [Compose(s, freshId, now)]
                        else s.rooms[i].subChats[j].messages
  {
    if CanSend(s) then
      var m := Compose(s, freshId, now);
      ChatState(MapRooms(s.rooms, s.activeChatId, s.activeSubChatId, msgs => msgs + [m]),
                s.activeChatId, s.activeSubChatId, "", None, [], false)
    else s
  }

  /** Messages over all rooms and sub-chats. */
  function SubChatMessages(subs: seq<SubChat>): nat {
    if |subs| == 0 then 0 else |subs[0].messages| + SubChatMessages(subs[1..])
  }

  function RoomMessages(rooms: seq<Room>): nat {
    if |rooms| == 0 then 0 else SubChatMessages(rooms[0].subChats) + RoomMessages(rooms[1..])
  }

  function CountSub(subs: seq<SubChat>, subId: string): nat {
    if |subs| == 0 then 0 else (if subs[0].id == subId then 1 else 0) + CountSub(subs[1..], subId)
  }

  /** How many (room, sub-chat) pairs carry the active ids. */
  function Targets(rooms: seq<Room>, chatId: string, subId: string): nat {
    if |rooms| == 0 then 0
    else (if rooms[0].id == chatId then CountSub(rooms[0].subChats, subId) else 0) + Targets(rooms[1..], chatId, subId)
  }

  lemma {:induction false} AppendToSubChats(subs: seq<SubChat>, subId: string, m: Message)
    ensures SubChatMessages(MapSubChats(subs, subId, msgs => msgs + [m])) == SubChatMessages(subs) + CountSub(subs, subId)
  {
    if |subs| > 0 {
      var f := (msgs: seq<Message>) => msgs + [m];
      assert MapSubChats(subs, subId, f)[1..] == MapSubChats(subs[1..], subId, f);
      AppendToSubChats(subs[1..], subId, m);
    }
  }

  lemma {:induction false} AppendToRooms(rooms: seq<Room>, chatId: string, subId: string, m: Message)
    ensures RoomMessages(MapRooms(rooms, chatId, subId, msgs => msgs + [m]))
            == RoomMessages(rooms) + Targets(rooms, chatId, subId)
  {
    if |rooms| > 0 {
      var f := (msgs: seq<Message>) => msgs + [m];
      assert MapRooms(rooms, chatId, subId, f)[1..] == MapRooms(rooms[1..], chatId, subId, f);
      AppendToRooms(rooms[1..], chatId, subId, m);
      if rooms[0].id == chatId {
        AppendToSubChats(rooms[0].subChats, subId, m);
      }
    }
  }

  /** A send adds as many messages as there are sub-chats matching the active
      ids: exactly one when that pair is unique, none when it does not exist
      (the input is cleared all the same). */
  lemma SendCountsMessages(s: ChatState, freshId: string, now: int)
    requires CanSend(s)
    ensures RoomMessages(Send(s, freshId, now).rooms) == RoomMessages(s.rooms) + Targets(s.rooms, s.activeChatId, s.activeSubChatId)
  {
    AppendToRooms(s.rooms, s.activeChatId, s.activeSubChatId, Compose(s, freshId, now));
  }

  /** `removeFile(index)`: drop position `index`; any other index leaves the
      list as it is. */
  function RemoveFile(files: seq<Attachment>, index: int): (r: seq<Attachment>)
    ensures 0 <= index < |files| ==> |r| == |files| - 1
    ensures 0 <= index < |files| ==> forall k :: 0 <= k < |r| ==> r[k] == files[if k < index then k else k + 1]
    ensures !(0 <= index < |files|) ==> r == files
  {
    if 0 <= index < |files| then files[..index] + files[index + 1..] else files
  }

  // ---------------------------------------------------------------------
  // Choosing the active room and sub-chat
  // ---------------------------------------------------------------------

  /** `rooms.find(...)`: the first room with id `chatId`. */
  function FindRoom(rooms: seq<Room>, chatId: string): (r: Option<Room>)
    ensures r.Some? <==> exists i :: 0 <= i < |rooms| && rooms[i].id == chatId
    ensures r.Some? ==> r.value in rooms && r.value.id == chatId
    ensures forall i :: 0 <= i < |rooms| && rooms[i].id == chatId && FirstRoomWith(rooms, chatId, i) ==> r == Some(rooms[i])
  {
    if |rooms| == 0 then None
    else if rooms[0].id == chatId then Some(rooms[0])
    else
      var r := FindRoom(rooms[1..], chatId);
      assert forall i :: 0 < i < |rooms| && FirstRoomWith(rooms, chatId, i) ==> FirstRoomWith(rooms[1..], chatId, i - 1);
      r
  }

  /** No room before position `i` has id `chatId`. */
  predicate FirstRoomWith(rooms: seq<Room>, chatId: string, i: nat)
    requires i < |rooms|
  {
    forall j :: 0 <= j < i ==> rooms[j].id != chatId
  }

  /** `activeChat`: the room with the active id, else the first room. */
  function ActiveChat(rooms: seq<Room>, chatId: string): (r: Option<Room>)
    ensures r.None? <==> |rooms| == 0
    ensures r.Some? ==> r.value in rooms
    ensures r.Some? && r.value.id != chatId ==> r.value == rooms[0] && forall i :: 0 <= i < |rooms| ==> rooms[i].id != chatId
  {
    match FindRoom(rooms, chatId)
    case Some(room) => Some(room)
    case None => if |rooms| > 0 then Some(rooms[0]) else None
  }

  /** `subChats.find(...)`: the first sub-chat with id `subId`. */
  function FindSubChat(subs: seq<SubChat>, subId: string): (r: Option<SubChat>)
    ensures r.Some? <==> exists j :: 0 <= j < |subs| && subs[j].id == subId
    ensures r.Some? ==> r.value in subs && r.value.id == subId
    ensures forall j :: 0 <= j < |subs| && subs[j].id == subId && FirstSubChatWith(subs, subId, j) ==> r == Some(subs[j])
  {
    if |subs| == 0 then None
    else if subs[0].id == subId then Some(subs[0])
    else
      var r := FindSubChat(subs[1..], subId);
      assert forall j :: 0 < j < |subs| && FirstSubChatWith(subs, subId, j) ==> FirstSubChatWith(subs[1..], subId, j - 1);
      r
  }

  /** No sub-chat before position `j` has id `subId`. */
  predicate FirstSubChatWith(subs: seq<SubChat>, subId: string, j: nat)
    requires j < |subs|
  {
    forall k :: 0 <= k < j ==> subs[k].id != subId
  }

  /** `activeSubChat`: in the active room, the sub-chat with the active id,
      else the room's first sub-chat. */
  function ActiveSubChat(room: Option<Room>, subId: string): (r: Option<SubChat>)
    ensures r.Some? <==> room.Some? && |room.value.subChats| > 0
    ensures r.Some? ==> r.value in room.value.subChats
    ensures r.Some? && r.value.id != subId ==>
              r.value == room.value.subChats[0]
              && forall j :: 0 <= j < |room.value.subChats| ==> room.value.subChats[j].id != subId
  {
    match room
    case None => None
    case Some(c) =>
      match FindSubChat(c.subChats, subId)
      case Some(sub) => Some(sub)
      case None => if |c.subChats| > 0 then Some(c.subChats[0]) else None
  }

  /** `handleChatChange`: switch rooms, and move to the new room's first
      sub-chat when it exists and has any. */
  function ChatChange(s: ChatState, chatId: string): (r: ChatState)
    ensures r == s.(activeChatId := chatId, activeSubChatId := r.activeSubChatId)
    ensures match FindRoom(s.rooms, chatId)
            case Some(room) =>
              && (|room.subChats| > 0 ==> r.activeSubChatId == room.subChats[0].id)
              && (|room.subChats| == 0 ==> r.activeSubChatId == s.activeSubChatId)
            case None => r.activeSubChatId == s.activeSubChatId
  {
    match FindRoom(s.rooms, chatId)
    case Some(room) =>
      if |room.subChats| > 0 then s.(activeChatId := chatId, activeSubChatId := room.subChats[0].id)
      else s.(activeChatId := chatId)
    case None => s.(activeChatId := chatId)
  }

  /** After switching to an existing room with sub-chats, the page shows that
      room and, when sub-chat ids are distinct, its first sub-chat. */
  lemma ChatChangeShowsFirstSubChat(s: ChatState, chatId: string)
    requires FindRoom(s.rooms, chatId).Some?
    requires var room := FindRoom(s.rooms, chatId).value;
             |room.subChats| > 0 && forall j :: 0 < j < |room.subChats| ==> room.subChats[j].id != room.subChats[0].id
    ensures var r := ChatChange(s, chatId);
            var room := ActiveChat(r.rooms, r.activeChatId);
            room == FindRoom(s.rooms, chatId) && ActiveSubChat(room, r.activeSubChatId) == Some(room.value.subChats[0])
  {
  }

  // ---------------------------------------------------------------------
  // Display order of reactions
  // ---------------------------------------------------------------------

  /** Code-point order on strings, standing in for `localeCompare`. */
  predicate LexLeq(a: string, b: string) {
    |a| == 0 || (|b| > 0 && (a[0] < b[0] || (a[0] == b[0] && LexLeq(a[1..], b[1..]))))
  }

  lemma {:induction false} LexTotal(a: string, b: string)
    ensures LexLeq(a, b) || LexLeq(b, a)
  {
    if |a| > 0 && |b| > 0 && a[0] == b[0] {
      LexTotal(a[1..], b[1..]);
    }
  }

  lemma {:induction false} LexTrans(a: string, b: string, c: string)
    requires LexLeq(a, b) && LexLeq(b, c)
    ensures LexLeq(a, c)
  {
    if |a| > 0 && a[0] == b[0] && b[0] == c[0] {
      LexTrans(a[1..], b[1..], c[1..]);
    }
  }

  /** The comparator `(b.count - a.count) || a.emoji.localeCompare(b.emoji)`
      as "may come first". */
  predicate ShownBefore(a: Reaction, b: Reaction) {
    a.count > b.count || (a.count == b.count && LexLeq(a.emoji, b.emoji))
  }

  predicate DisplayOrder(rs: seq<Reaction>) {
    forall a, b :: 0 <= a < b < |rs| ==> ShownBefore(rs[a], rs[b])
  }

  function InsertReaction(rs: seq<Reaction>, x: Reaction): (r: seq<Reaction>)
    requires DisplayOrder(rs)
    ensures DisplayOrder(r)
    ensures multiset(r) == multiset(rs) + multiset{x} && |r| == |rs| + 1
  {
    if |rs| == 0 then [x]
    else if ShownBefore(rs[|rs| - 1], x) then
      AppendInOrder(rs, x);
      rs + [x]
    else
      var init, last := rs[..|rs| - 1], rs[|rs| - 1];
      assert rs == init + [last];
      var r' := InsertReaction(init, x);
      ReactionBelowLast(init, last, x, r');
      r' + [last]
  }

  /** A reaction that may follow the last one may follow them all. */
  lemma AppendInOrder(rs: seq<Reaction>, x: Reaction)
    requires DisplayOrder(rs) && |rs| > 0 && ShownBefore(rs[|rs| - 1], x)
    ensures DisplayOrder(rs + [x])
  {
    var last := rs[|rs| - 1];
    forall k | 0 <= k < |rs| - 1 ensures ShownBefore(rs[k], x) {
      if rs[k].count == last.count == x.count {
        LexTrans(rs[k].emoji, last.emoji, x.emoji);
      }
    }
    var t := rs + [x];
    forall a, b | 0 <= a < b < |t| ensures ShownBefore(t[a], t[b]) {
      assert t[a] == rs[a];
      if b < |rs| {
        assert t[b] == rs[b];
      }
    }
  }

  /** The last reaction of a sorted list, which may not come before `x`,
      still closes the list once `x` is inserted before it. */
  lemma ReactionBelowLast(init: seq<Reaction>, last: Reaction, x: Reaction, r: seq<Reaction>)
    requires DisplayOrder(init + [last]) && !ShownBefore(last, x)
    requires DisplayOrder(r) && multiset(r) == multiset(init) + multiset{x}
    ensures DisplayOrder(r + [last])
  {
    LexTotal(x.emoji, last.emoji);
    forall k | 0 <= k < |r|
      ensures ShownBefore(r[k], last)
    {
      assert r[k] in multiset(r);
      if r[k] != x {
        assert r[k] in multiset(init);
        var a :| 0 <= a < |init| && init[a] == r[k];
        assert (init + [last])[a] == r[k] && (init + [last])[|init|] == last;
      }
    }
    var t := r + [last];
    forall a, b | 0 <= a < b < |t| ensures ShownBefore(t[a], t[b]) {
      assert t[a] == r[a];
      if b < |r| {
        assert t[b] == r[b];
      }
    }
  }

  /** `[...reactions].sort(...)`: the reactions in display order. */
  function SortReactions(rs: seq<Reaction>): (r: seq<Reaction>)
    ensures DisplayOrder(r)
    ensures multiset(r) == multiset(rs) && |r| == |rs|
  {
    if |rs| == 0 then []
    else
      assert rs == rs[..|rs| - 1] + [rs[|rs| - 1]];
      InsertReaction(SortReactions(rs[..|rs| - 1]), rs[|rs| - 1])
  }

  /** The first reaction shown has the highest count. */
  lemma MostCountedFirst(rs: seq<Reaction>)
    requires |rs| > 0
    ensures var r := SortReactions(rs); forall x :: x in rs ==> r[0].count >= x.count
  {
    var r := SortReactions(rs);
    forall x | x in rs ensures r[0].count >= x.count {
      assert x in multiset(rs);
      assert x in multiset(r);
      var k :| 0 <= k < |r| && r[k] == x;
      if k > 0 {
        assert ShownBefore(r[0], r[k]);
      }
    }
  }
}

=== FILE: common.dfy ===
/** Small shared vocabulary: optional values, JavaScript string trimming,
    and the millisecond clock the pages read through `new Date()`. */
module Common {

  /** The source's `T | null | undefined` fields. */
  datatype Option<+T> = None | Some(value: T) {
    function GetOr(default: T): T {
      match this
      case Some(v) => v
      case None => default
    }
  }

  /** `Array.prototype.filter`: the elements `keep` accepts, in order. */
  function Filter<T(!new)>(s: seq<T>, keep: T -> bool): (r: seq<T>)
    ensures |r| <= |s|
    ensures forall x :: x in r <==> x in s && keep(x)
    ensures (forall i :: 0 <= i < |s| ==> keep(s[i])) ==> r == s
  {
    if |s| == 0 then []
    else
      assert s == [s[0]] + s[1..];
      (if keep(s[0]) then [s[0]] else []) + Filter(s[1..], keep)
  }

  /** Filtering a concatenation filters each part and keeps their order. */
  lemma {:induction false} FilterAppend<T(!new)>(a: seq<T>, b: seq<T>, keep: T -> bool)
    ensures Filter(a + b, keep) == Filter(a, keep) + Filter(b, keep)
  {
    if |a| == 0 {
      assert a + b == b;
    } else {
      assert (a + b)[0] == a[0] && (a + b)[1..] == a[1..] + b;
      FilterAppend(a[1..], b, keep);
    }
  }

  // ---------------------------------------------------------------------
  // String.prototype.trim
  // ---------------------------------------------------------------------

  /** WhiteSpace and LineTerminator code points that `trim()` strips
      (section 22.1.3.32 of ECMA-262, via sections 12.2 and 12.3). */
  predicate IsJsSpace(c: char) {
    || c == '\U{0009}' || c == '\U{000B}' || c == '\U{000C}' || c == '\U{0020}'
    || c == '\U{00A0}' || c == '\U{FEFF}'
    || c == '\U{1680}' || ('\U{2000}' <= c <= '\U{200A}') || c == '\U{202F}'
    || c == '\U{205F}' || c == '\U{3000}'
    || c == '\U{000A}' || c == '\U{000D}' || c == '\U{2028}' || c == '\U{2029}'
  }

  function TrimStart(s: string): (r: string)
    ensures |r| <= |s| && r == s[|s| - |r|..]
    ensures r == [] || !IsJsSpace(r[0])
    ensures forall i :: 0 <= i < |s| - |r| ==> IsJsSpace(s[i])
  {
    if |s| == 0 || !IsJsSpace(s[0]) then s
    else
      var r := TrimStart(s[1..]);
      assert s[1..][|s| - 1 - |r|..] == s[|s| - |r|..];
      assert forall i :: 1 <= i < |s| - |r| ==> s[i] == s[1..][i - 1];
      r
  }

  function TrimEnd(s: string): (r: string)
    ensures |r| <= |s| && r == s[..|r|]
    ensures r == [] || !IsJsSpace(r[|r| - 1])
    ensures forall i :: |r| <= i < |s| ==> IsJsSpace(s[i])
  {
    if |s| == 0 || !IsJsSpace(s[|s| - 1]) then s
    else
      var r := TrimEnd(s[..|s| - 1]);
      assert s[..|s| - 1][..|r|] == s[..|r|];
      assert forall i :: |r| <= i < |s| - 1 ==> s[i] == s[..|s| - 1][i];
      r
  }

  /** `s.trim()`. */
  function Trim(s: string): string {
    TrimEnd(TrimStart(s))
  }

  /** `!s.trim()`: the text is empty once trimmed. */
  predicate Blank(s: string) {
    Trim(s) == ""
  }

  /** A string trims to nothing exactly when every character is one that
      `trim()` strips. */
  lemma {:induction false} BlankIffAllSpace(s: string)
    ensures Blank(s) <==> forall i :: 0 <= i < |s| ==> IsJsSpace(s[i])
  {
    var a := TrimStart(s);
    if |a| > 0 {
      // `a` starts at a character that is not white space, and trimming its
      // end would have to strip that character too.
      assert !IsJsSpace(a[0]) && a[0] == s[|s| - |a|];
      assert TrimEnd(a) != [];
      assert !Blank(s);
    } else {
      assert TrimEnd(a) == [];
      assert Blank(s);
    }
  }

  // ---------------------------------------------------------------------
  // Clock: instants are milliseconds since the epoch; the local zone is a
  // fixed offset `zone` (milliseconds added to UTC to get wall time).
  // ---------------------------------------------------------------------

  const MsPerMinute: int := 60_000
  const MsPerHour: int := 3_600_000
  const MsPerDay: int := 86_400_000

  /** Local calendar day number of instant `t`. */
  function LocalDay(t: int, zone: int): int {
    (t + zone) / MsPerDay
  }

  /** The instant of local midnight that opens day `day`
      (`setHours(0, 0, 0, 0)`). */
  function Midnight(day: int, zone: int): int {
    day * MsPerDay - zone
  }

  /** `d.getHours() * 60 + d.getMinutes()`. */
  function MinuteOfDay(t: int, zone: int): (m: int)
    ensures 0 <= m < 1440
    ensures Midnight(LocalDay(t, zone), zone) + m * MsPerMinute <= t
              < Midnight(LocalDay(t, zone), zone) + (m + 1) * MsPerMinute
  {
    ((t + zone) % MsPerDay) / MsPerMinute
  }

  /** An instant lies in `[Midnight(day), Midnight(day + 1))` exactly when
      its local day is `day`. */
  lemma InDayIffLocalDay(t: int, day: int, zone: int)
    ensures Midnight(day, zone) <= t < Midnight(day + 1, zone) <==> LocalDay(t, zone) == day
  {
  }

  /** Adding an hour to an instant moves its minute-of-day forward by 60,
      wrapping at midnight. */
  lemma {:induction false} MinuteOfDayPlusHour(t: int, zone: int)
    ensures MinuteOfDay(t + MsPerHour, zone) == (MinuteOfDay(t, zone) + 60) % 1440
  {
    var x := t + zone;
    var q := x / MsPerDay;
    var r := x % MsPerDay;
    assert x == q * MsPerDay + r;
    var m := r / MsPerMinute;
    var sec := r % MsPerMinute;
    assert r == m * MsPerMinute + sec;
    if m + 60 < 1440 {
      assert x + MsPerHour == q * MsPerDay + (r + MsPerHour);
      assert (x + MsPerHour) % MsPerDay == r + MsPerHour;
      assert r + MsPerHour == (m + 60) * MsPerMinute + sec;
    } else {
      assert x + MsPerHour == (q + 1) * MsPerDay + (r + MsPerHour - MsPerDay);
      assert (x + MsPerHour) % MsPerDay == r + MsPerHour - MsPerDay;
      assert r + MsPerHour - MsPerDay == (m + 60 - 1440) * MsPerMinute + sec;
    }
  }
}

=== FILE: courses.dfy ===
/** The course player of app/courses/page.tsx. Videos live in one shared
    library keyed by course id and the handlers change them in place, so the
    current video is held as a reference (course id and position) into that
    library rather than as a copy. */
module Courses {
  import opened Common

  datatype Level = Beginner | Intermediate | Advanced

  datatype Course = Course(
    id: string,
    title: string,
    instructor: string,
    duration: string,
    progress: int,
    totalVideos: int,
    completedVideos: int,
    category: string,
    level: Level,
    thumbnail: string,
    isLocked: bool)

  datatype Video = Video(
    id: string,
    title: string,
    duration: string,
    isCompleted: bool,
    isBookmarked: bool,
    bookmarkTime: Option<string>,
    description: string)

  /** Position `index` in the library's list for `courseId`. */
  datatype VideoRef = VideoRef(courseId: string, index: nat)

  datatype Player = Player(
    library: map<string, seq<Video>>,
    selected: Option<Course>,
    current: Option<VideoRef>)

  /** A handler either finishes or stops with a `TypeError` (reading a
      method of `undefined` when the selected course has no video list). */
  datatype Outcome = Ok(player: Player) | TypeError

  /** The video the reference points at, if it exists. */
  function Resolve(p: Player): Option<Video> {
    match p.current
    case Some(VideoRef(c, k)) => if c in p.library && k < |p.library[c]| then Some(p.library[c][k]) else None
    case None => None
  }

  /** `findIndex(v => v.id === videoId)`. */
  function FindVideo(vs: seq<Video>, videoId: string): (r: Option<nat>)
    ensures r.None? <==> forall k :: 0 <= k < |vs| ==> vs[k].id != videoId
    ensures r.Some? ==> r.value < |vs| && vs[r.value].id == videoId
                        && forall k :: 0 <= k < r.value ==> vs[k].id != videoId
  {
    if |vs| == 0 then None
    else if vs[0].id == videoId then Some(0)
    else match FindVideo(vs[1..], videoId)
      case None => None
      case Some(k) => Some(k + 1)
  }

  /** `handleVideoComplete`: mark the first video with the id completed and
      move on to the next one, staying put on the last. */
  function CompleteVideo(p: Player, videoId: string): (r: Outcome)
    ensures p.selected.None? ==> r == Ok(p)
    ensures p.selected.Some? && p.selected.value.id !in p.library ==> r.TypeError?
    ensures p.selected.Some? && p.selected.value.id in p.library ==>
              var cid := p.selected.value.id;
              var vs := p.library[cid];
              && r.Ok? && r.player.selected == p.selected
              && match FindVideo(vs, videoId)
                 case None => r.player == p
                 case Some(k) =>
                   && r.player.library == p.library[cid := vs[k := vs[k].(isCompleted := true)]]
                   && r.player.current == (if k + 1 < |vs| then Some(VideoRef(cid, k + 1)) else p.current)
  {
    match p.selected
    case None => Ok(p)
    case Some(course) =>
      if course.id !in p.library then TypeError
      else
        var vs := p.library[course.id];
        match FindVideo(vs, videoId)
        case None => Ok(p)
        case Some(k) =>
          var library := p.library[course.id := vs[k := vs[k].(isCompleted := true)]];
          if k < |vs| - 1 then Ok(p.(library := library, current := Some(VideoRef(course.id, k + 1))))
          else Ok(p.(library := library))
  }

  /** Completing the current video of a course with videos plays the next
      one, unless it was the last; the finished video is marked and every
      other video is as it was. */
  lemma CompleteCurrentAdvances(p: Player)
    requires p.selected.Some? && p.current.Some? && p.current.value.courseId == p.selected.value.id
    requires Resolve(p).Some?
    requires var vs := p.library[p.selected.value.id];
             forall k :: 0 <= k < |vs| && k != p.current.value.index ==> vs[k].id != Resolve(p).value.id
    ensures var r := CompleteVideo(p, Resolve(p).value.id);
            var cid, k := p.selected.value.id, p.current.value.index;
            && r.Ok? && r.player.library[cid][k].isCompleted
            && |r.player.library[cid]| == |p.library[cid]|
            && (forall j :: 0 <= j < |p.library[cid]| && j != k ==> r.player.library[cid][j] == p.library[cid][j])
            && (k + 1 < |p.library[cid]| ==> Resolve(r.player) == Some(p.library[cid][k + 1]))
            && (k + 1 == |p.library[cid]| ==> r.player.current == p.current && Resolve(r.player).value.isCompleted)
  {
  }

  /** Completing the same video again changes nothing more. */
  lemma CompleteVideoIdempotent(p: Player, videoId: string)
    requires CompleteVideo(p, videoId).Ok?
    ensures CompleteVideo(CompleteVideo(p, videoId).player, videoId) == CompleteVideo(p, videoId)
  {
    var once := CompleteVideo(p, videoId).player;
    if p.selected.Some? {
      var cid := p.selected.value.id;
      var vs := p.library[cid];
      match FindVideo(vs, videoId)
      case None =>
      case Some(k) =>
        var vs' := vs[k := vs[k].(isCompleted := true)];
        assert once.library[cid] == vs';
        FindVideoFrame(vs, k, vs[k].(isCompleted := true), videoId);
        assert vs'[k := vs'[k].(isCompleted := true)] == vs';
    }
  }

  /** Changing a video's flags but not its id does not move the search. */
  lemma FindVideoFrame(vs: seq<Video>, k: nat, v: Video, videoId: string)
    requires k < |vs| && v.id == vs[k].id
    ensures FindVideo(vs[k := v], videoId) == FindVideo(vs, videoId)
  {
    var ws := vs[k := v];
    assert forall j :: 0 <= j < |vs| ==> ws[j].id == vs[j].id;
    FindVideoById(vs, ws, videoId);
  }

  lemma {:induction false} FindVideoById(vs: seq<Video>, ws: seq<Video>, videoId: string)
    requires |vs| == |ws| && forall j :: 0 <= j < |vs| ==> ws[j].id == vs[j].id
    ensures FindVideo(ws, videoId) == FindVideo(vs, videoId)
  {
    if |vs| > 0 {
      FindVideoById(vs[1..], ws[1..], videoId);
    }
  }

  /** `toggleBookmark`: flip the first matching video's bookmark; a given,
      non-empty time is recorded only when the video becomes bookmarked. */
  function ToggleBookmark(p: Player, videoId: string, time: Option<string>): (r: Outcome)
    ensures p.selected.None? ==> r == Ok(p)
    ensures p.selected.Some? && p.selected.value.id !in p.library ==> r.TypeError?
    ensures p.selected.Some? && p.selected.value.id in p.library ==>
              var cid := p.selected.value.id;
              var vs := p.library[cid];
              && r.Ok? && r.player.selected == p.selected && r.player.current == p.current
              && r.player.library.Keys == p.library.Keys
              && (forall c :: c in p.library && c != cid ==> r.player.library[c] == p.library[c])
              && match FindVideo(vs, videoId)
                 case None => r.player == p
                 case Some(k) =>
                   var after := r.player.library[cid];
                   && |after| == |vs|
                   && (forall j :: 0 <= j < |vs| && j != k ==> after[j] == vs[j])
                   && after[k].isBookmarked == !vs[k].isBookmarked
                   && after[k] == vs[k].(isBookmarked := after[k].isBookmarked, bookmarkTime := after[k].bookmarkTime)
                   && (after[k].bookmarkTime != vs[k].bookmarkTime ==>
                         !vs[k].isBookmarked && time.Some? && time.value != "" && after[k].bookmarkTime == time)
                   && (!vs[k].isBookmarked && time.Some? && time.value != "" ==> after[k].bookmarkTime == time)
  {
    match p.selected
    case None => Ok(p)
    case Some(course) =>
      if course.id !in p.library then TypeError
      else
        var vs := p.library[course.id];
        match FindVideo(vs, videoId)
        case None => Ok(p)
        case Some(k) =>
          var flipped := vs[k].(isBookmarked := !vs[k].isBookmarked);
          var v := if flipped.isBookmarked && time.Some? && time.value != "" then flipped.(bookmarkTime := time) else flipped;
          Ok(p.(library := p.library[course.id := vs[k := v]]))
  }

  /** Two toggles restore every bookmark flag; a video bookmarked and then
      un-bookmarked keeps the time the first toggle recorded. */
  lemma ToggleBookmarkTwice(p: Player, videoId: string, time1: Option<string>, time2: Option<string>)
    requires ToggleBookmark(p, videoId, time1).Ok?
    ensures var once := ToggleBookmark(p, videoId, time1).player;
            var twice := ToggleBookmark(once, videoId, time2);
            && twice.Ok?
            && (p.selected.Some? ==>
                  var cid := p.selected.value.id;
                  && |twice.player.library[cid]| == |p.library[cid]|
                  && forall j :: 0 <= j < |p.library[cid]| ==>
                       twice.player.library[cid][j].isBookmarked == p.library[cid][j].isBookmarked
                       && (!p.library[cid][j].isBookmarked ==>
                             twice.player.library[cid][j].bookmarkTime == once.library[cid][j].bookmarkTime))
  {
    if p.selected.Some? {
      var cid := p.selected.value.id;
      var vs := p.library[cid];
      match FindVideo(vs, videoId)
      case None =>
      case Some(k) =>
        var once := ToggleBookmark(p, videoId, time1).player;
        FindVideoFrame(vs, k, once.library[cid][k], videoId);
    }
  }

  // ---------------------------------------------------------------------
  // Starting a course
  // ---------------------------------------------------------------------

  datatype ButtonText = Locked | Continue | StartCourse

  /** The course card's button text. */
  function ButtonLabel(c: Course): (t: ButtonText)
    ensures t == Locked <==> c.isLocked
    ensures t == Continue <==> !c.isLocked && c.progress > 0
    ensures t == StartCourse <==> !c.isLocked && c.progress <= 0
  {
    if c.isLocked then Locked else if c.progress > 0 then Continue else StartCourse
  }

  /** The button's click: disabled for a locked course; otherwise select the
      course and, when it has videos, play its first one. */
  function Start(p: Player, c: Course): (r: Player)
    ensures c.isLocked ==> r == p
    ensures !c.isLocked ==> r.selected == Some(c) && r.library == p.library
    ensures !c.isLocked && c.id in p.library && |p.library[c.id]| > 0 ==>
              r.current == Some(VideoRef(c.id, 0)) && Resolve(r) == Some(p.library[c.id][0])
    ensures !(c.id in p.library && |p.library[c.id]| > 0) ==> r.current == p.current
  {
    if c.isLocked then p
    else if c.id in p.library && |p.library[c.id]| > 0 then p.(selected := Some(c), current := Some(VideoRef(c.id, 0)))
    else p.(selected := Some(c))
  }

  /** The button does something exactly when it does not read "Locked". */
  lemma LabelMatchesStart(p: Player, c: Course)
    ensures ButtonLabel(c) == Locked ==> Start(p, c) == p
    ensures ButtonLabel(c) != Locked ==> Start(p, c).selected == Some(c)
  {
  }
}

=== FILE: day_layout.dfy ===
/** The side-by-side layout of the calendar day view
    (`layoutById` in components/etw/calendar-dashboard.tsx): an overlap graph
    over minute-of-day intervals, its connected components found by a
    stack-based search, a stable sort of each component by (start, end),
    first-fit column assignment, and the block geometry. */
module DayLayout {

  /** One visible task reduced to minutes since local midnight. `end` can be
      smaller than `start` when the task ends after midnight. */
  datatype Item = Item(id: string, start: int, end: int)

  /** Block geometry: pixels (one per minute; the grid starts at 01:00, so
      the first 60 minutes lie above it) and percentages of the row width. */
  datatype Layout = Layout(top: real, height: real, leftPct: real, widthPct: real)

  /** Strict overlap `a.start < b.end && a.end > b.start`. */
  predicate Overlaps(a: Item, b: Item) {
    a.start < b.end && a.end > b.start
  }

  /** Overlap is symmetric, and intervals that only touch do not overlap. */
  lemma OverlapsShape(a: Item, b: Item)
    ensures Overlaps(a, b) <==> Overlaps(b, a)
    ensures a.end == b.start || b.end == a.start ==> !Overlaps(a, b)
  {
  }

  /** Two distinct positions whose intervals overlap: an edge of the graph. */
  predicate Adjacent(items: seq<Item>, u: nat, w: nat)
    requires u < |items| && w < |items|
  {
    u != w && Overlaps(items[u], items[w])
  }

  // ---------------------------------------------------------------------
  // Overlap graph
  // ---------------------------------------------------------------------

  predicate Increasing(s: seq<nat>) {
    forall a, b :: 0 <= a < b < |s| ==> s[a] < s[b]
  }

  /** The neighbours of `v` among positions below `hi`, in increasing order:
      the list `adj[v]` holds once the outer loop has passed `hi`. */
  function Neighbours(items: seq<Item>, v: nat, hi: nat): (r: seq<nat>)
    requires v < |items| && hi <= |items|
    ensures forall k :: 0 <= k < |r| ==> r[k] < hi
    decreases hi
  {
    if hi == 0 then []
    else Neighbours(items, v, hi - 1) + (if Adjacent(items, v, hi - 1) then [hi - 1] else [])
  }

  /** `adj[v]` lists exactly the positions adjacent to `v`, each once, in
      increasing order. */
  lemma {:induction false} NeighboursExact(items: seq<Item>, v: nat, hi: nat)
    requires v < |items| && hi <= |items|
    ensures forall w: nat :: w in Neighbours(items, v, hi) <==> w < hi && Adjacent(items, v, w)
    ensures Increasing(Neighbours(items, v, hi))
  {
    if hi > 0 {
      NeighboursExact(items, v, hi - 1);
    }
  }

  lemma NeighboursStep(items: seq<Item>, v: nat, hi: nat)
    requires v < |items| && hi < |items|
    ensures Neighbours(items, v, hi + 1)
         == Neighbours(items, v, hi) + (if Adjacent(items, v, hi) then [hi] else [])
  {
  }

  /** The adjacency lists built by the double loop over pairs `i < j`. */
  method BuildAdjacency(items: seq<Item>) returns (adj: seq<seq<nat>>)
    ensures |adj| == |items|
    ensures forall v :: 0 <= v < |items| ==> adj[v] == Neighbours(items, v, |items|)
  {
    var n := |items|;
    adj := seq(n, _ => []);
    for i := 0 to n
      invariant |adj| == n
      invariant forall v :: 0 <= v < n ==> adj[v] == Neighbours(items, v, if v < i then n else i)
    {
      adj := LinkRow(items, adj, i);
    }
  }

  /** One pass of the outer loop: pair `i` with every later position. */
  method LinkRow(items: seq<Item>, adj0: seq<seq<nat>>, i: nat) returns (adj: seq<seq<nat>>)
    requires i < |items| && |adj0| == |items|
    requires forall v :: 0 <= v < |items| ==> adj0[v] == Neighbours(items, v, if v < i then |items| else i)
    ensures |adj| == |items|
    ensures forall v :: 0 <= v < |items| ==> adj[v] == Neighbours(items, v, if v < i + 1 then |items| else i + 1)
  {
    var n := |items|;
    adj := adj0;
    for j := i + 1 to n
      invariant |adj| == n
      invariant forall v :: 0 <= v < i ==> adj[v] == Neighbours(items, v, n)
      invariant adj[i] == Neighbours(items, i, j)
      invariant forall v :: i < v < j ==> adj[v] == Neighbours(items, v, i + 1)
      invariant forall v :: j <= v < n ==> adj[v] == Neighbours(items, v, i)
    {
      ghost var before := adj;
      NeighboursStep(items, i, j);
      NeighboursStep(items, j, i);
      if items[i].start < items[j].end && items[i].end > items[j].start {
        adj := adj[i := adj[i] + [j]];
        adj := adj[j := adj[j] + [i]];
      }
      assert forall v :: 0 <= v < n && v != i && v != j ==> adj[v] == before[v];
    }
  }

  // ---------------------------------------------------------------------
  // Connected components
  // ---------------------------------------------------------------------

  predicate Distinct(s: seq<nat>) {
    forall a, b :: 0 <= a < b < |s| ==> s[a] != s[b]
  }

  predicate InRange(s: seq<nat>, n: nat) {
    forall k :: 0 <= k < |s| ==> s[k] < n
  }

  /** Every member after the first overlaps some member listed before it,
      so the group is connected through its own members. */
  predicate Connected(items: seq<Item>, s: seq<nat>)
    requires InRange(s, |items|)
  {
    forall k :: 0 < k < |s| ==> Reaches(items, s, k)
  }

  /** Member `k` overlaps some member listed before it. */
  predicate Reaches(items: seq<Item>, s: seq<nat>, k: nat)
    requires InRange(s, |items|) && k < |s|
  {
    exists p :: 0 <= p < k && Adjacent(items, s[p], s[k])
  }

  /** Position `x` overlaps some member of `comp`. */
  predicate Touches(items: seq<Item>, comp: seq<nat>, x: nat)
    requires InRange(comp, |items|) && x < |items|
  {
    exists p :: 0 <= p < |comp| && Adjacent(items, comp[p], x)
  }

  /** Positions overlapping a member of a group numbered below `bound` belong
      to that same group. */
  ghost predicate Closed(items: seq<Item>, gid: seq<int>, bound: int)
    requires |gid| == |items|
  {
    forall u: nat, w: nat :: u < |items| && w < |items| && 0 <= gid[u] < bound && Adjacent(items, u, w) ==> gid[w] == gid[u]
  }

  /** The finished groups, with `gid` naming each member's group. */
  ghost predicate GroupsOk(items: seq<Item>, groups: seq<seq<nat>>, gid: seq<int>)
  {
    && |gid| == |items|
    && (forall g :: 0 <= g < |groups| ==>
          && |groups[g]| > 0 && Distinct(groups[g]) && InRange(groups[g], |items|)
          && (forall k :: 0 <= k < |groups[g]| ==> gid[groups[g][k]] == g)
          && Connected(items, groups[g]))
    && (forall v :: 0 <= v < |items| && 0 <= gid[v] < |groups| ==> v in groups[gid[v]])
  }

  predicate InSomeGroup(groups: seq<seq<nat>>, v: nat) {
    exists g :: 0 <= g < |groups| && v in groups[g]
  }

  function CountFalse(s: seq<bool>): nat {
    if |s| == 0 then 0 else (if s[0] then 0 else 1) + CountFalse(s[1..])
  }

  lemma {:induction false} CountFalseMark(s: seq<bool>, w: nat)
    requires w < |s| && !s[w]
    ensures CountFalse(s[w := true]) + 1 == CountFalse(s)
  {
    if w > 0 {
      assert s[w := true][1..] == s[1..][w - 1 := true];
      CountFalseMark(s[1..], w - 1);
    } else {
      assert s[w := true][1..] == s[1..];
    }
  }

  /** Marking a fresh position with the current group keeps the finished
      groups as they were. */
  lemma GroupsFrame(items: seq<Item>, groups: seq<seq<nat>>, gid: seq<int>, w: nat, c: int)
    requires GroupsOk(items, groups, gid) && w < |gid| && gid[w] < 0 && c >= |groups|
    ensures GroupsOk(items, groups, gid[w := c])
  {
    var gid' := gid[w := c];
    forall g | 0 <= g < |groups|
      ensures forall k :: 0 <= k < |groups[g]| ==> gid'[groups[g][k]] == g
    {
    }
  }

  lemma ClosedFrame(items: seq<Item>, gid: seq<int>, bound: int, w: nat, c: int)
    requires |gid| == |items| && Closed(items, gid, bound) && w < |gid| && gid[w] < 0 && c >= bound
    ensures Closed(items, gid[w := c], bound)
  {
  }

  /** What a search from `root` keeps of the visit marks: `gid` gives the
      finished groups' members their number and the positions of the current
      search the number `|groups|`. */
  ghost predicate Marks(items: seq<Item>, groups: seq<seq<nat>>, visited: seq<bool>, gid: seq<int>, root: nat) {
    && |visited| == |items| && |gid| == |items| && root < |items|
    && (forall v :: 0 <= v < |items| ==> (visited[v] <==> gid[v] >= 0) && gid[v] <= |groups|)
    && visited[root]
    && GroupsOk(items, groups, gid) && Closed(items, gid, |groups|)
  }

  /** The component so far and the stack hold, once each, exactly the
      positions marked with the current number. */
  ghost predicate Lists(items: seq<Item>, gid: seq<int>, cur: int, comp: seq<nat>, stack: seq<nat>)
    requires |gid| == |items|
  {
    && InRange(comp, |items|) && InRange(stack, |items|)
    && Distinct(comp) && Distinct(stack) && (forall x :: x in comp ==> x !in stack)
    && (forall k :: 0 <= k < |comp| ==> gid[comp[k]] == cur)
    && (forall k :: 0 <= k < |stack| ==> gid[stack[k]] == cur)
    && (forall v :: 0 <= v < |items| && gid[v] == cur ==> v in comp || v in stack)
  }

  /** The search tree: the component starts at `root`, and every later member
      and every stacked position overlaps a member already in the component. */
  ghost predicate Tree(items: seq<Item>, comp: seq<nat>, stack: seq<nat>, root: nat)
    requires InRange(comp, |items|) && InRange(stack, |items|)
  {
    && (|comp| == 0 ==> stack == [root])
    && (|comp| > 0 ==> comp[0] == root)
    && Connected(items, comp)
    && (|comp| > 0 ==> Linked(items, comp, stack))
  }

  ghost predicate Frontier(items: seq<Item>, groups: seq<seq<nat>>, visited: seq<bool>, gid: seq<int>,
                           comp: seq<nat>, stack: seq<nat>, root: nat)
  {
    && Marks(items, groups, visited, gid, root)
    && Lists(items, gid, |groups|, comp, stack)
    && Tree(items, comp, stack, root)
  }

  /** The first `upto` members of `comp` have all their neighbours in the
      current search. */
  ghost predicate Scanned(items: seq<Item>, gid: seq<int>, cur: int, comp: seq<nat>, upto: nat)
    requires |gid| == |items| && InRange(comp, |items|) && upto <= |comp|
  {
    forall k, w: nat :: 0 <= k < upto && w < |items| && Adjacent(items, comp[k], w) ==> gid[w] == cur
  }

  lemma PopLists(items: seq<Item>, gid: seq<int>, cur: int, comp: seq<nat>, stack: seq<nat>)
    requires |gid| == |items| && Lists(items, gid, cur, comp, stack) && |stack| > 0
    ensures Lists(items, gid, cur, comp + [stack[|stack| - 1]], stack[..|stack| - 1])
  {
    var v := stack[|stack| - 1];
    var comp', stack' := comp + [v], stack[..|stack| - 1];
    assert forall x :: x in stack' ==> x in stack;
    forall x | 0 <= x < |items| && gid[x] == cur
      ensures x in comp' || x in stack'
    {
      if x !in comp && x !in stack' {
        assert x in stack;
        var k :| 0 <= k < |stack| && stack[k] == x;
        assert k == |stack| - 1;
      }
    }
  }

  /** Every stacked position overlaps some member of `comp`. */
  ghost predicate Linked(items: seq<Item>, comp: seq<nat>, stack: seq<nat>)
    requires InRange(comp, |items|) && InRange(stack, |items|)
  {
    forall k :: 0 <= k < |stack| ==> Touches(items, comp, stack[k])
  }

  lemma PopTree(items: seq<Item>, comp: seq<nat>, stack: seq<nat>, root: nat)
    requires InRange(comp, |items|) && InRange(stack, |items|) && Tree(items, comp, stack, root) && |stack| > 0
    ensures InRange(comp + [stack[|stack| - 1]], |items|) && InRange(stack[..|stack| - 1], |items|)
    ensures Tree(items, comp + [stack[|stack| - 1]], stack[..|stack| - 1], root)
  {
    if |comp| > 0 {
      assert Linked(items, comp, stack);
      PopConnected(items, comp, stack);
      PopLinked(items, comp, stack);
    }
  }

  /** The popped position joins the component next to a member it overlaps. */
  lemma PopConnected(items: seq<Item>, comp: seq<nat>, stack: seq<nat>)
    requires InRange(comp, |items|) && InRange(stack, |items|) && |stack| > 0
    requires Connected(items, comp) && Linked(items, comp, stack)
    ensures InRange(comp + [stack[|stack| - 1]], |items|)
    ensures Connected(items, comp + [stack[|stack| - 1]])
  {
    var comp' := comp + [stack[|stack| - 1]];
    assert InRange(comp', |items|);
    forall k | 0 < k < |comp'|
      ensures Reaches(items, comp', k)
    {
      if k < |comp| {
        assert Reaches(items, comp, k);
        var p :| 0 <= p < k && Adjacent(items, comp[p], comp[k]);
        assert comp'[p] == comp[p] && comp'[k] == comp[k];
        assert 0 <= p < k && Adjacent(items, comp'[p], comp'[k]);
      } else {
        assert Touches(items, comp, stack[|stack| - 1]);
        var p :| 0 <= p < |comp| && Adjacent(items, comp[p], stack[|stack| - 1]);
        assert comp'[p] == comp[p] && comp'[k] == stack[|stack| - 1];
        assert 0 <= p < k && Adjacent(items, comp'[p], comp'[k]);
      }
    }
  }

  /** The rest of the stack still overlaps the (larger) component. */
  lemma PopLinked(items: seq<Item>, comp: seq<nat>, stack: seq<nat>)
    requires InRange(comp, |items|) && InRange(stack, |items|) && |stack| > 0
    requires Linked(items, comp, stack)
    ensures InRange(comp + [stack[|stack| - 1]], |items|) && InRange(stack[..|stack| - 1], |items|)
    ensures Linked(items, comp + [stack[|stack| - 1]], stack[..|stack| - 1])
  {
    var comp', stack' := comp + [stack[|stack| - 1]], stack[..|stack| - 1];
    assert InRange(comp', |items|) && InRange(stack', |items|);
    forall k | 0 <= k < |stack'|
      ensures Touches(items, comp', stack'[k])
    {
      assert stack'[k] == stack[k] && Touches(items, comp, stack[k]);
      var p :| 0 <= p < |comp| && Adjacent(items, comp[p], stack[k]);
      assert 0 <= p < |comp'| && Adjacent(items, comp'[p], stack'[k]);
    }
  }

  lemma PopStep(items: seq<Item>, groups: seq<seq<nat>>, visited: seq<bool>, gid: seq<int>,
                comp: seq<nat>, stack: seq<nat>, root: nat)
    requires Frontier(items, groups, visited, gid, comp, stack, root) && |stack| > 0
    requires Scanned(items, gid, |groups|, comp, |comp|)
    ensures var v := stack[|stack| - 1];
      && Frontier(items, groups, visited, gid, comp + [v], stack[..|stack| - 1], root)
      && Scanned(items, gid, |groups|, comp + [v], |comp|)
  {
    PopLists(items, gid, |groups|, comp, stack);
    PopTree(items, comp, stack, root);
    var comp' := comp + [stack[|stack| - 1]];
    assert forall k :: 0 <= k < |comp| ==> comp'[k] == comp[k];
  }

  lemma PushStep(items: seq<Item>, groups: seq<seq<nat>>, visited: seq<bool>, gid: seq<int>,
                 comp: seq<nat>, stack: seq<nat>, root: nat, w: nat)
    requires Frontier(items, groups, visited, gid, comp, stack, root) && |comp| > 0
    requires Scanned(items, gid, |groups|, comp, |comp| - 1)
    requires w < |items| && !visited[w] && Adjacent(items, comp[|comp| - 1], w)
    ensures Frontier(items, groups, visited[w := true], gid[w := |groups|], comp, stack + [w], root)
    ensures Scanned(items, gid[w := |groups|], |groups|, comp, |comp| - 1)
    ensures CountFalse(visited[w := true]) + 1 == CountFalse(visited)
  {
    CountFalseMark(visited, w);
    PushMarks(items, groups, visited, gid, root, w);
    PushLists(items, gid, |groups|, comp, stack, w);
    assert Linked(items, comp, stack);
    PushLinked(items, comp, stack, w);
  }

  /** Marking an unvisited position with the current number. */
  lemma PushMarks(items: seq<Item>, groups: seq<seq<nat>>, visited: seq<bool>, gid: seq<int>, root: nat, w: nat)
    requires Marks(items, groups, visited, gid, root) && w < |items| && !visited[w]
    ensures Marks(items, groups, visited[w := true], gid[w := |groups|], root)
  {
    GroupsFrame(items, groups, gid, w, |groups|);
    ClosedFrame(items, gid, |groups|, w, |groups|);
  }

  /** An unmarked position pushed on the stack joins the current search. */
  lemma PushLists(items: seq<Item>, gid: seq<int>, cur: nat, comp: seq<nat>, stack: seq<nat>, w: nat)
    requires |gid| == |items| && Lists(items, gid, cur, comp, stack) && w < |items| && gid[w] < 0
    ensures Lists(items, gid[w := cur], cur, comp, stack + [w])
  {
    assert w !in comp;
    assert w !in stack;
  }

  /** A neighbour of the newest member may go on the stack. */
  lemma PushLinked(items: seq<Item>, comp: seq<nat>, stack: seq<nat>, w: nat)
    requires InRange(comp, |items|) && InRange(stack, |items|) && |comp| > 0
    requires Linked(items, comp, stack) && w < |items| && Adjacent(items, comp[|comp| - 1], w)
    ensures InRange(stack + [w], |items|) && Linked(items, comp, stack + [w])
  {
    var stack' := stack + [w];
    assert InRange(stack', |items|);
    forall k | 0 <= k < |stack'|
      ensures Touches(items, comp, stack'[k])
    {
      if k < |stack| {
        assert stack'[k] == stack[k] && Touches(items, comp, stack[k]);
      } else {
        assert Adjacent(items, comp[|comp| - 1], stack'[k]);
      }
    }
  }

  /** A neighbour that is already visited belongs to the current search:
      finished groups are closed, so it cannot lie in one of them. */
  lemma SeenNeighbour(items: seq<Item>, groups: seq<seq<nat>>, visited: seq<bool>, gid: seq<int>,
                      comp: seq<nat>, stack: seq<nat>, root: nat, w: nat)
    requires Frontier(items, groups, visited, gid, comp, stack, root) && |comp| > 0
    requires w < |items| && visited[w] && Adjacent(items, comp[|comp| - 1], w)
    ensures gid[w] == |groups|
  {
    assert Adjacent(items, w, comp[|comp| - 1]);
  }

  lemma FinishGroup(items: seq<Item>, groups: seq<seq<nat>>, visited: seq<bool>, gid: seq<int>,
                    comp: seq<nat>, root: nat)
    requires Frontier(items, groups, visited, gid, comp, [], root)
    requires Scanned(items, gid, |groups|, comp, |comp|)
    ensures GroupsOk(items, groups + [comp], gid) && Closed(items, gid, |groups| + 1)
    ensures forall v :: 0 <= v < |items| ==> gid[v] < |groups| + 1
  {
    var cur := |groups|;
    assert root in comp;
    var groups' := groups + [comp];
    forall g | 0 <= g < |groups'|
      ensures |groups'[g]| > 0 && Distinct(groups'[g]) && InRange(groups'[g], |items|)
      ensures forall k :: 0 <= k < |groups'[g]| ==> gid[groups'[g][k]] == g
      ensures Connected(items, groups'[g])
    {
      if g < cur {
        assert groups'[g] == groups[g];
      }
    }
    forall u: nat, w: nat | u < |items| && w < |items| && gid[u] == cur && Adjacent(items, u, w)
      ensures gid[w] == cur
    {
      assert u in comp;
      var k :| 0 <= k < |comp| && comp[k] == u;
    }
  }

  /** `groups` in `layoutById`: the connected components of the overlap graph,
      found by a depth-first search with an explicit stack, started from each
      position not yet visited in increasing order. */
  method Components(items: seq<Item>) returns (groups: seq<seq<nat>>)
    ensures forall g :: 0 <= g < |groups| ==> |groups[g]| > 0 && InRange(groups[g], |items|) && Distinct(groups[g])
    ensures forall v :: 0 <= v < |items| ==> InSomeGroup(groups, v)
    ensures forall g1, g2, v :: 0 <= g1 < g2 < |groups| && v in groups[g1] ==> v !in groups[g2]
    ensures forall g, u, w ::
      0 <= g < |groups| && u in groups[g] && 0 <= u < |items| && 0 <= w < |items| && Overlaps(items[u], items[w])
      ==> w in groups[g]
    ensures forall g :: 0 <= g < |groups| ==> Connected(items, groups[g])
  {
    var n := |items|;
    var adj := BuildAdjacency(items);
    var visited := seq(n, _ => false);
    ghost var gid: seq<int> := seq(n, _ => -1);
    groups := [];
    for i := 0 to n
      invariant |visited| == n && |gid| == n
      invariant forall v :: 0 <= v < n ==> (visited[v] <==> gid[v] >= 0) && gid[v] < |groups|
      invariant forall v :: 0 <= v < i ==> visited[v]
      invariant GroupsOk(items, groups, gid)
      invariant Closed(items, gid, |groups|)
    {
      if !visited[i] {
        groups, visited, gid := Explore(items, adj, groups, visited, gid, i);
      }
    }
    forall g1, g2, v | 0 <= g1 < g2 < |groups| && v in groups[g1]
      ensures v !in groups[g2]
    {
      var k1 :| 0 <= k1 < |groups[g1]| && groups[g1][k1] == v;
    }
    forall v | 0 <= v < n
      ensures InSomeGroup(groups, v)
    {
      assert v in groups[gid[v]];
    }
    forall g, u, w | 0 <= g < |groups| && u in groups[g] && 0 <= u < n && 0 <= w < n
      && Overlaps(items[u], items[w])
      ensures w in groups[g]
    {
      var k :| 0 <= k < |groups[g]| && groups[g][k] == u;
      if u != w {
        assert Adjacent(items, u, w);
      }
    }
  }

  /** The body of the outer loop for an unvisited `root`: pop a position,
      append it to the component, push its unvisited neighbours. */
  method Explore(items: seq<Item>, adj: seq<seq<nat>>, groups0: seq<seq<nat>>, visited0: seq<bool>,
                 ghost gid0: seq<int>, root: nat)
    returns (groups: seq<seq<nat>>, visited: seq<bool>, ghost gid: seq<int>)
    requires |adj| == |items| && forall v :: 0 <= v < |items| ==> adj[v] == Neighbours(items, v, |items|)
    requires |visited0| == |items| && |gid0| == |items| && root < |items| && !visited0[root]
    requires forall v :: 0 <= v < |items| ==> (visited0[v] <==> gid0[v] >= 0) && gid0[v] < |groups0|
    requires GroupsOk(items, groups0, gid0) && Closed(items, gid0, |groups0|)
    ensures |visited| == |items| && |gid| == |items|
    ensures visited[root]
    ensures forall v :: 0 <= v < |items| ==> (visited[v] <==> gid[v] >= 0) && gid[v] < |groups|
    ensures forall v :: 0 <= v < |items| && visited0[v] ==> visited[v]
    ensures GroupsOk(items, groups, gid) && Closed(items, gid, |groups|)
  {
    var cur := |groups0|;
    GroupsFrame(items, groups0, gid0, root, cur);
    ClosedFrame(items, gid0, cur, root, cur);
    visited := visited0[root := true];
    gid := gid0[root := cur];
    var stack := [root];
    var comp: seq<nat> := [];
    while |stack| > 0
      invariant Frontier(items, groups0, visited, gid, comp, stack, root)
      invariant Scanned(items, gid, cur, comp, |comp|)
      invariant forall v :: 0 <= v < |items| && visited0[v] ==> visited[v]
      decreases CountFalse(visited), |stack|
    {
      visited, gid, comp, stack := Visit(items, adj, groups0, visited, gid, comp, stack, root, visited0);
    }
    FinishGroup(items, groups0, visited, gid, comp, root);
    groups := groups0 + [comp];
  }

  /** One turn of the search: pop `v`, add it to the component and push its
      unvisited neighbours. */
  method Visit(items: seq<Item>, adj: seq<seq<nat>>, groups0: seq<seq<nat>>, visited0: seq<bool>, ghost gid0: seq<int>,
               comp0: seq<nat>, stack0: seq<nat>, root: nat, ghost before: seq<bool>)
    returns (visited: seq<bool>, ghost gid: seq<int>, comp: seq<nat>, stack: seq<nat>)
    requires |adj| == |items| && forall v :: 0 <= v < |items| ==> adj[v] == Neighbours(items, v, |items|)
    requires Frontier(items, groups0, visited0, gid0, comp0, stack0, root) && |stack0| > 0
    requires Scanned(items, gid0, |groups0|, comp0, |comp0|)
    requires |before| == |items| && forall v :: 0 <= v < |items| && before[v] ==> visited0[v]
    ensures Frontier(items, groups0, visited, gid, comp, stack, root)
    ensures Scanned(items, gid, |groups0|, comp, |comp|)
    ensures forall v :: 0 <= v < |items| && before[v] ==> visited[v]
    ensures CountFalse(visited) < CountFalse(visited0)
         || (CountFalse(visited) == CountFalse(visited0) && |stack| < |stack0|)
  {
    PopStep(items, groups0, visited0, gid0, comp0, stack0, root);
    var v := stack0[|stack0| - 1];
    comp := comp0 + [v];
    visited, gid, stack := Scan(items, adj[v], groups0, visited0, gid0, comp, stack0[..|stack0| - 1], root, before);
  }

  /** `for (const w of adj[v]) if (!visited[w]) { visited[w] = true; stack.push(w) }`
      for the member `v` just appended to the component. */
  method Scan(items: seq<Item>, nb: seq<nat>, groups0: seq<seq<nat>>, visited0: seq<bool>, ghost gid0: seq<int>,
              comp: seq<nat>, stack0: seq<nat>, root: nat, ghost before: seq<bool>)
    returns (visited: seq<bool>, ghost gid: seq<int>, stack: seq<nat>)
    requires Frontier(items, groups0, visited0, gid0, comp, stack0, root) && |comp| > 0
    requires nb == Neighbours(items, comp[|comp| - 1], |items|)
    requires Scanned(items, gid0, |groups0|, comp, |comp| - 1)
    requires |before| == |items| && forall v :: 0 <= v < |items| && before[v] ==> visited0[v]
    ensures Frontier(items, groups0, visited, gid, comp, stack, root)
    ensures Scanned(items, gid, |groups0|, comp, |comp|)
    ensures forall v :: 0 <= v < |items| && before[v] ==> visited[v]
    ensures CountFalse(visited) < CountFalse(visited0)
         || (CountFalse(visited) == CountFalse(visited0) && |stack| == |stack0|)
  {
    var cur := |groups0|;
    var v := comp[|comp| - 1];
    NeighboursExact(items, v, |items|);
    visited, gid, stack := visited0, gid0, stack0;
    for t := 0 to |nb|
      invariant Frontier(items, groups0, visited, gid, comp, stack, root)
      invariant Scanned(items, gid, cur, comp, |comp| - 1)
      invariant forall v :: 0 <= v < |items| && before[v] ==> visited[v]
      invariant forall s :: 0 <= s < t ==> gid[nb[s]] == cur
      invariant CountFalse(visited) + |stack| == CountFalse(visited0) + |stack0|
      invariant CountFalse(visited) <= CountFalse(visited0)
    {
      var w := nb[t];
      assert w in nb;
      if !visited[w] {
        PushStep(items, groups0, visited, gid, comp, stack, root, w);
        visited := visited[w := true];
        gid := gid[w := cur];
        stack := stack + [w];
      } else {
        SeenNeighbour(items, groups0, visited, gid, comp, stack, root, w);
      }
    }
    forall k, w: nat | 0 <= k < |comp| && w < |items| && Adjacent(items, comp[k], w)
      ensures gid[w] == cur
    {
      if k == |comp| - 1 {
        assert w in nb;
        var s :| 0 <= s < |nb| && nb[s] == w;
      }
    }
  }

  // ---------------------------------------------------------------------
  // Sorting a group by (start, end)
  // ---------------------------------------------------------------------

  /** The comparator `a.start - b.start || a.end - b.end` as "not after". */
  predicate StartsNoLater(a: Item, b: Item) {
    a.start < b.start || (a.start == b.start && a.end <= b.end)
  }

  predicate SortedByTime(s: seq<Item>) {
    forall a, b :: 0 <= a < b < |s| ==> StartsNoLater(s[a], s[b])
  }

  /** Put `x` after every element of the sorted `s` that does not start later,
      keeping equal keys in arrival order. */
  function InsertByTime(s: seq<Item>, x: Item): (r: seq<Item>)
    requires SortedByTime(s)
    ensures SortedByTime(r)
    ensures multiset(r) == multiset(s) + multiset{x} && |r| == |s| + 1
  {
    if |s| == 0 then [x]
    else if StartsNoLater(s[|s| - 1], x) then s + [x]
    else
      var init, last := s[..|s| - 1], s[|s| - 1];
      assert s == init + [last];
      var r' := InsertByTime(init, x);
      InsertBelowLast(init, last, x, r');
      r' + [last]
  }

  /** The last element of a sorted sequence, which starts later than `x`,
      still closes the sequence once `x` is inserted before it. */
  lemma InsertBelowLast(init: seq<Item>, last: Item, x: Item, r: seq<Item>)
    requires SortedByTime(init + [last]) && !StartsNoLater(last, x)
    requires SortedByTime(r) && multiset(r) == multiset(init) + multiset{x}
    ensures SortedByTime(r + [last])
  {
    forall k | 0 <= k < |r|
      ensures StartsNoLater(r[k], last)
    {
      assert r[k] in multiset(r);
      if r[k] != x {
        assert r[k] in multiset(init);
        var a :| 0 <= a < |init| && init[a] == r[k];
        assert (init + [last])[a] == r[k] && (init + [last])[|init|] == last;
      }
    }
    var t := r + [last];
    forall a, b | 0 <= a < b < |t| ensures StartsNoLater(t[a], t[b]) {
      if b == |r| {
        assert t[a] == r[a];
      } else {
        assert t[a] == r[a] && t[b] == r[b];
      }
    }
  }

  /** `comp.map(i => items[i]).sort(...)`: the stable sort of a group. */
  function SortByTime(s: seq<Item>): (r: seq<Item>)
    ensures SortedByTime(r)
    ensures multiset(r) == multiset(s) && |r| == |s|
  {
    if |s| == 0 then []
    else
      assert s == s[..|s| - 1] + [s[|s| - 1]];
      InsertByTime(SortByTime(s[..|s| - 1]), s[|s| - 1])
  }

  // ---------------------------------------------------------------------
  // First-fit columns
  // ---------------------------------------------------------------------

  /** Column `c` was still occupied when item `k` started: its latest item
      before `k`, at `a`, ends after `k` starts. */
  predicate Busy(s: seq<Item>, cols: seq<nat>, k: nat, c: nat, a: nat)
    requires k < |s| && k <= |cols|
  {
    a < k && cols[a] == c && s[a].end > s[k].start
    && forall a' :: a < a' < k ==> cols[a'] != c
  }

  predicate ColumnBusy(s: seq<Item>, cols: seq<nat>, k: nat, c: nat)
    requires k < |s| && k <= |cols|
  {
    exists a :: 0 <= a < k && Busy(s, cols, k, c, a)
  }

  predicate ColumnUsed(cols: seq<nat>, c: nat) {
    exists k :: 0 <= k < |cols| && cols[k] == c
  }

  /** After `k` items: `columnEnd[c]` is the end of column `c`'s latest item,
      found at `last[c]`. */
  ghost predicate Columns(s: seq<Item>, cols: seq<nat>, columnEnd: seq<int>, last: seq<nat>, k: nat) {
    && k <= |s| && |cols| == k && |last| == |columnEnd| <= k
    && (forall a :: 0 <= a < k ==> cols[a] < |columnEnd|)
    && (forall c :: 0 <= c < |columnEnd| ==>
          last[c] < k && cols[last[c]] == c && columnEnd[c] == s[last[c]].end
          && forall a :: last[c] < a < k ==> cols[a] != c)
    && (forall a, b :: 0 <= a < b < k && cols[a] == cols[b] ==> s[a].end <= s[b].start)
    && (forall b, c :: 0 <= b < k && 0 <= c < cols[b] ==> ColumnBusy(s, cols, b, c))
  }

  /** What the greedy pass produces over `s`: one column per item below
      `numCols`, every column used, items sharing a column in sequence, and
      every column below an item's own still busy when the item starts. */
  predicate FirstFit(s: seq<Item>, cols: seq<nat>, numCols: nat) {
    && |cols| == |s| && numCols <= |s| && (|s| > 0 ==> numCols > 0)
    && (forall k :: 0 <= k < |s| ==> cols[k] < numCols)
    && (forall c :: 0 <= c < numCols ==> ColumnUsed(cols, c))
    && (forall a, b :: 0 <= a < b < |s| && cols[a] == cols[b] ==> s[a].end <= s[b].start)
    && (forall k, c :: 0 <= k < |s| && 0 <= c < cols[k] ==> ColumnBusy(s, cols, k, c))
  }

  /** First fit leaves no choice: the columns and their number are determined
      by the order of the items. */
  lemma FirstFitUnique(s: seq<Item>, cols1: seq<nat>, n1: nat, cols2: seq<nat>, n2: nat)
    requires FirstFit(s, cols1, n1) && FirstFit(s, cols2, n2)
    ensures cols1 == cols2 && n1 == n2
  {
    for k := 0 to |s|
      invariant cols1[..k] == cols2[..k]
    {
      OwnColumnFree(s, cols1, k);
      OwnColumnFree(s, cols2, k);
      BusyPrefix(s, cols1, cols2, k, cols1[k]);
      BusyPrefix(s, cols1, cols2, k, cols2[k]);
      assert cols1[k] == cols2[k];
      assert cols1[..k + 1] == cols1[..k] + [cols1[k]] && cols2[..k + 1] == cols2[..k] + [cols2[k]];
    }
    assert cols1 == cols1[..|s|] && cols2 == cols2[..|s|];
    if n1 > 0 {
      assert ColumnUsed(cols1, n1 - 1);
    }
    if n2 > 0 {
      assert ColumnUsed(cols2, n2 - 1);
    }
  }

  /** An item's own column is free when it starts. */
  lemma OwnColumnFree(s: seq<Item>, cols: seq<nat>, k: nat)
    requires |cols| == |s| && k < |s|
    requires forall a, b :: 0 <= a < b < |s| && cols[a] == cols[b] ==> s[a].end <= s[b].start
    ensures !ColumnBusy(s, cols, k, cols[k])
  {
    forall a | 0 <= a < k ensures !Busy(s, cols, k, cols[k], a) {
    }
  }

  /** Whether a column is busy at `k` depends only on the columns before `k`. */
  lemma BusyPrefix(s: seq<Item>, cols1: seq<nat>, cols2: seq<nat>, k: nat, c: nat)
    requires |cols1| == |cols2| == |s| && k < |s| && cols1[..k] == cols2[..k]
    ensures ColumnBusy(s, cols1, k, c) == ColumnBusy(s, cols2, k, c)
  {
    forall a | 0 <= a < k ensures Busy(s, cols1, k, c, a) == Busy(s, cols2, k, c, a) {
      assert cols1[a] == cols1[..k][a];
      forall a' | a < a' < k ensures cols1[a'] == cols2[a'] {
        assert cols1[a'] == cols1[..k][a'];
      }
    }
  }

  /** The greedy column pass over a sorted group: each item takes the lowest
      column whose last end is at most its start, and a new column is opened
      only when every open one is still busy. */
  method AssignColumns(s: seq<Item>) returns (cols: seq<nat>, numCols: nat)
    requires SortedByTime(s)
    ensures |cols| == |s| && numCols <= |s|
    ensures |s| > 0 ==> numCols > 0
    ensures forall k :: 0 <= k < |s| ==> cols[k] < numCols
    ensures forall c :: 0 <= c < numCols ==> ColumnUsed(cols, c)
    ensures forall a, b :: 0 <= a < b < |s| && cols[a] == cols[b] ==> s[a].end <= s[b].start
    ensures forall a, b :: 0 <= a < |s| && 0 <= b < |s| && a != b && Overlaps(s[a], s[b]) ==> cols[a] != cols[b]
    ensures forall k, c :: 0 <= k < |s| && 0 <= c < cols[k] ==> ColumnBusy(s, cols, k, c)
  {
    cols := [];
    var columnEnd: seq<int> := [];
    ghost var last: seq<nat> := [];
    for k := 0 to |s|
      invariant Columns(s, cols, columnEnd, last, k)
    {
      cols, columnEnd, last := Place(s, cols, columnEnd, last, k);
    }
    numCols := |columnEnd|;
    if |s| > 0 {
      assert cols[0] < numCols;
    }
    forall c | 0 <= c < numCols
      ensures ColumnUsed(cols, c)
    {
      assert cols[last[c]] == c;
    }
  }

  /** One step of the pass: scan the columns for the first whose end is at
      most the item's start, else open a new one. */
  method Place(s: seq<Item>, cols0: seq<nat>, columnEnd0: seq<int>, ghost last0: seq<nat>, k: nat)
    returns (cols: seq<nat>, columnEnd: seq<int>, ghost last: seq<nat>)
    requires SortedByTime(s) && k < |s| && Columns(s, cols0, columnEnd0, last0, k)
    ensures Columns(s, cols, columnEnd, last, k + 1)
  {
    var c := 0;
    while c < |columnEnd0| && s[k].start < columnEnd0[c]
      invariant c <= |columnEnd0|
      invariant forall c' :: 0 <= c' < c ==> columnEnd0[c'] > s[k].start
    {
      c := c + 1;
    }
    cols := cols0 + [c];
    if c < |columnEnd0| {
      columnEnd := columnEnd0[c := s[k].end];
      last := last0[c := k];
    } else {
      columnEnd := columnEnd0 + [s[k].end];
      last := last0 + [k];
    }
    PlaceBusy(s, cols0, columnEnd0, last0, k, c);
    PlaceGaps(s, cols0, columnEnd0, last0, k, c);
    PlaceLast(s, cols0, columnEnd0, last0, k, c, columnEnd, last);
  }

  /** Every column skipped by the scan is busy at item `k`; earlier items
      keep their witnesses. */
  lemma PlaceBusy(s: seq<Item>, cols0: seq<nat>, columnEnd0: seq<int>, last0: seq<nat>, k: nat, c: nat)
    requires k < |s| && Columns(s, cols0, columnEnd0, last0, k) && c <= |columnEnd0|
    requires forall c' :: 0 <= c' < c ==> columnEnd0[c'] > s[k].start
    ensures forall b, c' :: 0 <= b < k + 1 && 0 <= c' < (cols0 + [c])[b] ==> ColumnBusy(s, cols0 + [c], b, c')
  {
    var cols := cols0 + [c];
    forall b, c' | 0 <= b < k + 1 && 0 <= c' < cols[b]
      ensures ColumnBusy(s, cols, b, c')
    {
      if b == k {
        assert Busy(s, cols, k, c', last0[c']);
      } else {
        assert ColumnBusy(s, cols0, b, c');
        var a :| 0 <= a < b && Busy(s, cols0, b, c', a);
        assert Busy(s, cols, b, c', a);
      }
    }
  }

  /** The chosen column's earlier items all end by item `k`'s start. */
  lemma PlaceGaps(s: seq<Item>, cols0: seq<nat>, columnEnd0: seq<int>, last0: seq<nat>, k: nat, c: nat)
    requires SortedByTime(s) && k < |s| && Columns(s, cols0, columnEnd0, last0, k) && c <= |columnEnd0|
    requires c < |columnEnd0| ==> columnEnd0[c] <= s[k].start
    ensures forall a, b :: 0 <= a < b < k + 1 && (cols0 + [c])[a] == (cols0 + [c])[b] ==> s[a].end <= s[b].start
  {
    var cols := cols0 + [c];
    forall a | 0 <= a < k && cols[a] == c
      ensures s[a].end <= s[k].start
    {
      if a < last0[c] {
        assert s[a].end <= s[last0[c]].start;
        assert StartsNoLater(s[last0[c]], s[k]);
      }
    }
  }

  /** The column ends and last-item marks are updated for item `k`. */
  lemma PlaceLast(s: seq<Item>, cols0: seq<nat>, columnEnd0: seq<int>, last0: seq<nat>, k: nat, c: nat,
                  columnEnd: seq<int>, last: seq<nat>)
    requires k < |s| && Columns(s, cols0, columnEnd0, last0, k) && c <= |columnEnd0|
    requires c < |columnEnd0| ==> columnEnd == columnEnd0[c := s[k].end] && last == last0[c := k]
    requires c == |columnEnd0| ==> columnEnd == columnEnd0 + [s[k].end] && last == last0 + [k]
    ensures |last| == |columnEnd| <= k + 1
    ensures forall a :: 0 <= a < k + 1 ==> (cols0 + [c])[a] < |columnEnd|
    ensures forall c' :: 0 <= c' < |columnEnd| ==>
              last[c'] < k + 1 && (cols0 + [c])[last[c']] == c' && columnEnd[c'] == s[last[c']].end
              && forall a :: last[c'] < a < k + 1 ==> (cols0 + [c])[a] != c'
  {
  }

  // ---------------------------------------------------------------------
  // Geometry
  // ---------------------------------------------------------------------

  /** The block lies inside the row and is at least 30 pixels tall. */
  predicate Bounded(l: Layout) {
    0.0 <= l.leftPct && 0.0 < l.widthPct && l.leftPct + l.widthPct <= 100.0 && l.height >= 30.0
  }

  /** The vertical placement the view promises for item `it`: one pixel per
      minute from 01:00, and never shorter than 30 pixels. */
  predicate Fits(l: Layout, it: Item) {
    l.top == (it.start - 60) as real
    && l.height == (if it.end - it.start < 30 then 30 else it.end - it.start) as real
  }

  /** Two blocks do not share any horizontal stretch. */
  predicate SideBySide(x: Layout, y: Layout) {
    x.leftPct + x.widthPct <= y.leftPct || y.leftPct + y.widthPct <= x.leftPct
  }

  function Max(a: real, b: real): real {
    if a < b then b else a
  }

  /** The block of item `it` in column `col` of `numCols` equal columns. */
  function Geometry(it: Item, col: nat, numCols: nat): (r: Layout)
    requires col < numCols
    ensures Bounded(r) && Fits(r, it)
    ensures r.widthPct * numCols as real == 100.0 && r.leftPct == col as real * r.widthPct
    ensures OneColumnWide(r, numCols)
  {
    var n := numCols as real;
    Layout(((it.start - 60) as real / 60.0) * 60.0,
           Max(30.0, ((it.end - it.start) as real / 60.0) * 60.0),
           (col as real / n) * 100.0,
           100.0 / n)
  }

  /** Blocks in different columns of the same group never overlap
      horizontally. */
  lemma DistinctColumnsSideBySide(a: Item, b: Item, ca: nat, cb: nat, numCols: nat)
    requires ca < numCols && cb < numCols && ca != cb
    ensures SideBySide(Geometry(a, ca, numCols), Geometry(b, cb, numCols))
  {
    var n := numCols as real;
    if ca < cb {
      ColumnGap(ca, cb, n);
    } else {
      ColumnGap(cb, ca, n);
    }
  }

  /** Column `i` ends no later than a later column `j` begins. */
  lemma ColumnGap(i: nat, j: nat, n: real)
    requires i < j && 0.0 < n
    ensures (i as real / n) * 100.0 + 100.0 / n <= (j as real / n) * 100.0
  {
    var w := 100.0 / n;
    assert (i as real / n) * 100.0 == i as real * w;
    assert (j as real / n) * 100.0 == j as real * w;
    ColumnStep(i, j, w);
  }

  lemma ColumnStep(i: nat, j: nat, w: real)
    requires i < j && 0.0 < w
    ensures i as real * w + w <= j as real * w
  {
    assert i as real * w + w == (i + 1) as real * w;
  }

  // ---------------------------------------------------------------------
  // The id-keyed layout
  // ---------------------------------------------------------------------

  function Ids(s: seq<Item>): set<string> {
    set k | 0 <= k < |s| :: s[k].id
  }

  predicate UniqueIds(s: seq<Item>) {
    forall a, b :: 0 <= a < b < |s| ==> s[a].id != s[b].id
  }

  lemma IdsSnoc(s: seq<Item>, k: nat)
    requires k < |s|
    ensures Ids(s[..k + 1]) == Ids(s[..k]) + {s[k].id}
  {
    assert forall a :: 0 <= a < k ==> s[..k + 1][a] == s[..k][a];
    assert s[..k + 1][k] == s[k];
  }

  /** Reordering a sequence keeps its set of ids. */
  lemma IdsPermutation(a: seq<Item>, b: seq<Item>)
    requires multiset(a) == multiset(b)
    ensures Ids(a) == Ids(b)
  {
    forall id | id in Ids(a) ensures id in Ids(b) {
      var k :| 0 <= k < |a| && a[k].id == id;
      assert a[k] in multiset(b);
      var j :| 0 <= j < |b| && b[j] == a[k];
    }
    forall id | id in Ids(b) ensures id in Ids(a) {
      var k :| 0 <= k < |b| && b[k].id == id;
      assert b[k] in multiset(a);
      var j :| 0 <= j < |a| && a[j] == b[k];
    }
  }

  /** With unique ids every element occurs once. */
  lemma {:induction false} OccursOnce(s: seq<Item>, x: Item)
    requires UniqueIds(s) && x in s
    ensures multiset(s)[x] == 1
  {
    assert s == [s[0]] + s[1..];
    if x == s[0] {
      assert x !in s[1..] by {
        forall k | 0 <= k < |s[1..]| ensures s[1..][k] != x {
          assert s[1..][k].id == s[k + 1].id != s[0].id;
        }
      }
    } else {
      OccursOnce(s[1..], x);
    }
  }

  /** Two positions holding the same element make it occur twice. */
  lemma OccursAtTwo(s: seq<Item>, p: nat, q: nat)
    requires p < q < |s|
    ensures multiset(s)[s[p]] >= 1 + (if s[q] == s[p] then 1 else 0)
  {
    assert s == s[..p] + [s[p]] + s[p + 1..q] + [s[q]] + s[q + 1..];
  }

  /** Reordering keeps ids unique. */
  lemma UniqueIdsPermutation(a: seq<Item>, b: seq<Item>)
    requires multiset(a) == multiset(b) && UniqueIds(a)
    ensures UniqueIds(b)
  {
    forall p, q | 0 <= p < q < |b| ensures b[p].id != b[q].id {
      assert b[p] in multiset(a) && b[q] in multiset(a);
      var i :| 0 <= i < |a| && a[i] == b[p];
      var j :| 0 <= j < |a| && a[j] == b[q];
      OccursOnce(a, b[p]);
      OccursAtTwo(b, p, q);
      assert i != j;
    }
  }

  /** `comp.map(i => items[i])`. */
  function Members(items: seq<Item>, comp: seq<nat>): (r: seq<Item>)
    requires InRange(comp, |items|)
    ensures |r| == |comp| && forall k :: 0 <= k < |r| ==> r[k] == items[comp[k]]
  {
    seq(|comp|, k requires 0 <= k < |comp| => items[comp[k]])
  }

  /** A group's column plan: its members in sorted order, each one's column,
      and the number of columns. */
  datatype ColumnPlan = ColumnPlan(sorted: seq<Item>, cols: seq<nat>, numCols: nat)

  /** The plan the page computes for a group: the sort by time, then first
      fit over the sorted members. */
  predicate PlanOf(members: seq<Item>, p: ColumnPlan) {
    p.sorted == SortByTime(members) && FirstFit(p.sorted, p.cols, p.numCols)
  }

  /** Each sorted member's block is the geometry of its planned column. */
  ghost predicate Planned(p: ColumnPlan, m: map<string, Layout>) {
    forall k :: 0 <= k < |p.sorted| ==>
      && k < |p.cols| && p.cols[k] < p.numCols && p.sorted[k].id in m
      && m[p.sorted[k].id] == Geometry(p.sorted[k], p.cols[k], p.numCols)
  }

  /** One group's part of the layout: sort, assign columns, record each id's
      column, then place every block. A repeated id keeps the last write. */
  method LayoutGroup(members: seq<Item>) returns (m: map<string, Layout>, plan: ColumnPlan)
    ensures PlanOf(members, plan)
    ensures UniqueIds(members) ==> Planned(plan, m)
    ensures m.Keys == Ids(members)
    ensures forall id :: id in m ==> Bounded(m[id])
    ensures |members| > 0 ==> 1 <= plan.numCols <= |members|
    ensures forall id :: id in m ==> OneColumnWide(m[id], plan.numCols)
    ensures |members| == 1 ==> FullWidth(m[members[0].id])
    ensures UniqueIds(members) ==> forall i :: 0 <= i < |members| ==> Fits(m[members[i].id], members[i])
    ensures UniqueIds(members) ==> forall i, j ::
              0 <= i < |members| && 0 <= j < |members| && i != j && Overlaps(members[i], members[j])
              ==> SideBySide(m[members[i].id], m[members[j].id])
  {
    var sorted := SortByTime(members);
    var cols, numCols := AssignColumns(sorted);
    plan := ColumnPlan(sorted, cols, numCols);
    var colById := ColumnById(sorted, cols, numCols);
    m := PlaceAll(sorted, cols, numCols, colById);
    IdsPermutation(sorted, members);
    if |members| == 1 {
      LoneBlock(members, sorted, cols, numCols, m);
    }
    if UniqueIds(members) {
      UniqueIdsPermutation(members, sorted);
      GroupPlacement(members, sorted, cols, numCols, m);
      assert Planned(plan, m);
    }
  }

  /** Three blocks where the first-fit plan reuses a column: A = [0, 120),
      B = [0, 60), C = [60, 120). B and C share column 0 and A takes column 1,
      so two columns of 50 % each. */
  lemma SharedColumnExample(plan: ColumnPlan)
    requires PlanOf([BlockA, BlockB, BlockC], plan)
    ensures plan.sorted == [BlockB, BlockA, BlockC]
    ensures plan.cols == [0, 1, 0] && plan.numCols == 2
    ensures Geometry(BlockA, 1, 2).widthPct == 50.0
  {
    SharedColumnSorted();
    SharedColumnFirstFit();
    FirstFitUnique(plan.sorted, plan.cols, plan.numCols, [0, 1, 0], 2);
  }

  const BlockA := Item("A", 0, 120)
  const BlockB := Item("B", 0, 60)
  const BlockC := Item("C", 60, 120)

  lemma SharedColumnSorted()
    ensures SortByTime([BlockA, BlockB, BlockC]) == [BlockB, BlockA, BlockC]
  {
    var a, b, c := BlockA, BlockB, BlockC;
    assert [a, b, c][..2] == [a, b] && [a, b][..1] == [a] && [a][..0] == [];
    assert SortByTime([a]) == [a];
    assert SortByTime([a, b]) == InsertByTime([a], b) == [b, a];
    assert SortByTime([a, b, c]) == InsertByTime([b, a], c);
  }

  lemma SharedColumnFirstFit()
    ensures FirstFit([BlockB, BlockA, BlockC], [0, 1, 0], 2)
  {
    var s := [BlockB, BlockA, BlockC];
    var cols: seq<nat> := [0, 1, 0];
    assert Busy(s, cols, 1, 0, 0);
    forall k, c | 0 <= k < |s| && 0 <= c < cols[k] ensures ColumnBusy(s, cols, k, c) {
      assert k == 1 && c == 0;
    }
    assert cols[0] == 0 && cols[1] == 1;
    forall c | 0 <= c < 2 ensures ColumnUsed(cols, c) {
    }
  }

  /** `colIndexById`: each id's column, the last write winning. */
  method ColumnById(sorted: seq<Item>, cols: seq<nat>, numCols: nat) returns (colById: map<string, nat>)
    requires |cols| == |sorted| && forall k :: 0 <= k < |sorted| ==> cols[k] < numCols
    ensures colById.Keys == Ids(sorted)
    ensures forall id :: id in colById ==> colById[id] < numCols
    ensures UniqueIds(sorted) ==> forall a :: 0 <= a < |sorted| ==> colById[sorted[a].id] == cols[a]
  {
    colById := map[];
    for k := 0 to |sorted|
      invariant colById.Keys == Ids(sorted[..k])
      invariant forall id :: id in colById ==> colById[id] < numCols
      invariant UniqueIds(sorted) ==> forall a :: 0 <= a < k ==> colById[sorted[a].id] == cols[a]
    {
      IdsSnoc(sorted, k);
      colById := colById[sorted[k].id := cols[k]];
    }
    assert sorted[..|sorted|] == sorted;
  }

  /** The second pass over the sorted group, writing each block. */
  method PlaceAll(sorted: seq<Item>, cols: seq<nat>, numCols: nat, colById: map<string, nat>)
    returns (m: map<string, Layout>)
    requires |cols| == |sorted|
    requires colById.Keys == Ids(sorted) && forall id :: id in colById ==> colById[id] < numCols
    requires UniqueIds(sorted) ==> forall a :: 0 <= a < |sorted| ==> colById[sorted[a].id] == cols[a]
    ensures m.Keys == Ids(sorted)
    ensures forall id :: id in m ==> Bounded(m[id])
    ensures UniqueIds(sorted) ==> forall a :: 0 <= a < |sorted| ==> m[sorted[a].id] == Geometry(sorted[a], cols[a], numCols)
    ensures forall id :: id in m ==> OneColumnWide(m[id], numCols)
  {
    assert forall a :: 0 <= a < |sorted| ==> sorted[a].id in Ids(sorted);
    assert UniqueIds(sorted) ==> forall a :: 0 <= a < |sorted| ==> cols[a] < numCols;
    m := map[];
    for k := 0 to |sorted|
      invariant m.Keys == Ids(sorted[..k])
      invariant forall id :: id in m ==> Bounded(m[id])
      invariant forall id :: id in m ==> OneColumnWide(m[id], numCols)
      invariant UniqueIds(sorted) ==> PlacedBelow(sorted, cols, numCols, m, k)
    {
      IdsSnoc(sorted, k);
      assert sorted[k].id in Ids(sorted);
      var col := colById[sorted[k].id];
      var l := Geometry(sorted[k], col, numCols);
      if UniqueIds(sorted) {
        PlaceNext(sorted, cols, numCols, m, k, l);
      }
      m := m[sorted[k].id := l];
    }
    assert sorted[..|sorted|] == sorted;
  }

  /** The first `k` sorted items have their column's geometry. */
  ghost predicate PlacedBelow(sorted: seq<Item>, cols: seq<nat>, numCols: nat, m: map<string, Layout>, k: nat) {
    forall a :: 0 <= a < k && a < |sorted| && a < |cols| && cols[a] < numCols ==>
      sorted[a].id in m && m[sorted[a].id] == Geometry(sorted[a], cols[a], numCols)
  }

  /** With unique ids, writing item `k`'s block keeps the earlier ones. */
  lemma PlaceNext(sorted: seq<Item>, cols: seq<nat>, numCols: nat, m: map<string, Layout>, k: nat, l: Layout)
    requires k < |sorted| == |cols| && UniqueIds(sorted) && cols[k] < numCols
    requires l == Geometry(sorted[k], cols[k], numCols) && PlacedBelow(sorted, cols, numCols, m, k)
    ensures PlacedBelow(sorted, cols, numCols, m[sorted[k].id := l], k + 1)
  {
    forall a | 0 <= a < k ensures sorted[a].id != sorted[k].id {
    }
  }

  /** A block one column wide, with `numCols` columns sharing the row. */
  predicate OneColumnWide(l: Layout, numCols: nat) {
    l.widthPct * numCols as real == 100.0
  }

  /** A block spanning the whole row. */
  predicate FullWidth(l: Layout) {
    l.leftPct == 0.0 && l.widthPct == 100.0
  }

  /** A group of one item gets a single column, so its block spans the row. */
  lemma LoneBlock(members: seq<Item>, sorted: seq<Item>, cols: seq<nat>, numCols: nat, m: map<string, Layout>)
    requires |members| == 1 && multiset(sorted) == multiset(members) && m.Keys == Ids(sorted) == Ids(members)
    requires |cols| == |sorted| && numCols <= |sorted| && forall k :: 0 <= k < |sorted| ==> cols[k] < numCols
    requires UniqueIds(sorted) ==> forall a :: 0 <= a < |sorted| ==> m[sorted[a].id] == Geometry(sorted[a], cols[a], numCols)
    ensures FullWidth(m[members[0].id])
  {
    assert |sorted| == |multiset(sorted)| == 1;
    assert UniqueIds(sorted);
    assert sorted[0] in multiset(members);
    assert sorted[0] == members[0];
    assert numCols == 1 && cols[0] == 0;
    var l := Geometry(sorted[0], 0, 1);
    assert m[members[0].id] == l;
    assert l.widthPct == 100.0 && l.leftPct == 0.0 * l.widthPct;
  }

  /** Carries the placement of the sorted copy back to the group's own order. */
  lemma GroupPlacement(members: seq<Item>, sorted: seq<Item>, cols: seq<nat>, numCols: nat, m: map<string, Layout>)
    requires multiset(sorted) == multiset(members) && UniqueIds(members) && UniqueIds(sorted)
    requires |cols| == |sorted| && forall k :: 0 <= k < |sorted| ==> cols[k] < numCols
    requires forall a, b :: 0 <= a < |sorted| && 0 <= b < |sorted| && a != b && Overlaps(sorted[a], sorted[b]) ==> cols[a] != cols[b]
    requires forall a :: 0 <= a < |sorted| ==> sorted[a].id in m && m[sorted[a].id] == Geometry(sorted[a], cols[a], numCols)
    ensures forall i :: 0 <= i < |members| ==> members[i].id in m && Fits(m[members[i].id], members[i])
    ensures forall i, j ::
              0 <= i < |members| && 0 <= j < |members| && i != j && Overlaps(members[i], members[j])
              ==> SideBySide(m[members[i].id], m[members[j].id])
  {
    forall i | 0 <= i < |members|
      ensures members[i].id in m && Fits(m[members[i].id], members[i])
    {
      assert members[i] in multiset(sorted);
      var p :| 0 <= p < |sorted| && sorted[p] == members[i];
    }
    forall i, j | 0 <= i < |members| && 0 <= j < |members| && i != j && Overlaps(members[i], members[j])
      ensures SideBySide(m[members[i].id], m[members[j].id])
    {
      assert members[i] in multiset(sorted) && members[j] in multiset(sorted);
      var p :| 0 <= p < |sorted| && sorted[p] == members[i];
      var q :| 0 <= q < |sorted| && sorted[q] == members[j];
      assert members[i].id != members[j].id by {
        if i < j {} else {}
      }
      DistinctColumnsSideBySide(sorted[p], sorted[q], cols[p], cols[q], numCols);
    }
  }

  /** What the component search guarantees and the layout relies on. */
  ghost predicate Partitioned(items: seq<Item>, groups: seq<seq<nat>>) {
    && (forall g :: 0 <= g < |groups| ==> InRange(groups[g], |items|) && Distinct(groups[g]))
    && (forall v :: 0 <= v < |items| ==> InSomeGroup(groups, v))
    && (forall g1, g2, v :: 0 <= g1 < g2 < |groups| && v in groups[g1] ==> v !in groups[g2])
    && (forall g, u, w ::
          0 <= g < |groups| && u in groups[g] && 0 <= u < |items| && 0 <= w < |items| && Overlaps(items[u], items[w])
          ==> w in groups[g])
  }

  /** Every group is connected through overlaps, as the search built it. */
  ghost predicate GroupsConnected(items: seq<Item>, groups: seq<seq<nat>>) {
    forall g :: 0 <= g < |groups| ==> InRange(groups[g], |items|) && Connected(items, groups[g])
  }

  /** Item `v` overlaps no other item of the day. */
  predicate Isolated(items: seq<Item>, v: nat)
    requires v < |items|
  {
    forall w :: 0 <= w < |items| && w != v ==> !Overlaps(items[v], items[w])
  }

  /** A connected group holding an isolated item holds nothing else. */
  lemma IsolatedAlone(items: seq<Item>, comp: seq<nat>, v: nat)
    requires InRange(comp, |items|) && Connected(items, comp) && v < |items| && v in comp
    ensures Isolated(items, v) ==> |comp| == 1
  {
    if |comp| > 1 {
      var k :| 0 <= k < |comp| && comp[k] == v;
      var w: nat;
      if k == 0 {
        assert Reaches(items, comp, 1);
        w := comp[1];
      } else {
        assert Reaches(items, comp, k);
        var p :| 0 <= p < k && Adjacent(items, comp[p], comp[k]);
        w := comp[p];
      }
      assert w < |items| && w != v && Overlaps(items[v], items[w]);
    }
  }

  /** Position `v` belongs to one of the first `g` groups. */
  predicate GroupedBelow(groups: seq<seq<nat>>, g: nat, v: nat) {
    exists g' :: 0 <= g' < g && g' < |groups| && v in groups[g']
  }

  /** Every item of the first `g` groups has a block. */
  ghost predicate Covered(items: seq<Item>, groups: seq<seq<nat>>, g: nat, layout: map<string, Layout>) {
    forall v :: 0 <= v < |items| && GroupedBelow(groups, g, v) ==> items[v].id in layout
  }

  /** The blocks of the first `g` groups sit at their items' times. */
  ghost predicate FitsBelow(items: seq<Item>, groups: seq<seq<nat>>, g: nat, layout: map<string, Layout>)
    requires Covered(items, groups, g, layout)
  {
    forall v :: 0 <= v < |items| && GroupedBelow(groups, g, v) ==> Fits(layout[items[v].id], items[v])
  }

  /** Overlapping items of the first `g` groups are side by side. */
  ghost predicate ApartBelow(items: seq<Item>, groups: seq<seq<nat>>, g: nat, layout: map<string, Layout>)
    requires Covered(items, groups, g, layout)
  {
    forall u, w ::
      0 <= u < |items| && 0 <= w < |items| && u != w && GroupedBelow(groups, g, u)
      && GroupedBelow(groups, g, w) && Overlaps(items[u], items[w])
      ==> SideBySide(layout[items[u].id], layout[items[w].id])
  }

  /** Isolated items of the first `g` groups span the whole row. */
  ghost predicate AloneBelow(items: seq<Item>, groups: seq<seq<nat>>, g: nat, layout: map<string, Layout>)
    requires Covered(items, groups, g, layout)
  {
    forall v :: 0 <= v < |items| && GroupedBelow(groups, g, v) && Isolated(items, v) ==> FullWidth(layout[items[v].id])
  }

  /** The first `g` groups have their plans. */
  ghost predicate PlansOf(items: seq<Item>, groups: seq<seq<nat>>, plans: seq<ColumnPlan>, g: nat) {
    && g <= |groups| && |plans| == g
    && forall g' :: 0 <= g' < g ==> InRange(groups[g'], |items|) && PlanOf(Members(items, groups[g']), plans[g'])
  }

  /** Every plan's blocks are in the layout as planned. */
  ghost predicate AllPlanned(plans: seq<ColumnPlan>, layout: map<string, Layout>) {
    forall g' :: 0 <= g' < |plans| ==> Planned(plans[g'], layout)
  }

  /** The layout after the first `g` groups. */
  ghost predicate LaidOut(items: seq<Item>, groups: seq<seq<nat>>, g: nat, layout: map<string, Layout>) {
    && Covered(items, groups, g, layout)
    && layout.Keys <= Ids(items)
    && (forall id :: id in layout ==> Bounded(layout[id]))
    && (UniqueIds(items) ==> FitsBelow(items, groups, g, layout))
    && (UniqueIds(items) ==> ApartBelow(items, groups, g, layout))
    && (UniqueIds(items) ==> AloneBelow(items, groups, g, layout))
  }

  /** `layoutById`: every visible task's block, by id. Blocks are inside the
      row and at least 30 pixels tall; with unique ids each block sits at its
      task's times, overlapping tasks are placed side by side, and a task that
      overlaps no other spans the whole row. */
  method LayoutById(items: seq<Item>) returns (layout: map<string, Layout>, groups: seq<seq<nat>>, plans: seq<ColumnPlan>)
    ensures layout.Keys == Ids(items)
    ensures forall id :: id in layout ==> Bounded(layout[id])
    ensures UniqueIds(items) ==> forall i :: 0 <= i < |items| ==> Fits(layout[items[i].id], items[i])
    ensures UniqueIds(items) ==> forall i, j ::
              0 <= i < |items| && 0 <= j < |items| && i != j && Overlaps(items[i], items[j])
              ==> SideBySide(layout[items[i].id], layout[items[j].id])
    ensures UniqueIds(items) ==> forall i :: 0 <= i < |items| && Isolated(items, i) ==> FullWidth(layout[items[i].id])
    ensures Partitioned(items, groups) && GroupsConnected(items, groups)
    ensures |plans| == |groups|
    ensures forall g :: 0 <= g < |groups| ==> PlanOf(Members(items, groups[g]), plans[g])
    ensures UniqueIds(items) ==> forall g :: 0 <= g < |groups| ==> Planned(plans[g], layout)
  {
    groups := Components(items);
    assert Partitioned(items, groups);
    assert GroupsConnected(items, groups);
    layout, plans := LayoutGroups(items, groups);
    LaidOutAll(items, groups, layout);
  }

  /** The loop over the groups, in order. */
  method LayoutGroups(items: seq<Item>, groups: seq<seq<nat>>) returns (layout: map<string, Layout>, plans: seq<ColumnPlan>)
    requires Partitioned(items, groups) && GroupsConnected(items, groups)
    ensures LaidOut(items, groups, |groups|, layout)
    ensures PlansOf(items, groups, plans, |groups|)
    ensures UniqueIds(items) ==> AllPlanned(plans, layout)
  {
    layout := map[];
    plans := [];
    NothingLaidOut(items, groups);
    for g := 0 to |groups|
      invariant LaidOut(items, groups, g, layout)
      invariant PlansOf(items, groups, plans, g)
      invariant UniqueIds(items) ==> AllPlanned(plans, layout)
    {
      layout, plans := AddGroup(items, groups, g, layout, plans);
    }
  }

  lemma NothingLaidOut(items: seq<Item>, groups: seq<seq<nat>>)
    ensures LaidOut(items, groups, 0, map[])
  {
    assert Covered(items, groups, 0, map[]);
    assert AloneBelow(items, groups, 0, map[]);
  }

  /** One turn of the loop over groups: lay out group `g` and merge its
      blocks into the layout so far. */
  method AddGroup(items: seq<Item>, groups: seq<seq<nat>>, g: nat, layout0: map<string, Layout>, plans0: seq<ColumnPlan>)
    returns (layout: map<string, Layout>, plans: seq<ColumnPlan>)
    requires Partitioned(items, groups) && GroupsConnected(items, groups)
    requires g < |groups| && LaidOut(items, groups, g, layout0)
    requires PlansOf(items, groups, plans0, g) && (UniqueIds(items) ==> AllPlanned(plans0, layout0))
    ensures LaidOut(items, groups, g + 1, layout)
    ensures PlansOf(items, groups, plans, g + 1) && (UniqueIds(items) ==> AllPlanned(plans, layout))
  {
    var members := Members(items, groups[g]);
    var part, plan := LayoutGroup(members);
    LayoutStep(items, groups, g, layout0, members, part);
    PlansOfStep(items, groups, g, plans0, plan);
    if UniqueIds(items) {
      MembersUnique(items, groups[g]);
      EarlierIdsOutside(items, groups, g, members, part);
      AllPlannedStep(items, groups, g, layout0, plans0, part, plan);
    }
    layout := layout0 + part;
    plans := plans0 + [plan];
  }

  lemma PlansOfStep(items: seq<Item>, groups: seq<seq<nat>>, g: nat, plans: seq<ColumnPlan>, plan: ColumnPlan)
    requires g < |groups| && InRange(groups[g], |items|) && PlansOf(items, groups, plans, g)
    requires PlanOf(Members(items, groups[g]), plan)
    ensures PlansOf(items, groups, plans + [plan], g + 1)
  {
    assert forall g' :: 0 <= g' < g ==> (plans + [plan])[g'] == plans[g'];
  }

  /** The new group's blocks are as planned, and the earlier groups' planned
      blocks survive the merge since their ids are not the new group's. */
  lemma AllPlannedStep(items: seq<Item>, groups: seq<seq<nat>>, g: nat, layout: map<string, Layout>,
                       plans: seq<ColumnPlan>, part: map<string, Layout>, plan: ColumnPlan)
    requires PlansOf(items, groups, plans, g) && AllPlanned(plans, layout) && Planned(plan, part)
    requires forall v :: 0 <= v < |items| && GroupedBelow(groups, g, v) ==> items[v].id !in part
    ensures AllPlanned(plans + [plan], layout + part)
  {
    var plans' := plans + [plan];
    forall g' | 0 <= g' < |plans'| ensures Planned(plans'[g'], layout + part) {
      if g' == g {
        assert plans'[g'] == plan;
        PlannedOverride(plan, layout, part);
      } else {
        assert plans'[g'] == plans[g'] && Planned(plans[g'], layout);
        PlannedSurvives(items, groups, g, g', plans[g'], layout, part);
      }
    }
  }

  /** Blocks planned in `part` keep their place when `part` is merged in. */
  lemma PlannedOverride(p: ColumnPlan, layout: map<string, Layout>, part: map<string, Layout>)
    requires Planned(p, part)
    ensures Planned(p, layout + part)
  {
    forall k | 0 <= k < |p.sorted| ensures (layout + part)[p.sorted[k].id] == part[p.sorted[k].id] {
    }
  }

  /** An earlier group's planned blocks are untouched by the new group's. */
  lemma PlannedSurvives(items: seq<Item>, groups: seq<seq<nat>>, g: nat, g': nat, p: ColumnPlan,
                        layout: map<string, Layout>, part: map<string, Layout>)
    requires g' < g <= |groups| && InRange(groups[g'], |items|)
    requires PlanOf(Members(items, groups[g']), p) && Planned(p, layout)
    requires forall v :: 0 <= v < |items| && GroupedBelow(groups, g, v) ==> items[v].id !in part
    ensures Planned(p, layout + part)
  {
    forall k | 0 <= k < |p.sorted|
      ensures p.sorted[k].id !in part
    {
      var v := PlanItem(items, groups[g'], p, k);
      assert GroupedBelow(groups, g, v);
    }
  }

  /** Every planned item is the item at some position of its group. */
  lemma PlanItem(items: seq<Item>, comp: seq<nat>, p: ColumnPlan, k: nat) returns (v: nat)
    requires InRange(comp, |items|) && PlanOf(Members(items, comp), p) && k < |p.sorted|
    ensures v < |items| && v in comp && items[v] == p.sorted[k]
  {
    var members := Members(items, comp);
    assert p.sorted[k] in multiset(p.sorted);
    assert p.sorted[k] in multiset(members);
    var j :| 0 <= j < |members| && members[j] == p.sorted[k];
    v := comp[j];
  }

  /** Once every group is laid out, the layout covers every item. */
  lemma LaidOutAll(items: seq<Item>, groups: seq<seq<nat>>, layout: map<string, Layout>)
    requires Partitioned(items, groups) && LaidOut(items, groups, |groups|, layout)
    ensures layout.Keys == Ids(items)
    ensures forall id :: id in layout ==> Bounded(layout[id])
    ensures UniqueIds(items) ==> forall i :: 0 <= i < |items| ==> Fits(layout[items[i].id], items[i])
    ensures UniqueIds(items) ==> forall i, j ::
              0 <= i < |items| && 0 <= j < |items| && i != j && Overlaps(items[i], items[j])
              ==> SideBySide(layout[items[i].id], layout[items[j].id])
    ensures UniqueIds(items) ==> forall i :: 0 <= i < |items| && Isolated(items, i) ==> FullWidth(layout[items[i].id])
  {
    forall v | 0 <= v < |items| ensures GroupedBelow(groups, |groups|, v) {
      assert InSomeGroup(groups, v);
    }
    assert Covered(items, groups, |groups|, layout);
    forall id | id in Ids(items) ensures id in layout {
      var v :| 0 <= v < |items| && items[v].id == id;
    }
    if UniqueIds(items) {
      assert FitsBelow(items, groups, |groups|, layout);
      assert ApartBelow(items, groups, |groups|, layout);
      assert AloneBelow(items, groups, |groups|, layout);
    }
  }

  /** Distinct positions with unique ids give a group with unique ids. */
  lemma MembersUnique(items: seq<Item>, comp: seq<nat>)
    requires InRange(comp, |items|) && Distinct(comp) && UniqueIds(items)
    ensures UniqueIds(Members(items, comp))
  {
    var members := Members(items, comp);
    forall a, b | 0 <= a < b < |members| ensures members[a].id != members[b].id {
      if comp[a] < comp[b] {} else {}
    }
  }

  /** With unique ids, an id among group `comp`'s members names a position in
      `comp`. */
  lemma MemberId(items: seq<Item>, comp: seq<nat>, v: nat)
    requires InRange(comp, |items|) && UniqueIds(items) && v < |items|
    requires items[v].id in Ids(Members(items, comp))
    ensures v in comp
  {
    var members := Members(items, comp);
    var k :| 0 <= k < |members| && members[k].id == items[v].id;
    if comp[k] < v {} else if v < comp[k] {} else {}
  }

  /** Adding one group's blocks keeps the earlier groups' blocks, since their
      ids differ, and places the new group correctly. */
  lemma LayoutStep(items: seq<Item>, groups: seq<seq<nat>>, g: nat, layout: map<string, Layout>,
                   members: seq<Item>, part: map<string, Layout>)
    requires Partitioned(items, groups) && GroupsConnected(items, groups)
    requires g < |groups| && LaidOut(items, groups, g, layout)
    requires members == Members(items, groups[g])
    requires part.Keys == Ids(members) && forall id :: id in part ==> Bounded(part[id])
    requires |members| == 1 ==> FullWidth(part[members[0].id])
    requires UniqueIds(members) ==> forall i :: 0 <= i < |members| ==> Fits(part[members[i].id], members[i])
    requires UniqueIds(members) ==> forall i, j ::
               0 <= i < |members| && 0 <= j < |members| && i != j && Overlaps(members[i], members[j])
               ==> SideBySide(part[members[i].id], part[members[j].id])
    ensures LaidOut(items, groups, g + 1, layout + part)
  {
    var comp := groups[g];
    assert InRange(comp, |items|) && Distinct(comp);
    LayoutStepKeys(items, groups, g, layout, members, part);
    if UniqueIds(items) {
      MembersUnique(items, comp);
      EarlierIdsOutside(items, groups, g, members, part);
      LayoutStepFits(items, groups, g, layout, members, part);
      LayoutStepSideBySide(items, groups, g, layout, members, part);
      LayoutStepAlone(items, groups, g, layout, members, part);
    }
    assert Covered(items, groups, g + 1, layout + part);
  }

  lemma LayoutStepKeys(items: seq<Item>, groups: seq<seq<nat>>, g: nat, layout: map<string, Layout>,
                       members: seq<Item>, part: map<string, Layout>)
    requires g < |groups| && InRange(groups[g], |items|) && LaidOut(items, groups, g, layout)
    requires members == Members(items, groups[g])
    requires part.Keys == Ids(members) && forall id :: id in part ==> Bounded(part[id])
    ensures Covered(items, groups, g + 1, layout + part)
    ensures (layout + part).Keys <= Ids(items)
    ensures forall id :: id in layout + part ==> Bounded((layout + part)[id])
  {
    var comp := groups[g];
    forall v | 0 <= v < |items| && GroupedBelow(groups, g + 1, v)
      ensures items[v].id in layout + part
    {
      if v in comp {
        var k :| 0 <= k < |comp| && comp[k] == v;
        assert members[k].id == items[v].id;
      } else {
        assert GroupedBelow(groups, g, v);
      }
    }
    assert Covered(items, groups, g + 1, layout + part);
    forall id | id in Ids(members) ensures id in Ids(items) {
      var k :| 0 <= k < |members| && members[k].id == id;
      assert items[comp[k]].id == id;
    }
  }

  /** With unique ids, no earlier group's id is among the new group's. */
  lemma EarlierIdsOutside(items: seq<Item>, groups: seq<seq<nat>>, g: nat, members: seq<Item>, part: map<string, Layout>)
    requires Partitioned(items, groups) && g < |groups| && UniqueIds(items)
    requires members == Members(items, groups[g]) && part.Keys == Ids(members)
    ensures forall v :: 0 <= v < |items| && GroupedBelow(groups, g, v) ==> items[v].id !in part
  {
    forall v | 0 <= v < |items| && GroupedBelow(groups, g, v)
      ensures items[v].id !in part
    {
      var g' :| 0 <= g' < g && v in groups[g'];
      if items[v].id in part {
        MemberId(items, groups[g], v);
        assert false;
      }
    }
  }

  lemma LayoutStepAlone(items: seq<Item>, groups: seq<seq<nat>>, g: nat, layout: map<string, Layout>,
                        members: seq<Item>, part: map<string, Layout>)
    requires g < |groups| && InRange(groups[g], |items|) && Connected(items, groups[g])
    requires Covered(items, groups, g, layout) && AloneBelow(items, groups, g, layout)
    requires Covered(items, groups, g + 1, layout + part)
    requires members == Members(items, groups[g])
    requires part.Keys == Ids(members)
    requires |members| == 1 ==> FullWidth(part[members[0].id])
    requires forall v :: 0 <= v < |items| && GroupedBelow(groups, g, v) ==> items[v].id !in part
    ensures AloneBelow(items, groups, g + 1, layout + part)
  {
    var next := layout + part;
    var comp := groups[g];
    forall v | 0 <= v < |items| && GroupedBelow(groups, g + 1, v) && Isolated(items, v)
      ensures FullWidth(next[items[v].id])
    {
      if v in comp {
        IsolatedAlone(items, comp, v);
        assert comp[0] == v;
        assert members[0] == items[v];
      } else {
        assert GroupedBelow(groups, g, v);
      }
    }
  }

  lemma LayoutStepFits(items: seq<Item>, groups: seq<seq<nat>>, g: nat, layout: map<string, Layout>,
                       members: seq<Item>, part: map<string, Layout>)
    requires g < |groups| && InRange(groups[g], |items|)
    requires Covered(items, groups, g, layout) && FitsBelow(items, groups, g, layout)
    requires Covered(items, groups, g + 1, layout + part)
    requires members == Members(items, groups[g])
    requires part.Keys == Ids(members)
    requires forall i :: 0 <= i < |members| ==> Fits(part[members[i].id], members[i])
    requires forall v :: 0 <= v < |items| && GroupedBelow(groups, g, v) ==> items[v].id !in part
    ensures FitsBelow(items, groups, g + 1, layout + part)
  {
    var next := layout + part;
    var comp := groups[g];
    forall v | 0 <= v < |items| && GroupedBelow(groups, g + 1, v)
      ensures Fits(next[items[v].id], items[v])
    {
      if v in comp {
        var k :| 0 <= k < |comp| && comp[k] == v;
        assert members[k] == items[v];
      } else {
        assert GroupedBelow(groups, g, v);
      }
    }
    assert FitsBelow(items, groups, g + 1, next);
  }

  lemma LayoutStepSideBySide(items: seq<Item>, groups: seq<seq<nat>>, g: nat, layout: map<string, Layout>,
                             members: seq<Item>, part: map<string, Layout>)
    requires Partitioned(items, groups) && g < |groups|
    requires Covered(items, groups, g, layout) && ApartBelow(items, groups, g, layout)
    requires Covered(items, groups, g + 1, layout + part)
    requires members == Members(items, groups[g])
    requires part.Keys == Ids(members)
    requires forall i, j ::
               0 <= i < |members| && 0 <= j < |members| && i != j && Overlaps(members[i], members[j])
               ==> SideBySide(part[members[i].id], part[members[j].id])
    requires forall v :: 0 <= v < |items| && GroupedBelow(groups, g, v) ==> items[v].id !in part
    ensures ApartBelow(items, groups, g + 1, layout + part)
  {
    var next := layout + part;
    var comp := groups[g];
    forall u, w | 0 <= u < |items| && 0 <= w < |items| && u != w && GroupedBelow(groups, g + 1, u)
        && GroupedBelow(groups, g + 1, w) && Overlaps(items[u], items[w])
      ensures SideBySide(next[items[u].id], next[items[w].id])
    {
      var gu :| 0 <= gu < g + 1 && u in groups[gu];
      assert w in groups[gu];
      if gu < g {
        assert GroupedBelow(groups, g, u) && GroupedBelow(groups, g, w);
        EarlierPair(items, groups, g, layout, part, u, w);
      } else {
        SameGroupPair(items, comp, layout, members, part, u, w);
      }
    }
    assert ApartBelow(items, groups, g + 1, next);
  }

  /** Two overlapping tasks of an earlier group keep their blocks. */
  lemma EarlierPair(items: seq<Item>, groups: seq<seq<nat>>, g: nat, layout: map<string, Layout>,
                    part: map<string, Layout>, u: nat, w: nat)
    requires u < |items| && w < |items| && u != w && Overlaps(items[u], items[w])
    requires GroupedBelow(groups, g, u) && GroupedBelow(groups, g, w)
    requires Covered(items, groups, g, layout) && ApartBelow(items, groups, g, layout)
    requires items[u].id !in part && items[w].id !in part
    ensures SideBySide((layout + part)[items[u].id], (layout + part)[items[w].id])
  {
    KeptPair(layout, part, items[u].id, items[w].id);
  }

  /** Two overlapping tasks of the group just laid out get its blocks. */
  lemma SameGroupPair(items: seq<Item>, comp: seq<nat>, layout: map<string, Layout>, members: seq<Item>,
                      part: map<string, Layout>, u: nat, w: nat)
    requires InRange(comp, |items|) && members == Members(items, comp)
    requires u < |items| && w < |items| && u != w && Overlaps(items[u], items[w]) && u in comp && w in comp
    requires part.Keys == Ids(members)
    requires forall i, j ::
               0 <= i < |members| && 0 <= j < |members| && i != j && Overlaps(members[i], members[j])
               ==> SideBySide(part[members[i].id], part[members[j].id])
    ensures SideBySide((layout + part)[items[u].id], (layout + part)[items[w].id])
  {
    var ku :| 0 <= ku < |comp| && comp[ku] == u;
    var kw :| 0 <= kw < |comp| && comp[kw] == w;
    assert items[u] == members[ku] && items[w] == members[kw];
    NewPair(layout, part, members, ku, kw);
  }

  lemma KeptPair(layout: map<string, Layout>, part: map<string, Layout>, a: string, b: string)
    requires a in layout && b in layout && a !in part && b !in part && SideBySide(layout[a], layout[b])
    ensures SideBySide((layout + part)[a], (layout + part)[b])
  {
  }

  lemma NewPair(layout: map<string, Layout>, part: map<string, Layout>, members: seq<Item>, i: nat, j: nat)
    requires i < |members| && j < |members| && i != j && Overlaps(members[i], members[j])
    requires part.Keys == Ids(members)
    requires forall i, j ::
               0 <= i < |members| && 0 <= j < |members| && i != j && Overlaps(members[i], members[j])
               ==> SideBySide(part[members[i].id], part[members[j].id])
    ensures SideBySide((layout + part)[members[i].id], (layout + part)[members[j].id])
  {
    assert members[i].id in part && members[j].id in part;
  }
}

=== FILE: missions.dfy ===
/** The missions page (app/missions/page.tsx): the due label a stored
    personal task gets, the merge that replaces the page's personal missions
    with the store's, the per-kind statistics, and completion toggling. */
module Missions {
  import opened Common
  import opened PersonalTasks

  datatype Kind = Daily | Weekly | Monthly | Yearly | Personal

  /** One mission card. */
  datatype Mission = Mission(
    id: string,
    title: string,
    description: string,
    reward: Reward,
    isCompleted: bool,
    kind: Kind,
    dueDate: Option<string>,
    progress: Option<int>,
    target: Option<int>)

  // ---------------------------------------------------------------------
  // Due labels
  // ---------------------------------------------------------------------

  /** The cases of the due label, before locale formatting. Instants are
      kept so that the date and time formatters can be applied later. */
  datatype DueLabel =
    | NoDate
    | Range(start: int, end: int)
    | TodayIn(hours: nat, minutes: nat, at: int)
    | TodayAt(at: int)
    | DueIn(days: nat)
    | DaysAgo(days: nat)
    | OnDate(at: int)

  /** `Math.round(diffMs / 60000)` for `diffMs >= 0`: halves round up. */
  function RoundMinutes(diffMs: nat): (total: nat)
    ensures total * MsPerMinute - MsPerMinute / 2 <= diffMs < total * MsPerMinute + MsPerMinute / 2
  {
    (diffMs + MsPerMinute / 2) / MsPerMinute
  }

  /** The label of a stored task, with `today` and `now` the two clock
      readings the page takes. */
  function Classify(p: PersonalTask, today: int, now: int, zone: int): (l: DueLabel)
    ensures p.scheduledStart.None? <==> l.NoDate?
    ensures l.Range? <==> p.scheduledStart.Some? && p.MultiDay() && p.scheduledEnd.Some?
    ensures l.Range? ==> l == Range(p.scheduledStart.value, p.scheduledEnd.value)
    ensures l.TodayIn? || l.TodayAt? ==> l.at == p.scheduledStart.value
    ensures l.TodayIn? ==>
              && l.minutes < 60
              && var total := l.hours * 60 + l.minutes;
                 now <= l.at && total * MsPerMinute - 30_000 <= l.at - now < total * MsPerMinute + 30_000
    ensures l.TodayAt? ==> l.at < now
    ensures l.TodayIn? || l.TodayAt? ==> LocalDay(l.at, zone) == LocalDay(today, zone)
    ensures l.DueIn? ==> 1 <= l.days <= 7 && LocalDay(p.scheduledStart.value, zone) == LocalDay(today, zone) + l.days
    ensures l.DaysAgo? ==> 1 <= l.days <= 7 && LocalDay(p.scheduledStart.value, zone) == LocalDay(today, zone) - l.days
    ensures l.OnDate? ==>
              (l.at == p.scheduledStart.value
               && var d := LocalDay(l.at, zone) - LocalDay(today, zone); d < -7 || d > 7)
  {
    match p.scheduledStart
    case None => NoDate
    case Some(start) =>
      if p.MultiDay() && p.scheduledEnd.Some? then Range(start, p.scheduledEnd.value)
      else
        var dayDiff := LocalDay(start, zone) - LocalDay(today, zone);
        if dayDiff == 0 then
          var diffMs := start - now;
          if diffMs >= 0 then
            var totalMin := RoundMinutes(diffMs);
            TodayIn(totalMin / 60, totalMin % 60, start)
          else TodayAt(start)
        else if 0 < dayDiff <= 7 then DueIn(dayDiff)
        else if dayDiff < 0 && -dayDiff <= 7 then DaysAgo(-dayDiff)
        else OnDate(start)
  }

  /** The day buckets are decided by the calendar day alone: every scheduled,
      single-day task falls in exactly the bucket of its day difference. */
  lemma ClassifyByDay(p: PersonalTask, today: int, now: int, zone: int)
    requires p.scheduledStart.Some? && !(p.MultiDay() && p.scheduledEnd.Some?)
    ensures var d := LocalDay(p.scheduledStart.value, zone) - LocalDay(today, zone);
            var l := Classify(p, today, now, zone);
            && (d == 0 <==> l.TodayIn? || l.TodayAt?)
            && (1 <= d <= 7 <==> l.DueIn? && l.days == d)
            && (-7 <= d <= -1 <==> l.DaysAgo? && l.days == -d)
            && (d < -7 || d > 7 <==> l == OnDate(p.scheduledStart.value))
  {
  }

  /** Decimal digits of a natural number. */
  function NatToString(n: nat): (s: string)
    ensures |s| > 0 && forall i :: 0 <= i < |s| ==> '0' <= s[i] <= '9'
    ensures |s| > 1 ==> s[0] != '0'
  {
    if n < 10 then [Digit(n)] else NatToString(n / 10) + [Digit(n % 10)]
  }

  function Digit(d: nat): (c: char)
    requires d < 10
    ensures '0' <= c <= '9'
  {
    "0123456789"[d]
  }

  /** The value the digits spell. */
  function DigitsValue(s: string): int
    requires forall i :: 0 <= i < |s| ==> '0' <= s[i] <= '9'
  {
    if |s| == 0 then 0 else DigitsValue(s[..|s| - 1]) * 10 + (s[|s| - 1] as int - '0' as int)
  }

  lemma {:induction false} NatToStringValue(n: nat)
    ensures DigitsValue(NatToString(n)) == n
  {
    if n >= 10 {
      var s := NatToString(n / 10) + [Digit(n % 10)];
      assert s[..|s| - 1] == NatToString(n / 10);
      NatToStringValue(n / 10);
    }
  }

  /** "day" or "days". */
  function Days(n: nat): string {
    if n > 1 then " days" else " day"
  }

  /** The label text; `formatDate` and `formatTime` stand for the locale's
      `toLocaleDateString` and `toLocaleTimeString`. */
  function Render(l: DueLabel, formatDate: int -> string, formatTime: int -> string): string {
    match l
    case NoDate => "No date"
    case Range(s, e) => formatDate(s) + " - " + formatDate(e)
    case TodayIn(h, m, at) =>
      "Today • in " + ((if h > 0 then NatToString(h) + "h " else "") + NatToString(m) + "m (at " + formatTime(at) + ")")
    case TodayAt(at) => "Today • at " + formatTime(at)
    case DueIn(n) => "Due in " + NatToString(n) + Days(n)
    case DaysAgo(n) => NatToString(n) + Days(n) + " ago"
    case OnDate(at) => formatDate(at)
  }

  /** The plural "s" appears exactly when more than one day is meant. */
  lemma PluralDays(n: nat, formatDate: int -> string, formatTime: int -> string)
    ensures var r := Render(DueIn(n), formatDate, formatTime); r[|r| - 1] == 's' <==> n > 1
    ensures var r := Render(DaysAgo(n), formatDate, formatTime); r[|r| - 5] == 's' <==> n > 1
  {
  }

  /** The hours part is left out exactly when there are no whole hours. */
  lemma HoursShownOnlyWhenPositive(h: nat, m: nat, at: int, formatDate: int -> string, formatTime: int -> string)
    ensures var r := Render(TodayIn(h, m, at), formatDate, formatTime);
            var prefix := "Today • in ";
            |r| > |prefix| && r[..|prefix|] == prefix
            && (h == 0 <==> r[|prefix|..] == NatToString(m) + "m (at " + formatTime(at) + ")")
  {
    var prefix := "Today • in ";
    var tail := NatToString(m) + "m (at " + formatTime(at) + ")";
    var hs := if h > 0 then NatToString(h) + "h " else "";
    var inner := hs + NatToString(m) + "m (at " + formatTime(at) + ")";
    var r := Render(TodayIn(h, m, at), formatDate, formatTime);
    assert r == prefix + inner;
    assert r[|prefix|..] == inner;
    assert |inner| == |hs| + |tail|;
    if h == 0 {
      assert inner == tail;
    }
  }

  // ---------------------------------------------------------------------
  // Syncing from the store
  // ---------------------------------------------------------------------

  /** A stored task as a mission card. */
  function FromStored(p: PersonalTask, today: int, now: int, zone: int,
                      formatDate: int -> string, formatTime: int -> string): (c: Mission)
    ensures c.id == p.id && c.title == p.title && c.description == p.description
    ensures c.reward == p.reward && c.isCompleted == p.isCompleted && c.kind == Personal
    ensures c.dueDate == Some(Render(Classify(p, today, now, zone), formatDate, formatTime))
    ensures c.progress.None? && c.target.None?
  {
    Mission(p.id, p.title, p.description, p.reward, p.isCompleted, Personal,
            Some(Render(Classify(p, today, now, zone), formatDate, formatTime)), None, None)
  }

  function NonPersonal(cards: seq<Mission>): (r: seq<Mission>)
    ensures forall c :: c in r <==> c in cards && c.kind != Personal
  {
    Filter(cards, (c: Mission) => c.kind != Personal)
  }

  /** `syncFromStore`: the page's missions that are not personal, in order,
      then one card per stored task, in store order. */
  function Sync(cards: seq<Mission>, stored: seq<PersonalTask>, today: int, now: int, zone: int,
                formatDate: int -> string, formatTime: int -> string): (r: seq<Mission>)
    ensures |r| == |NonPersonal(cards)| + |stored|
    ensures r[..|NonPersonal(cards)|] == NonPersonal(cards)
    ensures forall i :: 0 <= i < |stored| ==>
              r[|NonPersonal(cards)| + i] == FromStored(stored[i], today, now, zone, formatDate, formatTime)
    ensures forall c :: c in r && c.kind != Personal <==> c in cards && c.kind != Personal
  {
    NonPersonal(cards)
      + seq(|stored|, i requires 0 <= i < |stored| => FromStored(stored[i], today, now, zone, formatDate, formatTime))
  }

  lemma {:induction false} FilterAllKept<T(!new)>(s: seq<T>, keep: T -> bool)
    requires forall x :: x in s ==> keep(x)
    ensures Filter(s, keep) == s
  {
  }

  lemma {:induction false} FilterAppendDropped<T(!new)>(s: seq<T>, t: seq<T>, keep: T -> bool)
    requires forall x :: x in t ==> !keep(x)
    ensures Filter(s + t, keep) == Filter(s, keep)
  {
    if |s| == 0 {
      assert s + t == t;
      FilterNoneKept(t, keep);
    } else {
      assert (s + t)[1..] == s[1..] + t;
      assert s + t == [s[0]] + (s[1..] + t);
      FilterAppendDropped(s[1..], t, keep);
    }
  }

  lemma {:induction false} FilterNoneKept<T(!new)>(t: seq<T>, keep: T -> bool)
    requires forall x :: x in t ==> !keep(x)
    ensures Filter(t, keep) == []
  {
    if |t| > 0 {
      assert t[0] in t;
      FilterNoneKept(t[1..], keep);
    }
  }

  /** Syncing again from the same store changes nothing. */
  lemma SyncIdempotent(cards: seq<Mission>, stored: seq<PersonalTask>, today: int, now: int, zone: int,
                       formatDate: int -> string, formatTime: int -> string)
    ensures var once := Sync(cards, stored, today, now, zone, formatDate, formatTime);
            Sync(once, stored, today, now, zone, formatDate, formatTime) == once
  {
    var np := NonPersonal(cards);
    var cardsOut := seq(|stored|, i requires 0 <= i < |stored| => FromStored(stored[i], today, now, zone, formatDate, formatTime));
    var keep := (c: Mission) => c.kind != Personal;
    assert Sync(cards, stored, today, now, zone, formatDate, formatTime) == np + cardsOut;
    FilterAppendDropped(np, cardsOut, keep);
    FilterAllKept(np, keep);
    assert NonPersonal(np + cardsOut) == np;
  }

  // ---------------------------------------------------------------------
  // Statistics
  // ---------------------------------------------------------------------

  /** `getTasksByType`. */
  function ByKind(cards: seq<Mission>, kind: Kind): (r: seq<Mission>)
    ensures forall c :: c in r <==> c in cards && c.kind == kind
    ensures |r| <= |cards|
  {
    Filter(cards, (c: Mission) => c.kind == kind)
  }

  /** The number of completed cards. */
  function CountCompleted(cards: seq<Mission>): (n: nat)
    ensures n <= |cards|
    ensures n == |cards| <==> forall i :: 0 <= i < |cards| ==> cards[i].isCompleted
    ensures n == 0 <==> forall i :: 0 <= i < |cards| ==> !cards[i].isCompleted
  {
    if |cards| == 0 then 0 else (if cards[0].isCompleted then 1 else 0) + CountCompleted(cards[1..])
  }

  predicate Done(c: Mission) {
    c.isCompleted
  }

  /** The count is the length of `filter(task => task.isCompleted)`. */
  lemma {:induction false} CountCompletedIsFilterLength(cards: seq<Mission>)
    ensures CountCompleted(cards) == |Filter(cards, Done)|
  {
    if |cards| > 0 {
      CountCompletedIsFilterLength(cards[1..]);
    }
  }

  /** Counting is additive over a concatenation of card lists. */
  lemma {:induction false} CountCompletedAppend(a: seq<Mission>, b: seq<Mission>)
    ensures CountCompleted(a + b) == CountCompleted(a) + CountCompleted(b)
  {
    CountCompletedIsFilterLength(a + b);
    CountCompletedIsFilterLength(a);
    CountCompletedIsFilterLength(b);
    FilterAppend(a, b, Done);
  }

  datatype Stats = Stats(completed: nat, total: nat, percentage: nat)

  /** `getStats`: completed and total missions of one kind and the rounded
      percentage `Math.round(completed / total * 100)`, 0 for no missions. */
  function GetStats(cards: seq<Mission>, kind: Kind): (s: Stats)
    ensures s.total == |ByKind(cards, kind)| && s.completed == CountCompleted(ByKind(cards, kind))
    ensures s.completed <= s.total && s.percentage <= 100
    ensures s.total == 0 ==> s.percentage == 0
    ensures s.total > 0 ==> 200 * s.completed - s.total < 2 * s.total * s.percentage <= 200 * s.completed + s.total
  {
    var typed := ByKind(cards, kind);
    var c, t := CountCompleted(typed), |typed|;
    Stats(c, t, if t > 0 then Percent(c, t) else 0)
  }

  /** The nearest whole percentage, halves rounded up. */
  function Percent(c: nat, t: nat): (p: nat)
    requires 0 < t && c <= t
    ensures p <= 100
    ensures 200 * c - t < 2 * t * p <= 200 * c + t
  {
    var p := (200 * c + t) / (2 * t);
    QuotientBounds(200 * c + t, 2 * t);
    QuotientBelow(200 * c + t, 2 * t, 101);
    assert 2 * t * p == p * (2 * t);
    p
  }

  lemma QuotientBounds(a: nat, d: nat)
    requires d > 0
    ensures (a / d) * d <= a < (a / d + 1) * d
  {
  }

  /** A quotient stays below `k` when the dividend is below `k` divisors. */
  lemma QuotientBelow(a: nat, d: nat, k: nat)
    requires d > 0 && a < k * d
    ensures a / d < k
  {
    var q := a / d;
    QuotientBounds(a, d);
    assert q * d < k * d;
    ProductOrder(q, k, d);
  }

  lemma ProductOrder(x: nat, k: nat, d: nat)
    requires d > 0 && x * d < k * d
    ensures x < k
  {
    if k <= x {
      MulMono(k, x, d);
      assert false;
    }
  }

  lemma MulMono(k: nat, x: nat, d: nat)
    requires k <= x
    ensures k * d <= x * d
  {
    assert x * d == k * d + (x - k) * d;
  }

  /** The percentage is 100 when every mission of the kind is done and 0 when
      none is. */
  lemma StatsExtremes(cards: seq<Mission>, kind: Kind)
    ensures var s := GetStats(cards, kind);
            && (s.total > 0 && s.completed == s.total ==> s.percentage == 100)
            && (s.completed == 0 ==> s.percentage == 0)
  {
    var s := GetStats(cards, kind);
    if s.total > 0 {
      var t, p := s.total, s.percentage;
      if s.completed == s.total {
        ProductOrder(99, p, 2 * t);
        ProductOrder(p, 101, 2 * t);
      }
      if s.completed == 0 {
        ProductOrder(p, 1, 2 * t);
      }
    }
  }

  // ---------------------------------------------------------------------
  // Toggling and adding
  // ---------------------------------------------------------------------

  /** The card list's half of `toggleTask`. */
  function ToggleLocal(cards: seq<Mission>, id: string): (r: seq<Mission>)
    ensures |r| == |cards|
    ensures forall i :: 0 <= i < |cards| && cards[i].id != id ==> r[i] == cards[i]
    ensures forall i :: 0 <= i < |cards| && cards[i].id == id ==>
              r[i] == cards[i].(isCompleted := !cards[i].isCompleted)
  {
    seq(|cards|, i requires 0 <= i < |cards| =>
      if cards[i].id == id then cards[i].(isCompleted := !cards[i].isCompleted) else cards[i])
  }

  lemma ToggleLocalTwice(cards: seq<Mission>, id: string)
    ensures ToggleLocal(ToggleLocal(cards, id), id) == cards
  {
  }

  /** The store's half of `toggleTask`: the first stored task with the id
      decides the new state, which is then written to every task with that
      id through the partial update. */
  function ToggleStore(stored: seq<PersonalTask>, id: string, now: int): (r: seq<PersonalTask>)
    ensures !HasId(stored, id) ==> r == stored
    ensures |r| == |stored|
    ensures forall i :: 0 <= i < |stored| && stored[i].id != id ==> r[i] == stored[i]
  {
    match FindIndex(stored, id)
    case None => stored
    case Some(k) =>
      var p := stored[k];
      Update(stored, id, EmptyPatch.(isCompleted := Some(!p.isCompleted),
                                     completedAt := Some(if !p.isCompleted then Some(now) else None)))
  }

  /** With one stored task per id, the page's toggle is the store's own
      `toggleCompleted`. */
  lemma {:induction false} ToggleStoreIsToggle(stored: seq<PersonalTask>, id: string, now: int)
    requires CountId(stored, id) <= 1
    ensures ToggleStore(stored, id, now) == Toggle(stored, id, now)
  {
    match FindIndex(stored, id)
    case None =>
    case Some(k) =>
      var r := ToggleStore(stored, id, now);
      var t := Toggle(stored, id, now);
      forall i | 0 <= i < |stored| ensures r[i] == t[i] {
        if stored[i].id == id {
          OnlyIndex(stored, id, k, i);
        }
      }
  }

  /** Two positions with the same id coincide when the id occurs once. */
  lemma OnlyIndex(s: seq<PersonalTask>, id: string, i: nat, j: nat)
    requires i < |s| && j < |s| && s[i].id == id && s[j].id == id && CountId(s, id) <= 1
    ensures i == j
  {
    if i < j {
      CountIdAtTwo(s, id, i, j);
      assert false;
    } else if j < i {
      CountIdAtTwo(s, id, j, i);
      assert false;
    }
  }

  /** The task `addPersonalTask` stores: the given id, title and description,
      reward 50 SP / 10 coins, open, due "Self-paced", unscheduled, and with
      no other field set. */
  predicate FreshPersonal(t: PersonalTask, id: string, title: string, description: string) {
    && t.id == id && t.title == title && t.description == description
    && t.reward == Reward(50, 10) && !t.isCompleted && t.dueDate == Some("Self-paced")
    && t.scheduledStart.None? && t.scheduledEnd.None? && t.completedAt.None?
    && t.progress.None? && t.target.None? && t.category.None? && t.status.None? && t.isMultiDay.None?
  }

  /** `addPersonalTask`: with a title that does not trim to nothing, the new
      task goes to the store (unscheduled) and its card to the end of the
      page's list; otherwise nothing changes. */
  function AddPersonal(cards: seq<Mission>, stored: seq<PersonalTask>, title: string, description: string,
                       freshId: string): (r: (seq<Mission>, seq<PersonalTask>))
    ensures Blank(title) ==> r == (cards, stored)
    ensures !Blank(title) ==>
              && |r.0| == |cards| + 1 && r.0[..|cards|] == cards
              && r.0[|cards|] == Mission(freshId, title, description, Reward(50, 10), false, Personal,
                                         Some("Self-paced"), None, None)
              && HasId(r.1, freshId)
              && (!HasId(stored, freshId) ==>
                    |r.1| == |stored| + 1 && r.1[..|stored|] == stored
                    && FreshPersonal(r.1[|stored|], freshId, title, description))
              && (HasId(stored, freshId) ==>
                    |r.1| == |stored|
                    && var k := FindIndex(stored, freshId).value;
                       FreshPersonal(r.1[k], freshId, title, description)
                       && forall j :: 0 <= j < |stored| && j != k ==> r.1[j] == stored[j])
  {
    if Blank(title) then (cards, stored)
    else
      var t := PersonalTask(freshId, title, description, Reward(50, 10), false, Some("Self-paced"),
                            None, None, None, None, None, None, None, None);
      (cards + [Mission(freshId, title, description, Reward(50, 10), false, Personal, Some("Self-paced"), None, None)],
       Upsert(stored, t))
  }
}

=== FILE: personal_tasks.dfy ===
/** The personal-task store of lib/personal-tasks.ts: the browser storage slot
    is a plain value, and every store operation is a pure function from the
    loaded list to the list it saves and returns. */
module PersonalTasks {
  import opened Common

  datatype Category = Marketing | Sales | Finances | Other
  datatype Status = Todo | InProgress | Done
  datatype Reward = Reward(sp: int, coins: int)

  /** One stored task. Timestamps are instants in milliseconds; an absent,
      `null` or empty ISO string is `None`. */
  datatype PersonalTask = PersonalTask(
    id: string,
    title: string,
    description: string,
    reward: Reward,
    isCompleted: bool,
    dueDate: Option<string>,
    progress: Option<int>,
    target: Option<int>,
    scheduledStart: Option<int>,
    scheduledEnd: Option<int>,
    category: Option<Category>,
    status: Option<Status>,
    isMultiDay: Option<bool>,
    completedAt: Option<int>)
  {
    /** `task.isMultiDay` is truthy. */
    predicate MultiDay() {
      isMultiDay == Some(true)
    }
  }

  /** `Partial<PersonalTask>`: each present field overrides the task's own. */
  datatype Patch = Patch(
    id: Option<string>,
    title: Option<string>,
    description: Option<string>,
    reward: Option<Reward>,
    isCompleted: Option<bool>,
    dueDate: Option<Option<string>>,
    progress: Option<Option<int>>,
    target: Option<Option<int>>,
    scheduledStart: Option<Option<int>>,
    scheduledEnd: Option<Option<int>>,
    category: Option<Option<Category>>,
    status: Option<Option<Status>>,
    isMultiDay: Option<Option<bool>>,
    completedAt: Option<Option<int>>)

  const EmptyPatch := Patch(None, None, None, None, None, None, None, None, None, None, None, None, None, None)

  // ---------------------------------------------------------------------
  // Storage slot
  // ---------------------------------------------------------------------

  /** What `JSON.parse` makes of the stored text. */
  datatype Json = Unparsable | NotAnArray | TaskArray(tasks: seq<PersonalTask>)

  /** Server rendering has no `window`; in the browser the slot may be unset. */
  datatype Storage = NoWindow | Browser(slot: Option<string>)

  /** The text is non-empty and parses to an array. */
  predicate HoldsArray(storage: Storage, parse: string -> Json) {
    storage.Browser? && storage.slot.Some? && storage.slot.value != ""
    && parse(storage.slot.value).TaskArray?
  }

  /** `loadPersonalTasks`: the stored array, or the empty list whenever there
      is no window, no (or empty) text, text that does not parse, or a value
      that is not an array. */
  function Load(storage: Storage, parse: string -> Json): (r: seq<PersonalTask>)
    ensures !HoldsArray(storage, parse) ==> r == []
    ensures HoldsArray(storage, parse) ==> r == parse(storage.slot.value).tasks
  {
    match storage
    case NoWindow => []
    case Browser(slot) =>
      if slot.None? || slot.value == "" then []
      else match parse(slot.value)
        case TaskArray(ts) => ts
        case _ => []
  }

  /** `savePersonalTasks`: replaces the whole slot; nothing happens without a
      window. */
  function Save(storage: Storage, tasks: seq<PersonalTask>, serialize: seq<PersonalTask> -> string): (r: Storage)
    ensures storage.NoWindow? ==> r == NoWindow
    ensures storage.Browser? ==> r == Browser(Some(serialize(tasks)))
  {
    if storage.NoWindow? then NoWindow else Browser(Some(serialize(tasks)))
  }

  /** Read-after-write: what a store operation saves is what the next load
      returns, given a serializer whose output parses back. */
  lemma LoadAfterSave(storage: Storage, tasks: seq<PersonalTask>, serialize: seq<PersonalTask> -> string, parse: string -> Json)
    requires storage.Browser?
    requires serialize(tasks) != "" && parse(serialize(tasks)) == TaskArray(tasks)
    ensures Load(Save(storage, tasks, serialize), parse) == tasks
  {
  }

  // ---------------------------------------------------------------------
  // Lookup
  // ---------------------------------------------------------------------

  predicate HasId(tasks: seq<PersonalTask>, id: string) {
    exists i :: 0 <= i < |tasks| && tasks[i].id == id
  }

  /** `tasks.findIndex(t => t.id === id)`, with `-1` as `None`. */
  function FindIndex(tasks: seq<PersonalTask>, id: string): (r: Option<nat>)
    ensures r.Some? ==> r.value < |tasks| && tasks[r.value].id == id
    ensures r.Some? ==> forall j :: 0 <= j < r.value ==> tasks[j].id != id
    ensures r.None? <==> !HasId(tasks, id)
  {
    if |tasks| == 0 then None
    else if tasks[0].id == id then Some(0)
    else match FindIndex(tasks[1..], id)
      case None => assert forall j :: 1 <= j < |tasks| ==> tasks[j] == tasks[1..][j - 1]; None
      case Some(k) => Some(k + 1)
  }

  /** How many tasks carry `id`. */
  function CountId(tasks: seq<PersonalTask>, id: string): nat {
    if |tasks| == 0 then 0
    else (if tasks[0].id == id then 1 else 0) + CountId(tasks[1..], id)
  }

  // ---------------------------------------------------------------------
  // Store operations
  // ---------------------------------------------------------------------

  /** `upsertPersonalTask`: replace the first task with the same id in place,
      or append when no task has it. */
  function Upsert(tasks: seq<PersonalTask>, task: PersonalTask): (r: seq<PersonalTask>)
    ensures HasId(tasks, task.id) ==>
      |r| == |tasks|
      && var i := FindIndex(tasks, task.id).value;
         r[i] == task && forall j :: 0 <= j < |tasks| && j != i ==> r[j] == tasks[j]
    ensures !HasId(tasks, task.id) ==>
      |r| == |tasks| + 1 && r[..|tasks|] == tasks && r[|tasks|] == task
  {
    match FindIndex(tasks, task.id)
    case Some(i) => tasks[i := task]
    case None => tasks + [task]
  }

  /** A fresh id ends up on exactly one task, the one upserted. */
  lemma {:induction false} UpsertFreshIsUnique(tasks: seq<PersonalTask>, task: PersonalTask)
    requires !HasId(tasks, task.id)
    ensures CountId(Upsert(tasks, task), task.id) == 1
  {
    CountIdAppend(tasks, [task], task.id);
    CountIdAbsent(tasks, task.id);
    assert [task][1..] == [];
  }

  /** Upserting twice under one id replaces rather than duplicates. */
  lemma UpsertSameIdReplaces(tasks: seq<PersonalTask>, t1: PersonalTask, t2: PersonalTask)
    requires t1.id == t2.id
    ensures Upsert(Upsert(tasks, t1), t2) == Upsert(tasks, t2)
  {
    var once := Upsert(tasks, t1);
    if !HasId(tasks, t1.id) {
      assert once[|tasks|].id == t2.id;
      assert FindIndex(once, t2.id) == Some(|tasks|);
    } else {
      var i := FindIndex(tasks, t1.id).value;
      assert once[i].id == t2.id;
      assert forall j :: 0 <= j < i ==> once[j] == tasks[j];
      assert FindIndex(once, t2.id) == Some(i);
    }
  }

  lemma {:induction false} CountIdAppend(a: seq<PersonalTask>, b: seq<PersonalTask>, id: string)
    ensures CountId(a + b, id) == CountId(a, id) + CountId(b, id)
  {
    if |a| > 0 {
      assert (a + b)[1..] == a[1..] + b;
      CountIdAppend(a[1..], b, id);
    } else {
      assert a + b == b;
    }
  }

  /** Two positions carrying `id` make it counted at least twice. */
  lemma CountIdAtTwo(tasks: seq<PersonalTask>, id: string, lo: nat, hi: nat)
    requires lo < hi < |tasks| && tasks[lo].id == id && tasks[hi].id == id
    ensures CountId(tasks, id) >= 2
  {
    var a, b, c := tasks[..lo], tasks[lo + 1..hi], tasks[hi + 1..];
    assert tasks == a + ([tasks[lo]] + (b + ([tasks[hi]] + c)));
    CountIdAppend(a, [tasks[lo]] + (b + ([tasks[hi]] + c)), id);
    CountIdAppend([tasks[lo]], b + ([tasks[hi]] + c), id);
    CountIdAppend(b, [tasks[hi]] + c, id);
    CountIdAppend([tasks[hi]], c, id);
  }

  lemma {:induction false} CountIdAbsent(tasks: seq<PersonalTask>, id: string)
    requires !HasId(tasks, id)
    ensures CountId(tasks, id) == 0
  {
    if |tasks| > 0 {
      assert !HasId(tasks[1..], id) by {
        forall j | 0 <= j < |tasks[1..]| ensures tasks[1..][j].id != id {
          assert tasks[1..][j] == tasks[j + 1];
        }
      }
      CountIdAbsent(tasks[1..], id);
    }
  }

  /** `removePersonalTask`: keep the tasks whose id differs, in order. */
  function Remove(tasks: seq<PersonalTask>, id: string): (r: seq<PersonalTask>)
    ensures |r| <= |tasks|
    ensures forall t :: t in r <==> t in tasks && t.id != id
    ensures !HasId(tasks, id) ==> r == tasks
    ensures HasId(tasks, id) ==> |r| < |tasks|
  {
    if |tasks| == 0 then []
    else
      assert HasId(tasks, id) && tasks[0].id != id ==> HasId(tasks[1..], id) by {
        if HasId(tasks, id) && tasks[0].id != id {
          var j :| 0 <= j < |tasks| && tasks[j].id == id;
          assert tasks[1..][j - 1] == tasks[j];
        }
      }
      assert !HasId(tasks, id) ==> !HasId(tasks[1..], id) by {
        if HasId(tasks[1..], id) {
          var j :| 0 <= j < |tasks[1..]| && tasks[1..][j].id == id;
          assert tasks[j + 1] == tasks[1..][j];
        }
      }
      assert tasks == [tasks[0]] + tasks[1..];
      (if tasks[0].id == id then [] else [tasks[0]]) + Remove(tasks[1..], id)
  }

  /** Removal works element by element, so the kept tasks keep their order. */
  lemma RemoveAppend(a: seq<PersonalTask>, b: seq<PersonalTask>, id: string)
    ensures Remove(a + b, id) == Remove(a, id) + Remove(b, id)
  {
    RemoveIsKeep(a + b, id);
    RemoveIsKeep(a, id);
    RemoveIsKeep(b, id);
    KeepAppend(a, b, id);
  }

  /** `Remove` without its contract, for reasoning about concatenation. */
  function Keep(tasks: seq<PersonalTask>, id: string): seq<PersonalTask> {
    if |tasks| == 0 then [] else (if tasks[0].id == id then [] else [tasks[0]]) + Keep(tasks[1..], id)
  }

  lemma {:induction false} RemoveIsKeep(tasks: seq<PersonalTask>, id: string)
    ensures Remove(tasks, id) == Keep(tasks, id)
  {
    if |tasks| > 0 {
      RemoveIsKeep(tasks[1..], id);
    }
  }

  lemma {:induction false} KeepAppend(a: seq<PersonalTask>, b: seq<PersonalTask>, id: string)
    ensures Keep(a + b, id) == Keep(a, id) + Keep(b, id)
  {
    if |a| == 0 {
      assert a + b == b;
    } else {
      assert (a + b)[0] == a[0] && (a + b)[1..] == a[1..] + b;
      KeepAppend(a[1..], b, id);
    }
  }

  /** The flip `togglePersonalTaskCompleted` applies to one task. */
  function Flip(t: PersonalTask, now: int): PersonalTask {
    t.(isCompleted := !t.isCompleted, completedAt := if !t.isCompleted then Some(now) else None)
  }

  /** `togglePersonalTaskCompleted`: every task with the id flips its
      completion and stamps or clears `completedAt`; nothing else changes. */
  function Toggle(tasks: seq<PersonalTask>, id: string, now: int): (r: seq<PersonalTask>)
    ensures |r| == |tasks|
    ensures forall i :: 0 <= i < |tasks| && tasks[i].id != id ==> r[i] == tasks[i]
    ensures forall i :: 0 <= i < |tasks| && tasks[i].id == id ==>
      && r[i].isCompleted == !tasks[i].isCompleted
      && (r[i].isCompleted <==> r[i].completedAt.Some?)
      && (r[i].isCompleted ==> r[i].completedAt == Some(now))
      && r[i].(isCompleted := tasks[i].isCompleted, completedAt := tasks[i].completedAt) == tasks[i]
  {
    seq(|tasks|, i requires 0 <= i < |tasks| => if tasks[i].id == id then Flip(tasks[i], now) else tasks[i])
  }

  /** Toggling twice restores every completion flag; it restores the list
      itself when the matching tasks were open with no completion stamp. */
  lemma ToggleTwice(tasks: seq<PersonalTask>, id: string, now1: int, now2: int)
    ensures var r := Toggle(Toggle(tasks, id, now1), id, now2);
      && |r| == |tasks|
      && (forall i :: 0 <= i < |tasks| ==> r[i].isCompleted == tasks[i].isCompleted)
      && ((forall i :: 0 <= i < |tasks| && tasks[i].id == id ==> !tasks[i].isCompleted && tasks[i].completedAt.None?)
          ==> r == tasks)
  {
  }

  /** `schedulePersonalTask`: set both schedule fields of the matching tasks. */
  function Schedule(tasks: seq<PersonalTask>, id: string, start: int, end: int): (r: seq<PersonalTask>)
    ensures |r| == |tasks|
    ensures forall i :: 0 <= i < |tasks| && tasks[i].id != id ==> r[i] == tasks[i]
    ensures forall i :: 0 <= i < |tasks| && tasks[i].id == id ==>
      && r[i].scheduledStart == Some(start) && r[i].scheduledEnd == Some(end)
      && r[i].(scheduledStart := tasks[i].scheduledStart, scheduledEnd := tasks[i].scheduledEnd) == tasks[i]
  {
    seq(|tasks|, i requires 0 <= i < |tasks| =>
      if tasks[i].id == id then tasks[i].(scheduledStart := Some(start), scheduledEnd := Some(end)) else tasks[i])
  }

  /** One field after a spread: the patch's value when the patch has the
      field, otherwise the value before. */
  predicate Spread<T(==)>(after: T, patched: Option<T>, before: T) {
    && (patched.Some? ==> after == patched.value)
    && (patched.None? ==> after == before)
  }

  /** `{ ...t, ...patch }`. */
  function Apply(t: PersonalTask, p: Patch): (r: PersonalTask)
    ensures p == EmptyPatch ==> r == t
    ensures Spread(r.id, p.id, t.id)
    ensures Spread(r.title, p.title, t.title)
    ensures Spread(r.description, p.description, t.description)
    ensures Spread(r.reward, p.reward, t.reward)
    ensures Spread(r.isCompleted, p.isCompleted, t.isCompleted)
    ensures Spread(r.dueDate, p.dueDate, t.dueDate)
    ensures Spread(r.progress, p.progress, t.progress)
    ensures Spread(r.target, p.target, t.target)
    ensures Spread(r.scheduledStart, p.scheduledStart, t.scheduledStart)
    ensures Spread(r.scheduledEnd, p.scheduledEnd, t.scheduledEnd)
    ensures Spread(r.category, p.category, t.category)
    ensures Spread(r.status, p.status, t.status)
    ensures Spread(r.isMultiDay, p.isMultiDay, t.isMultiDay)
    ensures Spread(r.completedAt, p.completedAt, t.completedAt)
  {
    PersonalTask(
      p.id.GetOr(t.id),
      p.title.GetOr(t.title),
      p.description.GetOr(t.description),
      p.reward.GetOr(t.reward),
      p.isCompleted.GetOr(t.isCompleted),
      p.dueDate.GetOr(t.dueDate),
      p.progress.GetOr(t.progress),
      p.target.GetOr(t.target),
      p.scheduledStart.GetOr(t.scheduledStart),
      p.scheduledEnd.GetOr(t.scheduledEnd),
      p.category.GetOr(t.category),
      p.status.GetOr(t.status),
      p.isMultiDay.GetOr(t.isMultiDay),
      p.completedAt.GetOr(t.completedAt))
  }

  /** Two successive spreads: the later patch wins field by field. */
  function Merge(p1: Patch, p2: Patch): Patch {
    Patch(
      if p2.id.Some? then p2.id else p1.id,
      if p2.title.Some? then p2.title else p1.title,
      if p2.description.Some? then p2.description else p1.description,
      if p2.reward.Some? then p2.reward else p1.reward,
      if p2.isCompleted.Some? then p2.isCompleted else p1.isCompleted,
      if p2.dueDate.Some? then p2.dueDate else p1.dueDate,
      if p2.progress.Some? then p2.progress else p1.progress,
      if p2.target.Some? then p2.target else p1.target,
      if p2.scheduledStart.Some? then p2.scheduledStart else p1.scheduledStart,
      if p2.scheduledEnd.Some? then p2.scheduledEnd else p1.scheduledEnd,
      if p2.category.Some? then p2.category else p1.category,
      if p2.status.Some? then p2.status else p1.status,
      if p2.isMultiDay.Some? then p2.isMultiDay else p1.isMultiDay,
      if p2.completedAt.Some? then p2.completedAt else p1.completedAt)
  }

  /** Spreading the same patch again changes nothing. */
  lemma ApplyTwice(t: PersonalTask, p: Patch)
    ensures Apply(Apply(t, p), p) == Apply(t, p)
  {
  }

  /** `updatePersonalTask`: shallow-merge the patch into the matching tasks. */
  function Update(tasks: seq<PersonalTask>, id: string, p: Patch): (r: seq<PersonalTask>)
    ensures |r| == |tasks|
    ensures forall i :: 0 <= i < |tasks| && tasks[i].id != id ==> r[i] == tasks[i]
    ensures forall i :: 0 <= i < |tasks| && tasks[i].id == id ==> r[i] == Apply(tasks[i], p)
    ensures p == EmptyPatch ==> r == tasks
  {
    seq(|tasks|, i requires 0 <= i < |tasks| => if tasks[i].id == id then Apply(tasks[i], p) else tasks[i])
  }

  /** Two updates of the same task compose into one update with the merged
      patch, provided the first does not move the task to another id. */
  lemma UpdateTwice(tasks: seq<PersonalTask>, id: string, p1: Patch, p2: Patch)
    requires p1.id.None? || p1.id == Some(id)
    ensures Update(Update(tasks, id, p1), id, p2) == Update(tasks, id, Merge(p1, p2))
  {
  }

  /** Rescheduling is the update that patches just the two schedule fields. */
  lemma ScheduleIsUpdate(tasks: seq<PersonalTask>, id: string, start: int, end: int)
    ensures Schedule(tasks, id, start, end)
         == Update(tasks, id, EmptyPatch.(scheduledStart := Some(Some(start)), scheduledEnd := Some(Some(end))))
  {
  }
}
